=== FILE: README.md ===
# TestsSharedLibrary core, modelled in Dafny

This project models four parts of the TestsSharedLibrary test-helper library. Each is written as
immutable datatypes and pure functions, plus one imperative method for the validator's main
loop. It proves properties about the model.

- **Structural equality validator.** This is `ValidateObjectsAreEqualAsync` in `TestsHelper.cs`,
  with `IsPrimitiveType` and the frame class `ObjectEqualityValidationData`. The model walks two
  object graphs in lockstep on an explicit stack of frames. A frame lists:
  - the properties of the type,
  - then its fields,
  - then, for enumerable types, a `GetEnumerator` pseudo-member whose value is the object itself.

  An enumerable member's values are compared element by element. Primitive-classified values
  (strings, value types, primitives) are compared with `Equals`. The first difference fails.
  Cycles are cut by two records:
  - the set of (expected, actual) pairs already pushed;
  - the set of `{expectedId}_{actualId}_{memberName}` keys.

  The starting, completed and failure callbacks are recorded as a trace of events.
- **Project-folder extraction** (`TryGetFilePathRelativeToTestProjectFolderLocal`, the branch
  with no relative path). It finds `\<project>\bin\` in a directory string.
- **Random-number utilities:**
  - `RandomNumberGenerator` (inclusive ranges over `System.Random`);
  - `RandomNumbersRange`;
  - the cumulative-probability bucket table of `ProbabilityBasedRandomNumberGenerator`;
  - the record/replay state machine of `SimulationRandomNumberGenerator`, with the
    comma-separated `Values` list it writes and reads back.
- **Test statistics tree:**
  - leaf statistics and exclusive or non-exclusive groups, with counters;
  - single-assignment parent links;
  - adding children through a filter;
  - `TestStatistics` rounds;
  - path rendering and path matching;
  - the parent search;
  - the pre-order visitor with early stop.

Layout, one module per file:

| file | module | what it holds |
|---|---|---|
| `base.dfy` | `Base` | `Option`, `Result`, the 32-bit integer range and wrap-around |
| `text.dfy` | `Text` | `Trim`, `IsNullOrWhiteSpace` |
| `project_folder.dfy` | `ProjectFolder` | first-occurrence search, the project folder |
| `random_number_generator.dfy` | `RandomNumberGenerator` | the `System.Random` oracle, `Next`, seed factories |
| `random_numbers_range.dfy` | `RandomNumbersRange` | the range constructor and its enumeration |
| `probability_based_generator.dfy` | `ProbabilityBasedGenerator` | the bucket table, adds, `GetRandomNumber` |
| `bucket_selection_counts.dfy` | `BucketSelectionCounts` | how many draws select each bucket, and the corrected draw |
| `values_list.dfy` | `ValuesList` | `int.TryParse`, `string.Join(",", …)`, `Split(',')`, and their round trip |
| `simulation_generator.dfy` | `SimulationGenerator` | record/replay `Next`, iteration start, saving, replay of a recording |
| `statistics_tree.dfy` | `StatisticsTree` | statistics, parents, children, filters |
| `statistic_update.dfy` | `StatisticUpdate` | `UpdateStatistic` of leaves and groups, `UpdateStatistics` |
| `statistic_paths.dfy` | `StatisticPaths` | `GetPath`, `IsStatisticsPathAMatch`, parent search |
| `statistic_visitor.dfy` | `StatisticVisitor` | `ProcessTestStatistics` |
| `object_graph.dfy` | `ObjectGraph` | heap, types, member lists, what "equal graphs" means |
| `validation_frame.dfy` | `ValidationFrame` | `ObjectEqualityValidationData`: constructor, `MoveNext`, `GetCurrentData` |
| `validator_step.dfy` | `ValidatorStep` | one round of the main loop; the hook trace |
| `validator_invariant.dfy` | `ValidatorInvariant` | soundness and completeness of a round |
| `validator_measure.dfy` | `ValidatorMeasure` | the termination measure |
| `validator_hooks.dfy` | `ValidatorHooks` | the hook calls stay balanced |
| `object_validator.dfy` | `ObjectValidator` | the main loop and the root checks |

Modelling choices that the contracts rely on:

- **Heap.** A heap maps references to objects. Every non-null value is a heap object, boxed
  primitives included. An object records:
  - its runtime type;
  - the text `ToString` would show;
  - its property and field values in member order;
  - the elements it enumerates.

  `Equals` on primitive-classified values means the same type and the same text.
  `ObjectsCacheDefault` ids are the references themselves.
- **Meaning of "equal".** The validator is judged against `ObjectGraph.Simulation(R)`: every
  pair in the relation `R` has the same type, and every member that is not ignored agrees
  under `R`:
  - nullness agrees;
  - runtime types agree;
  - primitive values are `Equals`;
  - element counts are equal and the elements agree pairwise;
  - composite values are related by `R`.

  The validator passes exactly on roots related by some such `R`, except when the stack limit
  is hit.
- **Random numbers.** `System.Random.Next(lower, upper)` is an oracle. It returns
  `lower + entropy % (upper - lower)` and throws when `lower > upper`. `entropy` is a parameter
  of every operation that draws. Its half-open range is all the model assumes of it.
- **Statistics.** Statistics live in an arena `map<Id, Statistic>`. Parents and children are
  ids. A `Ranking` (parents rank strictly above children) stands for the acyclic object graph
  the library builds. The leaf match predicate and the child filter are function parameters.
- **Hooks.** A callback's effect is an event in the returned trace. A throwing delegate
  becomes an `Err` result.

Some details of the code that the model keeps as they are:

- **Stack limit.** `StackTooDeep` is reported once the stack of frames holds more than
  10000000 entries (TestsHelper.cs:24-29, 288-289). It bounds the depth of the stack, not
  the number of rounds.
- **Display length.** A value text longer than 200 characters is shown as its first 200
  characters followed by " ..." (TestsHelper.cs:342). The length is a fixed constant.
- **Root values.** Two distinct non-null roots are not compared with `Equals` directly; only their
  members are. Enumerable primitive-classified roots (strings, enumerable value types) are still
  compared with `Equals` through the `GetEnumerator` pseudo-member, whose value is the root itself
  (TestsHelper.cs:583-584, 329-331). Composite enumerable roots such as lists are compared element
  by element through that pseudo-member (TestsHelper.cs:614-646), never with `Equals`. A
  non-enumerable primitive-classified root such as `System.Int32` is not compared at all; see
  Findings.
- **Save file.** The save file is named after the simulation id alone, although the helper's
  parameter is called an iteration id (SimulationRandomNumberGenerator.cs:79, 160, 212-214), and
  saving overwrites it. Every iteration of a simulation saves to the same file, so a replay of an
  earlier iteration finds only the last iteration saved. `SimulationGenerator.FileName` keeps this.
- **Null roots.** Reference equality is checked first (TestsHelper.cs:223-250), so two null
  roots pass as the same reference before any null check.
- **Counters.** Statistic and collection counters are `int`s raised with unchecked `++`, so
  they wrap from `int.MaxValue` to `int.MinValue`.

## Model

| member | source | states |
|---|---|---|
| Base.Wrap32 | TestSimulation/ProbabilityBasedRandomNumberGenerator.cs:77 | C# unchecked `int` addition: the result is the 32-bit value congruent to the exact sum modulo 2^32 and equals it when it fits |
| Base.IncrementTimes32IsWrap | TestSimulation/Statistics/TestStatisticBase.cs:22 | n unchecked `++` steps on an `int` give the 32-bit wrap of the exact sum |
| Text.Trim | TestSimulation/SimulationRandomNumberGenerator.cs:71-72 | `string.Trim` returns the middle of the text with only white space removed at either end; neither end of the result is white space, and the result is empty exactly when the text is all white space |
| Text.TrimStart | TestSimulation/SimulationRandomNumberGenerator.cs:71-72 | the kept text is a suffix of the input, everything removed is white space, and it does not start with white space |
| Text.TrimEnd | TestSimulation/SimulationRandomNumberGenerator.cs:71-72 | the kept text is a prefix of the input, everything removed is white space, and it does not end with white space |
| ProjectFolder.IndexOf | TestsHelper.cs:144 | `IndexOf` finds the first position where the marker occurs, and `None` exactly when it occurs nowhere |
| ProjectFolder.TryGetTestProjectFolder | TestsHelper.cs:140-152 | fails naming `\<project>\bin\` exactly when the directory does not contain it; otherwise the folder is the text before its first occurrence followed by `\<project>` |
| RandomNumberGenerator.RandomNext | TestSimulation/RandomNumberGenerator.cs:30 | the `System.Random` oracle throws when lower > upper and otherwise returns a value in [lower, upper), or lower when they are equal |
| RandomNumberGenerator.RandomNextReachesEveryValue | TestSimulation/RandomNumberGenerator.cs:30 | every value of the half-open range is returned for some entropy |
| RandomNumberGenerator.CreateWithNullSeed | TestSimulation/RandomNumberGenerator.cs:36-39 | the generator reports no seed |
| RandomNumberGenerator.CreateWithSeed | TestSimulation/RandomNumberGenerator.cs:42-45 | the reported seed is the one passed in |
| RandomNumberGenerator.CreateWithRandomlyGeneratedSeed | TestSimulation/RandomNumberGenerator.cs:48-53 | the reported seed is a non-negative `Random.Next()` value below `int.MaxValue` |
| RandomNumberGenerator.Next | TestSimulation/RandomNumberGenerator.cs:25-31 | a negative minimum or a maximum below it throws the argument error; `maxValue == int.MaxValue` wraps `maxValue + 1` and the oracle throws; otherwise the value lies in [minValue, maxValue] inclusive |
| RandomNumberGenerator.NextReachesEveryValue | TestSimulation/RandomNumberGenerator.cs:25-31 | every value of [minValue, maxValue] can be returned |
| RandomNumberGenerator.NextUpTo | TestSimulation/RandomNumberGenerator.cs:19-22 | `Next(max)` is `Next(0, max)`: it fails for a negative maximum and otherwise yields a value in [0, max] |
| RandomNumbersRange.Create | TestSimulation/RandomNumbersRange.cs:15-27 | a negative minimum, then a maximum below the minimum, then a capacity that wraps negative (minimum 0, maximum `int.MaxValue`) are rejected, in that order; otherwise the list holds max - min + 1 values, value i being min + i |
| RandomNumbersRange.RangeEnumeratesInterval | TestSimulation/RandomNumbersRange.cs:25-33 | the enumerated values are strictly ascending and are exactly the integers of [min, max] |
| ProbabilityBasedGenerator.NewTable | TestSimulation/ProbabilityBasedRandomNumberGenerator.cs:31-36 | a new generator has no buckets and cumulative probability 0 |
| ProbabilityBasedGenerator.AddForProbability | TestSimulation/ProbabilityBasedRandomNumberGenerator.cs:75-90 | fails when the new 32-bit cumulative sum exceeds the 100% value, then when the candidates are empty; on success appends the bucket last, keeps the cumulative sum at most the 100% value and raises it by exactly the probability when the sum does not overflow |
| ProbabilityBasedGenerator.AddRemaining | TestSimulation/ProbabilityBasedRandomNumberGenerator.cs:93-99 | fails when the cumulative sum already equals the 100% value or the candidates are empty; on success the cumulative sum is exactly the 100% value |
| ProbabilityBasedGenerator.WrapAddsDifference | TestSimulation/ProbabilityBasedRandomNumberGenerator.cs:98 | adding the wrapped remainder to the current sum wraps back to exactly the 100% value |
| ProbabilityBasedGenerator.SelectFrom | TestSimulation/ProbabilityBasedRandomNumberGenerator.cs:48-69 | the chosen bucket is the first non-last bucket whose [lower bound, next lower bound) holds the draw, else the last bucket |
| ProbabilityBasedGenerator.GetRandomNumber | TestSimulation/ProbabilityBasedRandomNumberGenerator.cs:39-72 | fails unless the cumulative sum equals the 100% value; succeeds exactly for a configured table with a non-negative 100% value below `int.MaxValue`; the result is a candidate of the bucket chosen by a draw from [0, 100% value] |
| ProbabilityBasedGenerator.PickCandidate | TestSimulation/ProbabilityBasedRandomNumberGenerator.cs:71 | the value returned is one of the chosen bucket's candidates |
| BucketSelectionCounts.SelectedIffInInterval | TestSimulation/ProbabilityBasedRandomNumberGenerator.cs:48-69 | a draw selects a non-last bucket exactly when it lies in that bucket's interval, and the last bucket exactly when it lies at or above the last lower bound |
| BucketSelectionCounts.SelectionCountOfBucket | TestSimulation/ProbabilityBasedRandomNumberGenerator.cs:44-69 | among the draws 0 .. hi, a non-last bucket is selected by as many draws as its interval overlaps, and the last bucket by all draws from its lower bound to hi |
| BucketSelectionCounts.AsWrittenSelectionCounts | TestSimulation/ProbabilityBasedRandomNumberGenerator.cs:44 | with the inclusive draw from [0, 100% value], every bucket is selected by its probability's count of draws, except the last, which gets one more |
| BucketSelectionCounts.EvenSplitIsUneven | TestSimulation/ProbabilityBasedRandomNumberGenerator.cs:44 | two buckets of 50 out of 100 are selected by 50 and 51 of the 101 possible draws |
| BucketSelectionCounts.GetRandomNumberCorrected | TestSimulation/ProbabilityBasedRandomNumberGenerator.cs:39-72 | the corrected draw, from [0, 100% value - 1], picks a candidate of the bucket whose interval holds it |
| BucketSelectionCounts.CorrectedSelectionCounts | TestSimulation/ProbabilityBasedRandomNumberGenerator.cs:44-69 | with the corrected draw, every bucket is selected by exactly its probability's count of draws |
| ValuesList.DigitsValueOfNatText | TestSimulation/SimulationRandomNumberGenerator.cs:175 | the decimal text of a number reads back as that number |
| ValuesList.Int32Text | TestSimulation/SimulationRandomNumberGenerator.cs:175 | an `int` is written with a leading '-' exactly when negative, followed by digits only |
| ValuesList.ParseInt32Iff | TestSimulation/SimulationRandomNumberGenerator.cs:129 | `int.TryParse` succeeds exactly on texts made of optional white space, an optional sign, at least one digit and optional white space whose signed value fits in 32 bits, and yields that value |
| ValuesList.ParseOfInt32Text | TestSimulation/SimulationRandomNumberGenerator.cs:129 | `int.TryParse` of the text of any `int` gives that `int` back |
| ValuesList.Split | TestSimulation/SimulationRandomNumberGenerator.cs:125 | `Split(',')` yields at least one piece and no piece contains a comma |
| ValuesList.SplitOfJoin | TestSimulation/SimulationRandomNumberGenerator.cs:125 | splitting a comma-join of comma-free pieces gives the pieces back |
| ValuesList.ParsePieces | TestSimulation/SimulationRandomNumberGenerator.cs:127-133 | parsing yields one number per piece, or fails naming a piece that does not parse |
| ValuesList.ParsePiecesElementwise | TestSimulation/SimulationRandomNumberGenerator.cs:127-133 | each parsed number is the parse of the piece at the same position |
| ValuesList.ParsePiecesOfTexts | TestSimulation/SimulationRandomNumberGenerator.cs:127-133 | pieces that each parse give exactly those numbers, in order |
| ValuesList.Parse | TestSimulation/SimulationRandomNumberGenerator.cs:125-133 | a successful read of a `Values` text holds one 32-bit number per comma-separated piece |
| ValuesList.ParseReadsPieces | TestSimulation/SimulationRandomNumberGenerator.cs:125-133 | a `Values` text reads as one 32-bit number per comma-separated piece, each the number its piece denotes; otherwise the error is a piece that denotes no 32-bit number |
| ValuesList.ParseOfJoin | TestSimulation/SimulationRandomNumberGenerator.cs:125-133 | reading back the `Values` text of a non-empty list of `int`s gives that list |
| ValuesList.EmptyListDoesNotReadBack | TestSimulation/SimulationRandomNumberGenerator.cs:125-133 | an empty list is written as "" and reading "" fails on the empty piece |
| SimulationGenerator.Initial | TestSimulation/SimulationRandomNumberGenerator.cs:193-210 | a new simulation generator has no identifiers, records, and holds no numbers |
| SimulationGenerator.CreateWithNullSeed | TestSimulation/SimulationRandomNumberGenerator.cs:193-196 | no seed, record mode, no numbers |
| SimulationGenerator.CreateWithSeed | TestSimulation/SimulationRandomNumberGenerator.cs:199-202 | the seed passed in, record mode, no numbers |
| SimulationGenerator.CreateWithRandomlyGeneratedSeed | TestSimulation/SimulationRandomNumberGenerator.cs:205-210 | a non-negative seed below `int.MaxValue`, record mode, no numbers |
| SimulationGenerator.Next | TestSimulation/SimulationRandomNumberGenerator.cs:35-58 | replay: fails past the last saved number, fails without advancing when the saved number is outside [min, max], else returns it and advances by one; record: succeeds exactly when the base generator does, returns a value in [min, max] and appends it |
| SimulationGenerator.NextUpTo | TestSimulation/RandomNumberGenerator.cs:19-22 | `Next(max)` on the simulation generator returns a value in [0, max], the next saved one when replaying |
| SimulationGenerator.LoadValues | TestSimulation/SimulationRandomNumberGenerator.cs:125-133 | loaded numbers are 32-bit values; the only failure is an unparsable piece |
| SimulationGenerator.StartIteration | TestSimulation/SimulationRandomNumberGenerator.cs:61-151 | a blank simulation id fails, then a blank iteration id; on success the trimmed ids and the reuse flag are stored; record mode succeeds exactly when both ids are present and clears the numbers; replay success means saved data was found, parsed to a non-empty list, and the cursor is at its first number |
| SimulationGenerator.SaveRandomNumbers | TestSimulation/SimulationRandomNumberGenerator.cs:154-190 | fails exactly when no iteration was started; otherwise the saved ids, seed and file name are the generator's, and the `Values` text reads back as the recorded numbers |
| SimulationGenerator.SavedValuesReadBack | TestSimulation/SimulationRandomNumberGenerator.cs:125-175 | the `Values` text written for a non-empty recording reads back as that recording |
| SimulationGenerator.Run | TestSimulation/SimulationRandomNumberGenerator.cs:35-58 | a successful run of n `Next` calls hands out n numbers |
| SimulationGenerator.RunWithinBounds | TestSimulation/SimulationRandomNumberGenerator.cs:35-58 | every number handed out lies in its own call's [min, max] and is a 32-bit value |
| SimulationGenerator.RecordingAppendsDraws | TestSimulation/SimulationRandomNumberGenerator.cs:54-56 | in record mode the recorded list grows by exactly the numbers returned, in order |
| SimulationGenerator.FitsStep | TestSimulation/SimulationRandomNumberGenerator.cs:42-50 | saved numbers fit a run of calls exactly when the next one exists, lies in the first call's range, and the rest fit the remaining calls |
| SimulationGenerator.ReplaySucceedsIffFits | TestSimulation/SimulationRandomNumberGenerator.cs:40-52 | a replayed run succeeds exactly when the saved numbers from the cursor on fit the calls' ranges |
| SimulationGenerator.ReplayHandsOutSaved | TestSimulation/SimulationRandomNumberGenerator.cs:40-52 | a successful replay hands out the saved numbers in order from the cursor and advances the cursor by one per call |
| SimulationGenerator.ReplayStartLoads | TestSimulation/SimulationRandomNumberGenerator.cs:77-140 | a replay start on a parsable, non-empty `Values` text succeeds with those numbers and the cursor at the first |
| SimulationGenerator.RecordingSaves | TestSimulation/SimulationRandomNumberGenerator.cs:154-190 | after a recorded run, saving succeeds and its `Values` text reads back as the recorded numbers |
| SimulationGenerator.ReplayOfSaved | TestSimulation/SimulationRandomNumberGenerator.cs:35-151 | replaying a saved `Values` text against calls whose ranges it fits returns exactly the saved numbers |
| SimulationGenerator.ReplayReproducesRecording | TestSimulation/SimulationRandomNumberGenerator.cs:35-190 | recording a run, saving it, and replaying it with the same calls, on any generator, returns the same numbers |
| StatisticsTree.NewStatistic | TestSimulation/Statistics/TestStatisticBase.cs:11-15 | a new statistic has counter 0, no parent and no children, and no other statistic changes |
| StatisticsTree.SetParent | TestSimulation/Statistics/TestStatisticBase.cs:28-38 | assigning a parent fails exactly when one is already set; on success only that parent link changes |
| StatisticsTree.OnlyAddsChildrenTransitive | TestSimulation/Statistics/TestStatisticGroupBase.cs:13-32 | children are never removed or reordered, over any sequence of additions |
| StatisticsTree.AddChild | TestSimulation/Statistics/TestStatisticGroupBase.cs:23-30 | a filtered-out child leaves everything unchanged; otherwise the call fails exactly when the child already has a parent, and on success the child's parent is the group and it is appended last; no name, kind or counter changes, the group keeps its parent, the child keeps its children, and every other statistic is unchanged |
| StatisticsTree.AddChildKeepsRanked | TestSimulation/Statistics/TestStatisticGroupBase.cs:23-30 | adding a lower-ranked child keeps the parent structure acyclic |
| StatisticsTree.Accepted | TestSimulation/Statistics/TestStatisticGroupBase.cs:25-26 | the accepted children are exactly the inputs not filtered out |
| StatisticsTree.AddChildren | TestSimulation/Statistics/ITestStatisticGroup.cs:18-22 | empty input changes nothing; the children accepted before the stop are appended in input order; an error stops at the first unfiltered child that already has a parent |
| StatisticsTree.AddChildrenSetsParents | TestSimulation/Statistics/ITestStatisticGroup.cs:18-22 | after adding a collection, every accepted child before the stop has the group as its parent, the group's own parent changes only if it was added to itself, and every other statistic is unchanged |
| StatisticUpdate.FirstError | TestSimulation/Statistics/ExclusiveTestStatisticGroup.cs:24-25 | the position of the first failing outcome, with every earlier outcome a success |
| StatisticUpdate.NonExclusiveMeaning | TestSimulation/Statistics/NonExclusiveTestStatisticGroup.cs:20-29 | a non-exclusive group's check succeeds exactly when no child failed, and is true exactly when additionally some child matched |
| StatisticUpdate.ExclusiveMeaning | TestSimulation/Statistics/ExclusiveTestStatisticGroup.cs:21-34 | an exclusive group's check is true exactly when no child failed and exactly one matched, and false exactly when every child succeeded without a match |
| StatisticUpdate.Update | TestSimulation/Statistics/TestStatisticBase.cs:17-26 | the counter rises by one (wrapping at `int.MaxValue`) exactly when the check is true; the completion hook runs last with the same flag; a failing check leaves the counter alone; for a leaf, the check is the match predicate and nothing else is updated; counters change only through logged completions |
| StatisticUpdate.ReachedIff | TestSimulation/Statistics/ExclusiveTestStatisticGroup.cs:21-34 | a group's check updates child k exactly when every earlier child succeeded and, in an exclusive group, at most one earlier child matched: up to and including the second match and nothing after it; in a non-exclusive group, every child in order until one fails |
| StatisticUpdate.UpdateLogIsRefLog | TestSimulation/Statistics/TestStatisticBase.cs:17-26 | the completion hooks an update runs are exactly the reference ones: those of every child the check reaches, in collection order, each child's own completion after its children's, then the statistic's own unless its check failed |
| StatisticUpdate.UpdateCountsRefLog | TestSimulation/Statistics/TestStatisticBase.cs:17-26 | after an update every counter has been raised once for each reference completion reporting an update of its statistic, so a matching leaf that is reached gains exactly one |
| StatisticUpdate.UpdateYieldsEval | TestSimulation/Statistics/TestStatistic.cs:10-13 | the result of updating a statistic equals the reference outcome: the leaf's predicate, or the group's `Decide` over its children |
| StatisticUpdate.UpdateChildrenYieldsDecide | TestSimulation/Statistics/ExclusiveTestStatisticGroup.cs:21-34 | updating children in order, stopping at a failure or a second exclusive match, gives the reference decision |
| StatisticUpdate.DecideAtSecondMatch | TestSimulation/Statistics/ExclusiveTestStatisticGroup.cs:27-28 | a second matching child makes an exclusive group fail, naming both matching children |
| StatisticUpdate.UpdateEach | TestSimulation/Statistics/TestStatistics.cs:27-28 | statistics are updated in order until one fails; counters change only through logged completions |
| StatisticUpdate.UpdateEachLogIsSweepLog | TestSimulation/Statistics/TestStatistics.cs:27-28 | the completion hooks of a sweep are the reference logs of the statistics it reaches, in order, up to and including the first whose update fails |
| StatisticUpdate.UpdateEachCountsSweepLog | TestSimulation/Statistics/TestStatistics.cs:27-28 | after a sweep every counter has been raised once for each reference completion of the reached statistics that reports it updated |
| StatisticUpdate.UpdateEachStopsAtFirstFailure | TestSimulation/Statistics/TestStatistics.cs:27-28 | the sweep stops exactly at the first statistic whose reference outcome fails, with that failure |
| StatisticUpdate.NewRegistry | TestSimulation/Statistics/TestStatistics.cs:13-17 | a new collection keeps its name and the given statistics in order, with counter 0 |
| StatisticUpdate.UpdateStatistics | TestSimulation/Statistics/TestStatistics.cs:23-29 | each call raises the collection counter by one with unchecked `++`, then updates the top-level statistics in order up to and including the first failure, running exactly their reference completion hooks |
| StatisticPaths.PathIds | TestSimulation/Statistics/ITestStatistic.cs:26-37 | the path runs from a parentless statistic down through parent links to the statistic |
| StatisticPaths.RootChainIsPath | TestSimulation/Statistics/ITestStatistic.cs:26-37 | any chain of parent links from a root to a statistic is its path |
| StatisticPaths.GetPathExtendsParentPath | TestSimulation/Statistics/ITestStatistic.cs:26-37 | a parentless statistic's path is "[name]"; otherwise it is the parent's path, then "=>", then "[name]" |
| StatisticPaths.IsStatisticsPathAMatch | TestSimulation/Statistics/ITestStatistic.cs:39-80 | null or empty names never match; without regular expressions it is true exactly when the names are a prefix of the path, of equal length unless starts-with matching is on; regular-expression mode throws exactly when the length pre-check passes, and otherwise returns false |
| StatisticPaths.CompareNames | TestSimulation/Statistics/ITestStatistic.cs:66-79 | the comparison loop is true exactly when the names equal the path entries from the root on |
| StatisticPaths.TryGetParentAsWrittenHangs | TestSimulation/Statistics/ITestStatistic.cs:82-92 | when the parent does not match, the loop as written never ends |
| StatisticPaths.TryGetParentAgreesWhereItEnds | TestSimulation/Statistics/ITestStatistic.cs:85-91 | with no parent, or a matching parent, the loop as written ends with the corrected result: null or the parent |
| StatisticPaths.TryGetParentFindsNearest | TestSimulation/Statistics/ITestStatistic.cs:82-92 | the corrected search returns the nearest matching ancestor, or null when none matches |
| StatisticVisitor.VisitWalksSubtree | TestSimulation/Statistics/TetStatisticsHelpers.cs:27-44 | a subtree is visited in pre-order, children in collection order, ending exactly at the first visit that asks to stop |
| StatisticVisitor.VisitAllWalksForest | TestSimulation/Statistics/TetStatisticsHelpers.cs:37-43 | siblings are visited one subtree after another, and the walk stops at the first visit that asks to stop |
| StatisticVisitor.ProcessVisitsInPreOrder | TestSimulation/Statistics/TetStatisticsHelpers.cs:13-25 | the statistics visited are a prefix of the pre-order of all trees; no visit before the last asked to stop; either the last visit asked to stop or every statistic was visited |
| ObjectGraph.Display | TestsHelper.cs:342-348 | a string longer than 200 characters is shown as its first 200 characters followed by " ..."; any other value is shown as its text |
| ObjectGraph.Members | TestsHelper.cs:448-463 | a type's members are its properties, then its fields, then, exactly for enumerable types, the `GetEnumerator` pseudo-member |
| ObjectGraph.ReadMember | TestsHelper.cs:562-585 | a property or field reads the stored values of both objects; the pseudo-member reads the two objects themselves |
| ObjectGraph.ClashDisagrees | TestsHelper.cs:587-620 | values that differ in nullness or runtime type never agree |
| ObjectGraph.MemberAgreesGrows | TestsHelper.cs:361-375 | agreement under a relation survives enlarging the relation |
| ValidationFrame.NewFrame | TestsHelper.cs:435-466 | the frame constructor fails exactly when the two objects' types differ; otherwise the member list is properties, fields, and the enumerator pseudo-member for enumerables |
| ValidationFrame.Examine | TestsHelper.cs:552-620 | one member: ignored or already-keyed members are passed over; a nullness or type difference fails; otherwise the member becomes current |
| ValidationFrame.ExamineWalks | TestsHelper.cs:552-632 | a member passed over needs no check; a failure means the member is not ignored and its values clash |
| ValidationFrame.NextMember | TestsHelper.cs:552-664 | the member loop only moves forward, only adds keys, and fails only on nullness, type or element-count differences |
| ValidationFrame.NextMemberWalks | TestsHelper.cs:552-664 | every member it passes over is settled, and when no later member clashes the loop does not fail |
| ValidationFrame.MoveNext | TestsHelper.cs:543-664 | with elements left, `MoveNext` moves to the next element; otherwise it advances the member loop; failures are nullness, type or element-count differences |
| ValidationFrame.MoveNextWalks | TestsHelper.cs:543-664 | after `MoveNext` the skipped members are settled and the current one is positioned |
| ValidationFrame.MoveNextFailsOnClash | TestsHelper.cs:543-664 | `MoveNext` fails only if some member from the cursor on clashes |
| ValidationFrame.GetCurrentData | TestsHelper.cs:473-490 | the current data is the frame's parents, its current member, and the current element pair or member values |
| ValidatorStep.CheckCurrent | TestsHelper.cs:295-375 | the starting hook runs before and the completed hook after each member check; a check fails only on an element null mismatch, an `Equals` difference or a type difference of the pushed pair |
| ValidatorStep.CheckShape | TestsHelper.cs:317-375 | a passing check leaves the value pair agreeing under the compared pairs, and either keeps the stack or pushes one new frame for a new pair |
| ValidatorStep.StepFailure | TestsHelper.cs:284-382 | a round fails only with a member-level mismatch |
| ValidatorStep.BalancedAppend | TestsHelper.cs:378-381 | balanced hook traces compose |
| ValidatorInvariant.Initial | TestsHelper.cs:273-281 | the initial state holds the root frame only, with no hooks, keys or compared pairs, and satisfies the soundness invariant |
| ValidatorInvariant.StepKeepsSound | TestsHelper.cs:284-382 | each round keeps the soundness invariant: every finished member and every compared pair agrees |
| ValidatorInvariant.EmptyStackSimulates | TestsHelper.cs:284-382 | when the stack empties, the compared pairs plus the root form a simulation, so the graphs are equal |
| ValidatorInvariant.StepUnderSimulation | TestsHelper.cs:284-382 | when the stacked pairs lie in some simulation, a round does not fail and the stacked pairs stay in it |
| ValidatorInvariant.StepComplete | TestsHelper.cs:284-382 | the same, as an implication valid for every relation |
| ValidatorMeasure.StepDecreases | TestsHelper.cs:361-375 | every round either records a new pair or keeps the pairs and shrinks the remaining work of the stack, so the loop ends on cyclic graphs |
| ValidatorMeasure.MoveNextShrinks | TestsHelper.cs:543-664 | `MoveNext` strictly reduces what a frame has left to examine |
| ValidatorMeasure.NewPairShrinks | TestsHelper.cs:361-375 | recording a new pair leaves fewer unrecorded pairs |
| ValidatorMeasure.StepKeepsBookkept | TestsHelper.cs:361-375 | each pushed pair is pushed once: the push list stays duplicate-free and matches the recorded pairs |
| ValidatorHooks.StepKeepsHooksBalanced | TestsHelper.cs:302-381 | every starting hook is followed by exactly one completed hook, even when the member fails, with the failure callback between them |
| ValidatorHooks.StepStartsNotIgnored | TestsHelper.cs:255-302 | hooks never fire for ignored members |
| ObjectValidator.InitialInvariant | TestsHelper.cs:273-281 | the loop invariant holds before the first round |
| ObjectValidator.RoundKeeps | TestsHelper.cs:284-382 | each round keeps the loop invariant and decreases the termination measure |
| ObjectValidator.ExitPassed | TestsHelper.cs:284-384 | when the stack empties the validation passes, soundly |
| ObjectValidator.ExitTooDeep | TestsHelper.cs:288-289 | a stack deeper than 10000000 frames stops the validation |
| ObjectValidator.Walk | TestsHelper.cs:273-382 | the main loop terminates; success implies a simulation; any simulation containing the roots implies success or the stack limit; hooks balance; each pair is pushed once |
| ObjectValidator.Validate | TestsHelper.cs:217-388 | the same reference or two nulls pass without hooks; one null calls the failure callback and fails; different runtime types fail; otherwise the loop result is sound, complete up to the stack limit, and keeps hooks balanced and off ignored members |
| ObjectValidator.ValidateCorrected | TestsHelper.cs:212-388 | as `Validate`, except that primitive-classified roots pass exactly when `Equals` holds, and otherwise fail showing both values after calling the failure callback; for other roots the same soundness, completeness up to the stack limit, hook and ignore guarantees as `Validate` |
| ObjectValidator.IntRootsPass | TestsHelper.cs:252-281 | as written, the boxed integers 1 and 2 are reported equal |
| ObjectValidator.IntRootsFail | TestsHelper.cs:329-348 | the corrected validation rejects 1 and 2 with their texts "1" and "2" |

## Left out

- File and XML I/O in `SimulationRandomNumberGenerator.cs`: loading and saving, XPath selection and the XML text around `Values`. A replay start takes the `Values` texts of the matching iteration elements as a parameter (`None` for a missing file), and saving returns the file name and the `Values` text instead of writing. Ids are written unescaped into single-quoted XML attributes (lines 173-174), so an id holding `'`, `<` or `&` makes the saved file fail at `LoadXml` (line 90) with the generic exception; SimulationGenerator.ReplayReproducesRecording holds only for ids that survive the XML text.
- Locks in `SimulationRandomNumberGenerator.cs` (lines 37, 69, 166): the model is sequential.
- SimulationGenerator.StartIteration: a failed replay start returns only the error. The partly updated state the source leaves behind (ids and reuse flag already stored, numbers cleared) is not modelled.
- SimulationGenerator.StartIteration: the wrapping of every load failure into one generic exception (lines 143-147) is not modelled. The inner error kind is returned instead.
- The timeout wrapper (`Task.WhenAny` against the clock), logging, `TestsBase.cs` and the visualizers: concurrency, wall-clock time and floating-point display.
- `GetCurrentMemberPath` and the wording of failure messages: failures are modelled as kinds.
- `FilePathHelpers.TryGetAbsoluteFilePath` (the branch with a relative path): a call into code that is not part of this model.
- ProjectFolder.TryGetTestProjectFolder: `IndexOf(string)` is culture-sensitive in .NET; the model uses ordinal search.
- RandomNumbersRange.Create: requires `maxValue < int.MaxValue` unless `minValue <= 0`. With `minValue == 0` and `maxValue == int.MaxValue` the capacity `maxValue - minValue + 1` wraps negative and the list constructor throws; the model returns `NegativeCapacity`. With a larger minimum and `maxValue == int.MaxValue`, `value <= maxValue` always holds, so `++value` wraps and the list keeps growing until an allocation fails; that exhaustion of memory is not modelled.
- ProbabilityBasedGenerator.GetRandomNumber: a table with no buckets can only be fully configured with a 100% value of 0. The source then indexes the list at -1; the model returns `NoBuckets`.
- ObjectValidator.Validate: the loop's exit on a frame with no data (TestsHelper.cs:299-300) cannot be reached once `MoveNext` reports a current member, and is not modelled.
- StatisticPaths.TryGetParentAsWritten: it carries a `fuel` bound. `None` means the loop has not finished after that many iterations, which stands for "does not terminate".
- StatisticPaths.CompareNames: the loop's exit on a missing path node (ITestStatistic.cs:68-69) cannot be reached after the length check, and is not modelled.
- `PropertyInfo.GetValue` on indexers and getters that throw: member values are stored values.
- The expected-to-actual dictionary (TestsHelper.cs:281) uses the objects' own `Equals` and `GetHashCode`. The model uses reference identity, and uses the references as `ObjectsCacheDefault` ids.
- ObjectGraph.ValueEquals: `Equals` on primitive-classified values is abstracted to the same type and the same `ToString` text.
- Exceptions thrown by the caller's hooks, ignore predicate or filter: these are pure functions or trace events in the model.
- `System.Random` internals: the generator is an oracle on an `entropy` parameter. Only its half-open range is modelled.
- ProbabilityBasedGenerator.GetRandomNumber: the injected `IRandomNumberGenerator` is always the plain `RandomNumberGenerator` over the oracle. An injected `SimulationRandomNumberGenerator`, whose replaying `Next` can fail, is not modelled for this call.
- ValuesList.ParseInt32: `int.TryParse` and `int.ToString()` (SimulationRandomNumberGenerator.cs:129, 175) use the current culture. The model uses the invariant culture's sign symbols and white space.
- ObjectGraph.Members: the `GetEnumerator` pseudo-member is always present for enumerable types. In the source `GetMethod("GetEnumerator")` can return null (an explicit interface implementation) or throw when the name is ambiguous, and `MoveNext` then fails (TestsHelper.cs:554-555). That failure is not modelled.
- Cyclic parent links between statistics: assumed absent, not enforced. `AddChildStatistic` (TestStatisticGroupBase.cs:23-30) checks only that the child has no parent yet, so `g.AddChildStatistic(g)` or adding two groups to each other succeeds, and `GetPath` or `UpdateStatistic` on such a structure would not finish. The statistic operations require a `Ranking`, which no cyclic structure has, so these uses are outside the model; `StatisticsTree.AddChildKeepsRanked` states when an addition keeps a `Ranking`.
- StatisticPaths.IsStatisticsPathAMatch: regular-expression mode throws `NotImplementedException` in the source, and is an `Err` in the model.
- The interface-only files (`IRandomNumberGenerator.cs` and the like) carry no behaviour and serve as signatures only.

## Findings

| source | as written | input that shows it | evidently intended | confidence | as-written member | corrected member |
|---|---|---|---|---|---|---|
| TestSimulation/ProbabilityBasedRandomNumberGenerator.cs:44 | the position is drawn with the inclusive `Next(100% value)`, so there are 100% + 1 positions and the last bucket gets one position more than its probability | 100% value 100, two buckets of 50: the first is chosen by 50 of 101 positions, the second by 51 | each bucket is chosen by exactly its probability's share of positions, drawn from [0, 100% value - 1] | medium, not executed | BucketSelectionCounts.AsWrittenSelectionCounts | BucketSelectionCounts.CorrectedSelectionCounts |
| TestSimulation/Statistics/ITestStatistic.cs:87-89 | the loop tests the parent group but never moves to its parent | a statistic whose parent group does not match: the loop never ends | return the nearest matching ancestor group, or null | high, not executed | StatisticPaths.TryGetParentAsWrittenHangs | StatisticPaths.TryGetParentFindsNearest |
| TestsHelper.cs:252-281 | after the type check, the roots go straight into a frame, and a frame compares only members; a non-enumerable primitive-classified root, having neither members nor the `GetEnumerator` pseudo-member, is never compared with `Equals` | boxed integers 1 and 2 (type `System.Int32`, no members): validation passes | compare primitive-classified roots with `Equals`, as primitive-classified members are compared | medium, not executed | ObjectValidator.IntRootsPass | ObjectValidator.ValidateCorrected |

=== FILE: base.dfy ===
/** Failure-carrying wrappers and the 32-bit integer arithmetic of the .NET runtime. */
module Base {

  /** A value that may be missing; stands for a nullable reference. */
  datatype Option<+T> = None | Some(value: T)

  /** The outcome of an operation that may throw: the value, or the exception it raised. */
  datatype Result<+T, +E> = Ok(value: T) | Err(error: E)

  const MinInt32: int := -0x8000_0000
  const MaxInt32: int := 0x7FFF_FFFF
  const TwoTo32: int := 0x1_0000_0000

  predicate IsInt32(x: int) {
    MinInt32 <= x <= MaxInt32
  }

  /** The value an unchecked C# `int` operation yields for the mathematical result `x`. */
  function Wrap32(x: int): (r: int)
    ensures IsInt32(r)
    ensures (r - x) % TwoTo32 == 0
    ensures IsInt32(x) ==> r == x
  {
    (x - MinInt32) % TwoTo32 + MinInt32
  }

  /** A value of a C# `int` variable. */
  type Int32 = x: int | IsInt32(x)

  lemma ModOfSum(x: int, y: int)
    requires x % TwoTo32 == 0 && y % TwoTo32 == 0
    ensures (x + y) % TwoTo32 == 0
  {
    var a := x / TwoTo32;
    var b := y / TwoTo32;
    assert x == a * TwoTo32;
    assert y == b * TwoTo32;
    assert x + y == (a + b) * TwoTo32;
  }

  /** Two 32-bit values that agree modulo 2^32 are equal. */
  lemma CongruentInt32AreEqual(x: int, y: int)
    requires IsInt32(x) && IsInt32(y) && (x - y) % TwoTo32 == 0
    ensures x == y
  {
    var q := (x - y) / TwoTo32;
    assert x - y == q * TwoTo32;
  }

  lemma ModOfDifference(x: int, y: int)
    requires x % TwoTo32 == 0 && y % TwoTo32 == 0
    ensures (x - y) % TwoTo32 == 0
  {
    var a := x / TwoTo32;
    var b := y / TwoTo32;
    assert x == a * TwoTo32;
    assert y == b * TwoTo32;
    assert x - y == (a - b) * TwoTo32;
  }

  /** `Wrap32(x)` is the only 32-bit value congruent to x modulo 2^32. */
  lemma Wrap32Unique(x: int, r: int)
    requires IsInt32(r) && (r - x) % TwoTo32 == 0
    ensures r == Wrap32(x)
  {
    var w := Wrap32(x);
    ModOfDifference(r - x, w - x);
    assert r - w == (r - x) - (w - x);
    CongruentInt32AreEqual(r, w);
  }

  /** Wrapping an intermediate sum changes nothing: n unchecked increments of x wrap once. */
  lemma WrapOfWrapPlus(x: int, n: int)
    ensures Wrap32(Wrap32(x) + n) == Wrap32(x + n)
  {
    var w := Wrap32(x);
    var s := Wrap32(w + n);
    ModOfSum(s - (w + n), w - x);
    assert s - (x + n) == (s - (w + n)) + (w - x);
    Wrap32Unique(x + n, s);
  }

  /** Unchecked `++x` on an `int`. */
  function Increment32(x: Int32): Int32 {
    assert IsInt32(x);
    if x == MaxInt32 then MinInt32 else x + 1
  }

  /** `n` unchecked increments of `x`. */
  function IncrementTimes32(x: Int32, n: nat): Int32 {
    if n == 0 then x else Increment32(IncrementTimes32(x, n - 1))
  }

  lemma {:induction false} IncrementTimes32Add(x: Int32, n1: nat, n2: nat)
    ensures IncrementTimes32(IncrementTimes32(x, n1), n2) == IncrementTimes32(x, n1 + n2)
    decreases n2
  {
    if n2 > 0 {
      IncrementTimes32Add(x, n1, n2 - 1);
    }
  }

  /** Repeated unchecked increments give the wrapped sum. */
  lemma {:induction false} IncrementTimes32IsWrap(x: Int32, n: nat)
    ensures IncrementTimes32(x, n) == Wrap32(x + n)
    decreases n
  {
    if n > 0 {
      var y := IncrementTimes32(x, n - 1);
      IncrementTimes32IsWrap(x, n - 1);
      assert Increment32(y) == Wrap32(y as int + 1);
      WrapOfWrapPlus(x + (n - 1), 1);
    }
  }

  /** Adding one to the largest `int` wraps around to the smallest one. */
  lemma WrapOfMaxPlusOne()
    ensures Wrap32(MaxInt32 + 1) == MinInt32
  {
  }
}

=== FILE: bucket_selection_counts.dfy ===
/**
 * How many of the equally likely drawn positions select each bucket of a probability
 * table. `GetRandomNumber` draws its position with the inclusive `Next(100%)`, so it
 * chooses among 100% + 1 positions: every bucket but the last is selected by exactly
 * its probability's worth of positions, and the last bucket by one more. Drawing from
 * [0, 100% - 1] instead gives every bucket exactly its share.
 */
module BucketSelectionCounts {
  import opened Base
  import opened ProbabilityBasedGenerator
  import RNG = RandomNumberGenerator

  /** The sum of the first k probabilities, without 32-bit wrap-around. */
  function PlainSum(buckets: seq<Bucket>, k: nat): int
    requires k <= |buckets|
  {
    if k == 0 then 0 else PlainSum(buckets, k - 1) + buckets[k - 1].probability
  }

  predicate NonNegative(buckets: seq<Bucket>) {
    forall j :: 0 <= j < |buckets| ==> buckets[j].probability >= 0
  }

  /** A table whose shares are non-negative and add up to 100% without overflowing. */
  predicate Proper(t: Table) {
    && Valid(t)
    && t.buckets != []
    && NonNegative(t.buckets)
    && PlainSum(t.buckets, |t.buckets|) == t.full
    && t.full < MaxInt32
  }

  lemma {:induction false} PlainSumMonotone(buckets: seq<Bucket>, k: nat, m: nat)
    requires NonNegative(buckets) && k <= m <= |buckets|
    ensures PlainSum(buckets, k) <= PlainSum(buckets, m)
    decreases m - k
  {
    if k < m {
      PlainSumMonotone(buckets, k, m - 1);
    }
  }

  /** With non-negative shares summing to at most Int32.MaxValue no running sum wraps. */
  lemma {:induction false} NoWrap(buckets: seq<Bucket>, k: nat)
    requires NonNegative(buckets) && PlainSum(buckets, |buckets|) <= MaxInt32 && k <= |buckets|
    ensures LowerBound(buckets, k) == PlainSum(buckets, k)
  {
    if k > 0 {
      NoWrap(buckets, k - 1);
      PlainSumMonotone(buckets, 0, k);
      PlainSumMonotone(buckets, k, |buckets|);
    }
  }

  lemma LowerBoundMonotone(t: Table, j: nat, m: nat)
    requires Proper(t) && j <= m <= |t.buckets|
    ensures LowerBound(t.buckets, j) <= LowerBound(t.buckets, m)
  {
    NoWrap(t.buckets, j);
    NoWrap(t.buckets, m);
    PlainSumMonotone(t.buckets, j, m);
  }

  /** Every position in [0, LowerBound(m)) lies in one of the first m buckets. */
  lemma {:induction false} SomeBucketHolds(t: Table, r: int, m: nat)
    requires Proper(t) && 0 < m <= |t.buckets| && 0 <= r < LowerBound(t.buckets, m)
    ensures exists j :: 0 <= j < m && InBucket(t.buckets, r, j)
  {
    if r >= LowerBound(t.buckets, m - 1) {
      assert InBucket(t.buckets, r, m - 1);
    } else {
      assert m - 1 != 0;
      SomeBucketHolds(t, r, m - 1);
    }
  }

  /** Which positions select bucket k: its own interval, or everything from the last bucket's lower end on. */
  lemma SelectedIffInInterval(t: Table, r: int, k: nat)
    requires Proper(t) && k < |t.buckets| && 0 <= r
    ensures k < |t.buckets| - 1 ==> (SelectBucket(t.buckets, r) == k <==> InBucket(t.buckets, r, k))
    ensures k == |t.buckets| - 1 ==> (SelectBucket(t.buckets, r) == k <==> LowerBound(t.buckets, k) <= r)
  {
    var n := |t.buckets|;
    var s := SelectBucket(t.buckets, r);
    if k < n - 1 && InBucket(t.buckets, r, k) && s != k {
      if s < k {
        LowerBoundMonotone(t, s + 1, k);
      }
    }
    if k == n - 1 {
      if s == k && r < LowerBound(t.buckets, k) {
        assert k != 0;
        SomeBucketHolds(t, r, k);
      }
      if s < k && LowerBound(t.buckets, k) <= r {
        LowerBoundMonotone(t, s + 1, k);
      }
    }
  }

  /** The number of positions in [lo, hi) that select bucket k. */
  function SelectionCount(buckets: seq<Bucket>, k: nat, lo: int, hi: int): nat
    requires buckets != []
    decreases hi - lo
  {
    if lo >= hi then 0
    else (if SelectBucket(buckets, lo) == k then 1 else 0) + SelectionCount(buckets, k, lo + 1, hi)
  }

  function Max(a: int, b: int): int { if a < b then b else a }
  function Min(a: int, b: int): int { if a < b then a else b }

  /** When bucket k is selected exactly by the positions of [a, b), it is selected by |[lo, hi) ∩ [a, b)| of [lo, hi). */
  lemma {:induction false} CountIsOverlap(t: Table, k: nat, lo: int, hi: int, a: int, b: int)
    requires Proper(t) && k < |t.buckets| && 0 <= lo && a <= b
    requires forall r :: lo <= r < hi ==> (SelectBucket(t.buckets, r) == k <==> a <= r < b)
    ensures SelectionCount(t.buckets, k, lo, hi) == Max(0, Min(hi, b) - Max(lo, a))
    decreases hi - lo
  {
    if lo < hi {
      CountIsOverlap(t, k, lo + 1, hi, a, b);
    }
  }

  /** Bucket k is selected exactly by the positions of [LowerBound(k), LowerBound(k + 1)), or of [LowerBound(k), hi) for the last bucket. */
  lemma SelectionCountOfBucket(t: Table, k: nat, hi: int)
    requires Proper(t) && k < |t.buckets| && LowerBound(t.buckets, |t.buckets|) <= hi
    ensures k < |t.buckets| - 1 ==>
      SelectionCount(t.buckets, k, 0, hi) == LowerBound(t.buckets, k + 1) - LowerBound(t.buckets, k)
    ensures k == |t.buckets| - 1 ==>
      SelectionCount(t.buckets, k, 0, hi) == hi - LowerBound(t.buckets, k)
  {
    if k < |t.buckets| - 1 {
      LowerBoundMonotone(t, k, k + 1);
      LowerBoundMonotone(t, k + 1, |t.buckets|);
      InnerBucketCount(t, k, hi);
    } else {
      LowerBoundMonotone(t, k, |t.buckets|);
      LastBucketCount(t, hi);
    }
  }

  lemma InnerBucketCount(t: Table, k: nat, hi: int)
    requires Proper(t) && k < |t.buckets| - 1
    ensures SelectionCount(t.buckets, k, 0, hi) == Max(0, Min(hi, LowerBound(t.buckets, k + 1)) - LowerBound(t.buckets, k))
  {
    var a, b := LowerBound(t.buckets, k), LowerBound(t.buckets, k + 1);
    LowerBoundMonotone(t, 0, k);
    LowerBoundMonotone(t, k, k + 1);
    forall r | 0 <= r < hi
      ensures SelectBucket(t.buckets, r) == k <==> a <= r < b
    {
      SelectedIffInInterval(t, r, k);
    }
    CountIsOverlap(t, k, 0, hi, a, b);
  }

  lemma LastBucketCount(t: Table, hi: int)
    requires Proper(t) && LowerBound(t.buckets, |t.buckets| - 1) <= hi
    ensures SelectionCount(t.buckets, |t.buckets| - 1, 0, hi) == hi - LowerBound(t.buckets, |t.buckets| - 1)
  {
    var k := |t.buckets| - 1;
    var a := LowerBound(t.buckets, k);
    LowerBoundMonotone(t, 0, k);
    forall r | 0 <= r < hi
      ensures SelectBucket(t.buckets, r) == k <==> a <= r < hi
    {
      SelectedIffInInterval(t, r, k);
    }
    CountIsOverlap(t, k, 0, hi, a, hi);
  }

  lemma ShareOfBucket(t: Table, k: nat)
    requires Proper(t) && k < |t.buckets|
    ensures LowerBound(t.buckets, k + 1) - LowerBound(t.buckets, k) == t.buckets[k].probability
  {
    NoWrap(t.buckets, k);
    NoWrap(t.buckets, k + 1);
  }

  /**
   * As written: of the 100% + 1 positions `Next(100%)` can return, bucket k is selected
   * by its probability's worth, and the last bucket by one position more.
   */
  lemma AsWrittenSelectionCounts(t: Table, k: nat)
    requires Proper(t) && k < |t.buckets|
    ensures SelectionCount(t.buckets, k, 0, t.full + 1)
         == t.buckets[k].probability + (if k == |t.buckets| - 1 then 1 else 0)
  {
    NoWrap(t.buckets, |t.buckets|);
    SelectionCountOfBucket(t, k, t.full + 1);
    ShareOfBucket(t, k);
  }

  /** Two buckets of 50 out of 100: the second one is selected by 51 of the 101 positions. */
  lemma EvenSplitIsUneven()
    ensures var t := Table(100, 100, [Bucket(50, [1]), Bucket(50, [2])]);
      Proper(t)
      && SelectionCount(t.buckets, 0, 0, t.full + 1) == 50
      && SelectionCount(t.buckets, 1, 0, t.full + 1) == 51
  {
    var t := Table(100, 100, [Bucket(50, [1]), Bucket(50, [2])]);
    assert LowerBound(t.buckets, 1) == 50;
    assert LowerBound(t.buckets, 2) == 100;
    assert PlainSum(t.buckets, 2) == 100;
    AsWrittenSelectionCounts(t, 0);
    AsWrittenSelectionCounts(t, 1);
  }

  /**
   * Corrected `GetRandomNumber`: the position is drawn from [0, 100% - 1], so there are
   * exactly 100% equally likely positions.
   */
  function GetRandomNumberCorrected(t: Table, positionEntropy: nat, candidateEntropy: nat): (r: Result<int, ProbabilityError>)
    requires Valid(t)
    ensures t.cumulative != t.full ==> r == Err(NotFullyConfigured)
    ensures r.Ok? <==> t.cumulative == t.full && 0 < t.full && t.buckets != []
    ensures r.Ok? ==>
      var position := RNG.NextUpTo(Wrap32(t.full - 1), positionEntropy).value;
      0 <= position < t.full && r.value in t.buckets[SelectBucket(t.buckets, position)].candidates
  {
    if t.cumulative != t.full then Err(NotFullyConfigured)
    else
      var position := RNG.NextUpTo(Wrap32(t.full - 1), positionEntropy);
      if position.Err? then Err(Generator(position.error))
      else if t.buckets == [] then Err(NoBuckets)
      else PickCandidate(t, position.value, candidateEntropy)
  }

  /** Corrected: bucket k is selected by exactly its probability's worth of the 100% positions. */
  lemma CorrectedSelectionCounts(t: Table, k: nat)
    requires Proper(t) && k < |t.buckets|
    ensures SelectionCount(t.buckets, k, 0, t.full) == t.buckets[k].probability
  {
    NoWrap(t.buckets, |t.buckets|);
    SelectionCountOfBucket(t, k, t.full);
    ShareOfBucket(t, k);
  }
}

=== FILE: object_graph.dfy ===
/**
 * The object graphs that the structural equality validator of `TestsHelper` walks.
 *
 * Reflection is replaced by explicit data: every object lives in a heap under a
 * reference and carries its runtime type, the values of its public instance
 * properties and fields (in the order reflection lists them), the elements it yields
 * when enumerated, and the text that stands for its value. `Object.Equals` of the
 * primitive-classified types is modelled as: same runtime type and same value text.
 */
module ObjectGraph {

  type Ref = nat

  /** A member value or a collection element: `null`, or a reference to a heap object. */
  datatype Value = Null | Ptr(ref: Ref)

  datatype MemberKind = Property | Field | Method

  /** A `MemberInfo`: its name, its kind and the full name of the type that declares it. */
  datatype Member = Member(name: string, kind: MemberKind, declaringType: string)

  /**
   * A runtime type: its full name, `Type.IsClass`, `Type.IsPrimitive`, whether it
   * implements `IEnumerable`, and its public instance properties and fields.
   */
  datatype Type = Type(fullName: string, isClass: bool, isPrimitive: bool, isEnumerable: bool,
                       properties: seq<Member>, fields: seq<Member>)

  /**
   * An object: its runtime type, the text of its value (what `ToString` shows), the
   * values of its properties then fields, and the elements it enumerates.
   */
  datatype Obj = Obj(typ: Type, text: string, values: seq<Value>, items: seq<Value>)

  type Heap = map<Ref, Obj>

  predicate ValueIn(h: Heap, v: Value) {
    v.Ptr? ==> v.ref in h
  }

  predicate ObjWellFormed(h: Heap, o: Obj) {
    && |o.values| == |o.typ.properties| + |o.typ.fields|
    && (forall k :: 0 <= k < |o.values| ==> ValueIn(h, o.values[k]))
    && (forall k :: 0 <= k < |o.items| ==> ValueIn(h, o.items[k]))
    && (!o.typ.isEnumerable ==> o.items == [])
  }

  /** Every reference stored in the heap points into the heap, and every object has one value per member. */
  predicate WellFormed(h: Heap) {
    forall r :: r in h ==> ObjWellFormed(h, h[r])
  }

  const StringTypeName: string := "System.String"

  predicate IsString(t: Type) {
    t.fullName == StringTypeName
  }

  /** `IsPrimitiveType`: strings, value types (`!IsClass`) and primitive types are compared with `Equals`. */
  predicate IsPrimitiveType(t: Type) {
    IsString(t) || !t.isClass || t.isPrimitive
  }

  /** `Equals` between two primitive-classified objects. */
  predicate ValueEquals(h: Heap, x: Ref, y: Ref)
    requires x in h && y in h
  {
    h[x].typ == h[y].typ && h[x].text == h[y].text
  }

  const MaxDisplayLength: nat := 200

  /** How a differing value is shown in the failure message: strings longer than 200 characters are cut. */
  function Display(o: Obj): (s: string)
    ensures IsString(o.typ) && |o.text| > MaxDisplayLength ==>
      |s| == MaxDisplayLength + 4 && s[..MaxDisplayLength] == o.text[..MaxDisplayLength] && s[MaxDisplayLength..] == " ..."
    ensures !(IsString(o.typ) && |o.text| > MaxDisplayLength) ==> s == o.text
  {
    if IsString(o.typ) && |o.text| > MaxDisplayLength then o.text[..MaxDisplayLength] + " ..." else o.text
  }

  /** The `GetEnumerator` method that stands for the elements of an enumerable object. */
  function EnumeratorMember(t: Type): Member {
    Member("GetEnumerator", Method, t.fullName)
  }

  /**
   * The members a frame walks for objects of type `t`: the properties, then the
   * fields, then, for an enumerable type, `GetEnumerator`.
   */
  function Members(t: Type): (ms: seq<Member>)
    ensures |ms| >= |t.properties| + |t.fields|
    ensures ms[..|t.properties|] == t.properties
    ensures ms[|t.properties|..|t.properties| + |t.fields|] == t.fields
    ensures t.isEnumerable <==> |ms| == |t.properties| + |t.fields| + 1
    ensures t.isEnumerable ==> ms[|ms| - 1] == EnumeratorMember(t)
    ensures !t.isEnumerable ==> |ms| == |t.properties| + |t.fields|
  {
    t.properties + t.fields + (if t.isEnumerable then [EnumeratorMember(t)] else [])
  }

  /**
   * The values of member `k` in two objects of the same type; `GetEnumerator` yields
   * the objects themselves.
   */
  function ReadMember(h: Heap, e: Ref, a: Ref, k: nat): (v: (Value, Value))
    requires WellFormed(h) && e in h && a in h && h[e].typ == h[a].typ && k < |Members(h[e].typ)|
    ensures ValueIn(h, v.0) && ValueIn(h, v.1)
    ensures k < |h[e].typ.properties| + |h[e].typ.fields| ==> v == (h[e].values[k], h[a].values[k])
    ensures k == |h[e].typ.properties| + |h[e].typ.fields| ==> v == (Ptr(e), Ptr(a))
  {
    assert ObjWellFormed(h, h[e]) && ObjWellFormed(h, h[a]);
    if k < |h[e].values| then (h[e].values[k], h[a].values[k]) else (Ptr(e), Ptr(a))
  }

  const ListTypePrefix: string := "System.Collections.Generic.List`1["

  /**
   * `MemberValidationShouldBeIgnored`: the caller's predicate, or `Capacity` and the
   * `Item` indexer of `List<T>`.
   */
  predicate Ignored(ignore: Member -> bool, m: Member) {
    || ignore(m)
    || (ListTypePrefix <= m.declaringType && (m.name == "Capacity" || m.name == "Item"))
  }

  /** Two element values as the main loop accepts them, with `R` the pairs of objects whose members agree. */
  predicate ElementAgrees(h: Heap, R: set<(Ref, Ref)>, x: Value, y: Value)
    requires ValueIn(h, x) && ValueIn(h, y)
  {
    || (x.Null? && y.Null?)
    || (&& x.Ptr? && y.Ptr?
        && (|| x == y
            || (IsPrimitiveType(h[x.ref].typ) && ValueEquals(h, x.ref, y.ref))
            || (!IsPrimitiveType(h[x.ref].typ) && (x.ref, y.ref) in R)))
  }

  predicate ItemsAgree(h: Heap, R: set<(Ref, Ref)>, xs: seq<Value>, ys: seq<Value>)
    requires forall i :: 0 <= i < |xs| ==> ValueIn(h, xs[i])
    requires forall i :: 0 <= i < |ys| ==> ValueIn(h, ys[i])
  {
    |xs| == |ys| && forall i :: 0 <= i < |xs| ==> ElementAgrees(h, R, xs[i], ys[i])
  }

  /** Two composite member values agree: the same object, equal elements, or a pair in `R`. */
  predicate CompositeAgrees(h: Heap, R: set<(Ref, Ref)>, x: Ref, y: Ref)
    requires WellFormed(h) && x in h && y in h
  {
    assert ObjWellFormed(h, h[x]) && ObjWellFormed(h, h[y]);
    if h[x].typ.isEnumerable then ItemsAgree(h, R, h[x].items, h[y].items)
    else x == y || (x, y) in R
  }

  /** Two member values agree: both null, or of one type and equal by `Equals` or by structure. */
  predicate MemberAgrees(h: Heap, R: set<(Ref, Ref)>, x: Value, y: Value)
    requires WellFormed(h) && ValueIn(h, x) && ValueIn(h, y)
  {
    || (x.Null? && y.Null?)
    || (&& x.Ptr? && y.Ptr? && h[x.ref].typ == h[y.ref].typ
        && (if IsPrimitiveType(h[x.ref].typ) then x == y || ValueEquals(h, x.ref, y.ref)
            else CompositeAgrees(h, R, x.ref, y.ref)))
  }

  /** The objects `e` and `a` have one type and agree on every member that is not ignored. */
  predicate PairAgrees(h: Heap, ignore: Member -> bool, R: set<(Ref, Ref)>, e: Ref, a: Ref)
    requires WellFormed(h)
  {
    && e in h && a in h && h[e].typ == h[a].typ
    && forall k :: 0 <= k < |Members(h[e].typ)| && !Ignored(ignore, Members(h[e].typ)[k]) ==>
         var v := ReadMember(h, e, a, k); MemberAgrees(h, R, v.0, v.1)
  }

  /**
   * `R` relates objects that are structurally equal: every pair in it agrees member by
   * member, with composite members related by `R` again. Two object graphs are equal
   * when some such `R` relates their roots.
   */
  predicate Simulation(h: Heap, ignore: Member -> bool, R: set<(Ref, Ref)>)
    requires WellFormed(h)
  {
    forall p :: p in R ==> PairAgrees(h, ignore, R, p.0, p.1)
  }

  /**
   * The member values differ in a way no relation repairs: one is null, their types
   * differ, or they are composite enumerables with different element counts.
   */
  predicate MemberClashes(h: Heap, x: Value, y: Value)
    requires WellFormed(h) && ValueIn(h, x) && ValueIn(h, y)
  {
    || x.Null? != y.Null?
    || (x.Ptr? && y.Ptr? && h[x.ref].typ != h[y.ref].typ)
    || (&& x.Ptr? && y.Ptr? && h[x.ref].typ == h[y.ref].typ
        && !IsPrimitiveType(h[x.ref].typ) && h[x.ref].typ.isEnumerable
        && |h[x.ref].items| != |h[y.ref].items|)
  }

  /** A clash is a disagreement under every relation. */
  lemma ClashDisagrees(h: Heap, R: set<(Ref, Ref)>, x: Value, y: Value)
    requires WellFormed(h) && ValueIn(h, x) && ValueIn(h, y)
    ensures MemberClashes(h, x, y) ==> !MemberAgrees(h, R, x, y)
  {
  }

  /** Agreement only needs the pairs it names: a larger relation keeps it. */
  lemma MemberAgreesGrows(h: Heap, R: set<(Ref, Ref)>, S: set<(Ref, Ref)>, x: Value, y: Value)
    requires WellFormed(h) && ValueIn(h, x) && ValueIn(h, y) && R <= S
    ensures MemberAgrees(h, R, x, y) ==> MemberAgrees(h, S, x, y)
  {
  }
}

=== FILE: object_validator.dfy ===
/**
 * `ValidateObjectsAreEqualAsync`: the checks on the two root objects, then the main
 * loop that runs rounds on the frame stack until the stack is empty, a round fails, or
 * the stack grows beyond `MaxCallCountForValidateObjectsAreEqual` frames.
 *
 * A validation that passes has compared pairs that, with the roots, form a simulation:
 * the object graphs are structurally equal. Conversely, whenever some simulation
 * relates the roots, the validation passes, unless it runs out of stack.
 */
module ObjectValidator {
  import opened Base
  import opened ObjectGraph
  import opened ValidationFrame
  import opened ValidatorStep
  import opened ValidatorInvariant
  import opened ValidatorMeasure
  import opened ValidatorHooks

  /** `MaxCallCountForValidateObjectsAreEqual`: the most frames the stack may hold at the start of a round. */
  const MaxStackDepth: nat := 10000000

  /** Every simulation that relates the roots relates every pair on the stack. */
  ghost predicate StackRelated(h: Heap, ignore: Member -> bool, root: (Ref, Ref), stack: seq<Frame>)
    requires WellFormed(h)
  {
    forall R :: Simulation(h, ignore, R) && root in R ==> StackPairs(stack) <= R
  }

  /** What holds of the state between two rounds of the main loop. */
  ghost predicate LoopInvariant(h: Heap, ignore: Member -> bool, root: (Ref, Ref), s: State)
    requires WellFormed(h)
  {
    && StackOk(h, s.stack) && Sound(h, ignore, root, s)
    && InHeap(h, s) && Bookkept(s)
    && HooksBalanced(s.trace, false) && StartsNotIgnored(ignore, s.trace)
    && StackRelated(h, ignore, root, s.stack)
  }

  /** The loop starts with its invariant. */
  lemma InitialInvariant(h: Heap, ignore: Member -> bool, e: Ref, a: Ref)
    requires WellFormed(h) && e in h && a in h && h[e].typ == h[a].typ
    ensures LoopInvariant(h, ignore, (e, a), Initial(h, ignore, e, a))
  {
  }

  /**
   * A round that does not fail keeps the invariant and records a new pair or leaves
   * less work on the stack.
   */
  lemma RoundKeeps(h: Heap, ignore: Member -> bool, root: (Ref, Ref), s: State)
    requires WellFormed(h) && s.stack != [] && LoopInvariant(h, ignore, root, s)
    ensures var o := Step(h, ignore, s);
      o.Next? ==>
        && LoopInvariant(h, ignore, root, o.state)
        && (|| |AllPairs(h) - o.state.compared| < |AllPairs(h) - s.compared|
            || (o.state.compared == s.compared && Work(o.state.stack, ItemsBound(h)) < Work(s.stack, ItemsBound(h))))
  {
    var o := Step(h, ignore, s);
    if o.Next? {
      StepKeepsHooksBalanced(h, ignore, s);
      StepStartsNotIgnored(h, ignore, root, s);
      StepKeepsSound(h, ignore, root, s);
      StepDecreases(h, ignore, s);
      StepKeepsBookkept(h, ignore, s);
      forall R | Simulation(h, ignore, R) && root in R ensures StackPairs(o.state.stack) <= R {
        StepComplete(h, ignore, root, s, R);
      }
    }
  }

  /**
   * What the main loop promises when it stops with `r`: the hook calls are balanced,
   * with the failure callback called exactly for a failure that reports; the starting
   * hook saw no ignored member; a pass has compared a simulation that relates the
   * roots; under any simulation that relates the roots, only the stack limit fails it;
   * each recorded pair was pushed once; a failure is one of the loop's own.
   */
  ghost predicate Outcome(h: Heap, ignore: Member -> bool, root: (Ref, Ref), r: Result<(), Mismatch>,
                          trace: seq<Event>, compared: set<(Ref, Ref)>, pushes: seq<(Ref, Ref)>)
    requires WellFormed(h)
  {
    && HooksBalanced(trace, r.Err? && Reported(r.error))
    && StartsNotIgnored(ignore, trace)
    && (r.Ok? ==> Simulation(h, ignore, compared + {root}))
    && (forall R :: Simulation(h, ignore, R) && root in R ==> r.Ok? || r.error == StackTooDeep)
    && Distinct(pushes) && (forall i :: 0 <= i < |pushes| ==> pushes[i] in compared)
    && (forall p :: p in compared ==> p in pushes)
    && compared <= AllPairs(h)
    && (r.Err? && r.error == StackTooDeep ==> |compared| >= MaxStackDepth)
    && (r.Err? ==> r.error == StackTooDeep || RoundFailure(r.error))
  }

  /** A loop that ends on an empty stack passes, having compared a simulation. */
  lemma ExitPassed(h: Heap, ignore: Member -> bool, root: (Ref, Ref), s: State)
    requires WellFormed(h) && s.stack == [] && LoopInvariant(h, ignore, root, s)
    ensures Outcome(h, ignore, root, Ok(()), s.trace, s.compared, s.pushes)
  {
    EmptyStackSimulates(h, ignore, root, s);
  }

  /** A stack beyond the limit means more pairs were recorded than the limit. */
  lemma ExitTooDeep(h: Heap, ignore: Member -> bool, root: (Ref, Ref), s: State)
    requires WellFormed(h) && LoopInvariant(h, ignore, root, s) && |s.stack| > MaxStackDepth
    ensures Outcome(h, ignore, root, Err(StackTooDeep), s.trace, s.compared, s.pushes)
  {
  }

  /** A round that fails does so only when no simulation relates the roots. */
  lemma ExitFailed(h: Heap, ignore: Member -> bool, root: (Ref, Ref), s: State)
    requires WellFormed(h) && s.stack != [] && LoopInvariant(h, ignore, root, s)
    ensures var o := Step(h, ignore, s);
      o.Fail? ==> Outcome(h, ignore, root, Err(o.mismatch), o.trace, s.compared, s.pushes)
  {
    var o := Step(h, ignore, s);
    StepKeepsHooksBalanced(h, ignore, s);
    StepStartsNotIgnored(h, ignore, root, s);
    StepFailure(h, ignore, s);
    forall R | Simulation(h, ignore, R) && root in R ensures o.Next? {
      StepComplete(h, ignore, root, s, R);
    }
  }

  /** The main loop, from the frame for the roots `e` and `a`. */
  method Walk(h: Heap, ignore: Member -> bool, e: Ref, a: Ref)
    returns (r: Result<(), Mismatch>, trace: seq<Event>, compared: set<(Ref, Ref)>, pushes: seq<(Ref, Ref)>)
    requires WellFormed(h) && e in h && a in h && h[e].typ == h[a].typ
    ensures Outcome(h, ignore, (e, a), r, trace, compared, pushes)
  {
    var root := (e, a);
    var s := Initial(h, ignore, e, a);
    InitialInvariant(h, ignore, e, a);
    while s.stack != []
      invariant LoopInvariant(h, ignore, root, s)
      decreases |AllPairs(h) - s.compared|, Work(s.stack, ItemsBound(h))
    {
      if |s.stack| > MaxStackDepth {
        ExitTooDeep(h, ignore, root, s);
        return Err(StackTooDeep), s.trace, s.compared, s.pushes;
      }
      var o := Step(h, ignore, s);
      if o.Fail? {
        ExitFailed(h, ignore, root, s);
        return Err(o.mismatch), o.trace, s.compared, s.pushes;
      }
      RoundKeeps(h, ignore, root, s);
      s := o.state;
    }
    ExitPassed(h, ignore, root, s);
    return Ok(()), s.trace, s.compared, s.pushes;
  }

  /**
   * `ValidateObjectsAreEqualAsync` on two root values: the same reference (or two nulls)
   * passes at once; one null calls the failure callback and fails; roots of different
   * runtime types fail; otherwise the main loop runs from the roots' frame. The roots
   * themselves are compared with `Equals` only when their type is enumerable, through the
   * `GetEnumerator` pseudo-member, whose value is the root.
   */
  method Validate(h: Heap, ignore: Member -> bool, expected: Value, actual: Value)
    returns (r: Result<(), Mismatch>, trace: seq<Event>, compared: set<(Ref, Ref)>, pushes: seq<(Ref, Ref)>)
    requires WellFormed(h) && ValueIn(h, expected) && ValueIn(h, actual)
    ensures expected == actual ==> r.Ok? && trace == [] && compared == {}
    ensures expected.Null? != actual.Null? ==> r == Err(RootNullness) && trace == [Failed(expected, actual)]
    ensures Distinct2(h, expected, actual) && h[expected.ref].typ != h[actual.ref].typ ==>
      r == Err(RootTypes) && trace == []
    ensures HooksBalanced(trace, r.Err? && Reported(r.error))
    ensures StartsNotIgnored(ignore, trace)
    ensures r.Ok? && Distinct2(h, expected, actual) ==>
      Simulation(h, ignore, compared + {(expected.ref, actual.ref)})
    ensures Distinct2(h, expected, actual) ==>
      forall R :: Simulation(h, ignore, R) && (expected.ref, actual.ref) in R ==> r.Ok? || r.error == StackTooDeep
    ensures Distinct(pushes) && forall p :: p in compared <==> p in pushes
    ensures compared <= AllPairs(h)
    ensures r.Err? && r.error == StackTooDeep ==> |compared| >= MaxStackDepth
  {
    if expected == actual {
      return Ok(()), [], {}, [];
    }
    if expected.Null? != actual.Null? {
      return Err(RootNullness), [Failed(expected, actual)], {}, [];
    }
    if h[expected.ref].typ != h[actual.ref].typ {
      return Err(RootTypes), [], {}, [];
    }
    r, trace, compared, pushes := Walk(h, ignore, expected.ref, actual.ref);
  }

  /** Two distinct non-null root values. */
  predicate Distinct2(h: Heap, expected: Value, actual: Value) {
    expected.Ptr? && actual.Ptr? && expected != actual && expected.ref in h && actual.ref in h
  }

  /**
   * The validation as evidently intended: primitive-classified roots (strings, value
   * types, primitives) are compared with `Equals`, as primitive-classified members are,
   * and a difference calls the failure callback and fails with both values shown.
   */
  method ValidateCorrected(h: Heap, ignore: Member -> bool, expected: Value, actual: Value)
    returns (r: Result<(), Mismatch>, trace: seq<Event>, compared: set<(Ref, Ref)>, pushes: seq<(Ref, Ref)>)
    requires WellFormed(h) && ValueIn(h, expected) && ValueIn(h, actual)
    ensures expected == actual ==> r.Ok? && trace == [] && compared == {}
    ensures expected.Null? != actual.Null? ==> r == Err(RootNullness) && trace == [Failed(expected, actual)]
    ensures Distinct2(h, expected, actual) && h[expected.ref].typ != h[actual.ref].typ ==>
      r == Err(RootTypes) && trace == []
    ensures Distinct2(h, expected, actual) && h[expected.ref].typ == h[actual.ref].typ && IsPrimitiveType(h[expected.ref].typ) ==>
      && (r.Ok? <==> ValueEquals(h, expected.ref, actual.ref))
      && (r.Err? ==> r.error == ValuesDiffer(Display(h[expected.ref]), Display(h[actual.ref])) && trace == [Failed(expected, actual)])
      && (r.Ok? ==> trace == [])
    ensures HooksBalanced(trace, r.Err? && Reported(r.error))
    ensures StartsNotIgnored(ignore, trace)
    ensures r.Ok? && Distinct2(h, expected, actual) ==>
      ElementAgrees(h, compared + {(expected.ref, actual.ref)}, expected, actual)
    ensures r.Ok? && Distinct2(h, expected, actual) && !IsPrimitiveType(h[expected.ref].typ) ==>
      Simulation(h, ignore, compared + {(expected.ref, actual.ref)})
    ensures Distinct2(h, expected, actual) && !IsPrimitiveType(h[expected.ref].typ) ==>
      forall R :: Simulation(h, ignore, R) && (expected.ref, actual.ref) in R ==> r.Ok? || r.error == StackTooDeep
    ensures Distinct(pushes) && forall p :: p in compared <==> p in pushes
    ensures compared <= AllPairs(h)
    ensures r.Err? && r.error == StackTooDeep ==> |compared| >= MaxStackDepth
  {
    if expected == actual {
      return Ok(()), [], {}, [];
    }
    if expected.Null? != actual.Null? {
      return Err(RootNullness), [Failed(expected, actual)], {}, [];
    }
    if h[expected.ref].typ != h[actual.ref].typ {
      return Err(RootTypes), [], {}, [];
    }
    if IsPrimitiveType(h[expected.ref].typ) {
      if ValueEquals(h, expected.ref, actual.ref) {
        return Ok(()), [], {}, [];
      }
      return Err(ValuesDiffer(Display(h[expected.ref]), Display(h[actual.ref]))), [Failed(expected, actual)], {}, [];
    }
    r, trace, compared, pushes := Walk(h, ignore, expected.ref, actual.ref);
  }

  // ---------------------------------------------------------------------------------
  // Two different boxed integers as roots

  const Int32Type: Type := Type("System.Int32", false, true, false, [], [])

  /** A heap holding two boxed `int` values, 1 and 2. */
  function TwoInts(): (h: Heap)
    ensures WellFormed(h) && 0 in h && 1 in h && h[0].typ == h[1].typ == Int32Type
    ensures h[0].text != h[1].text
  {
    map[0 := Obj(Int32Type, "1", [], []), 1 := Obj(Int32Type, "2", [], [])]
  }

  lemma SubsetSize<T>(a: set<T>, b: set<T>)
    requires a <= b
    ensures |a| <= |b|
    decreases |b|
  {
    if a != {} {
      var x :| x in a;
      SubsetSize(a - {x}, b - {x});
    }
  }

  /** Every pair of objects of the two-integer heap is one of four. */
  lemma TwoIntsPairs()
    ensures |AllPairs(TwoInts())| <= 4
  {
    var h := TwoInts();
    var four := {(0, 0), (0, 1), (1, 0), (1, 1)};
    assert AllPairs(h) <= four by {
      forall p | p in AllPairs(h) ensures p in four {
        assert p.0 in h.Keys && p.1 in h.Keys;
        assert h.Keys == {0, 1};
      }
    }
    SubsetSize(AllPairs(h), four);
  }

  /** The validation as written passes the boxed integers 1 and 2: these non-enumerable roots are never compared with `Equals`. */
  method IntRootsPass() returns (r: Result<(), Mismatch>)
    ensures r.Ok?
  {
    var h := TwoInts();
    var ignore := (m: Member) => false;
    var trace, compared, pushes;
    r, trace, compared, pushes := Validate(h, ignore, Ptr(0), Ptr(1));
    assert Members(Int32Type) == [];
    assert Simulation(h, ignore, {(0, 1)});
    TwoIntsPairs();
    SubsetSize(compared, AllPairs(h));
  }

  /** The corrected validation fails on the boxed integers 1 and 2, showing both values. */
  method IntRootsFail() returns (r: Result<(), Mismatch>)
    ensures r == Err(ValuesDiffer("1", "2"))
  {
    var h := TwoInts();
    var trace, compared, pushes;
    r, trace, compared, pushes := ValidateCorrected(h, (m: Member) => false, Ptr(0), Ptr(1));
  }
}

=== FILE: probability_based_generator.dfy ===
/**
 * `ProbabilityBasedRandomNumberGenerator`: a table of buckets, each holding a share of
 * a configurable "100%" value and a list of candidate numbers. A number is produced by
 * drawing a position in [0, 100%], locating the bucket whose cumulative interval holds
 * it, and picking one of that bucket's candidates.
 */
module ProbabilityBasedGenerator {
  import opened Base
  import RNG = RandomNumberGenerator

  datatype Bucket = Bucket(probability: int, candidates: seq<int>)

  /** `full` is the value standing for 100%; `cumulative` is `CurrentCumulativeProbability`. */
  datatype Table = Table(full: int, cumulative: int, buckets: seq<Bucket>)

  datatype ProbabilityError =
    | SumExceedsFull        // the new cumulative probability would exceed 100%
    | EmptyCandidates       // the candidate collection is empty
    | AlreadyFull           // AddRandomNumbers called when 100% is already allotted
    | NotFullyConfigured    // GetRandomNumber called before the buckets add up to 100%
    | NoBuckets             // the bucket list is indexed at -1
    | Generator(error: RNG.RngError)

  /** The lower end of bucket k: the running 32-bit sum of the probabilities before it. */
  function LowerBound(buckets: seq<Bucket>, k: nat): int
    requires k <= |buckets|
  {
    if k == 0 then 0 else Wrap32(LowerBound(buckets, k - 1) + buckets[k - 1].probability)
  }

  predicate Valid(t: Table) {
    && IsInt32(t.full)
    && t.cumulative == LowerBound(t.buckets, |t.buckets|)
    && forall b :: b in t.buckets ==> IsInt32(b.probability) && 0 < |b.candidates| <= MaxInt32
  }

  lemma LowerBoundOfPrefix(buckets: seq<Bucket>, extra: seq<Bucket>, k: nat)
    requires k <= |buckets|
    ensures LowerBound(buckets + extra, k) == LowerBound(buckets, k)
  {
    if k > 0 {
      LowerBoundOfPrefix(buckets, extra, k - 1);
    }
  }

  function NewTable(full: int): (t: Table)
    requires IsInt32(full)
    ensures Valid(t) && t.full == full && t.cumulative == 0 && t.buckets == []
  {
    Table(full, 0, [])
  }

  /**
   * `AddRandomNumbersForProbability`: the new cumulative probability is computed in
   * unchecked 32-bit arithmetic and compared with 100% before the candidates are looked at.
   */
  function AddForProbability(t: Table, probability: int, candidates: seq<int>): (r: Result<Table, ProbabilityError>)
    requires Valid(t) && IsInt32(probability) && |candidates| <= MaxInt32
    ensures Wrap32(t.cumulative + probability) > t.full ==> r == Err(SumExceedsFull)
    ensures Wrap32(t.cumulative + probability) <= t.full && candidates == [] ==> r == Err(EmptyCandidates)
    ensures r.Ok? <==> Wrap32(t.cumulative + probability) <= t.full && candidates != []
    ensures r.Ok? ==> Valid(r.value) && r.value.full == t.full
    ensures r.Ok? ==> r.value.cumulative <= t.full
    ensures r.Ok? ==> r.value.buckets == t.buckets + [Bucket(probability, candidates)]
    ensures r.Ok? && IsInt32(t.cumulative + probability) ==> r.value.cumulative == t.cumulative + probability
  {
    var newTotal := Wrap32(t.cumulative + probability);
    if newTotal > t.full then Err(SumExceedsFull)
    else if candidates == [] then Err(EmptyCandidates)
    else
      var buckets := t.buckets + [Bucket(probability, candidates)];
      LowerBoundOfPrefix(t.buckets, [Bucket(probability, candidates)], |t.buckets|);
      Ok(Table(t.full, newTotal, buckets))
  }

  /** Adding the wrapped difference `b - a` to `a` gives back `b` in 32-bit arithmetic. */
  lemma WrapAddsDifference(a: int, b: int)
    requires IsInt32(a) && IsInt32(b)
    ensures Wrap32(a + Wrap32(b - a)) == b
  {
    var w := Wrap32(b - a);
    var s := Wrap32(a + w);
    ModOfSum(s - (a + w), w - (b - a));
    assert s - b == (s - (a + w)) + (w - (b - a));
    CongruentInt32AreEqual(s, b);
  }

  /**
   * `AddRandomNumbers`: gives the candidates whatever share is left to reach 100%,
   * which is refused when nothing is left.
   */
  function AddRemaining(t: Table, candidates: seq<int>): (r: Result<Table, ProbabilityError>)
    requires Valid(t) && |candidates| <= MaxInt32
    ensures t.cumulative == t.full ==> r == Err(AlreadyFull)
    ensures t.cumulative != t.full && candidates == [] ==> r == Err(EmptyCandidates)
    ensures r.Ok? <==> t.cumulative != t.full && candidates != []
    ensures r.Ok? ==> Valid(r.value) && r.value.full == t.full && r.value.cumulative == t.full
    ensures r.Ok? ==> r.value.buckets == t.buckets + [Bucket(Wrap32(t.full - t.cumulative), candidates)]
  {
    if t.cumulative == t.full then Err(AlreadyFull)
    else
      WrapAddsDifference(t.cumulative, t.full);
      AddForProbability(t, Wrap32(t.full - t.cumulative), candidates)
  }

  /** A position r falls in bucket k when it lies in [LowerBound(k), LowerBound(k + 1)). */
  predicate InBucket(buckets: seq<Bucket>, r: int, k: nat)
    requires k < |buckets|
  {
    LowerBound(buckets, k) <= r < LowerBound(buckets, k + 1)
  }

  /**
   * The bucket scan of `GetRandomNumber` from index i on: the first bucket before the last
   * whose interval holds r, and the last bucket when none does.
   */
  function SelectFrom(buckets: seq<Bucket>, r: int, i: nat): (k: nat)
    requires i < |buckets|
    ensures i <= k < |buckets|
    ensures k < |buckets| - 1 ==> InBucket(buckets, r, k)
    ensures forall j :: i <= j < k && j < |buckets| - 1 ==> !InBucket(buckets, r, j)
    decreases |buckets| - i
  {
    if i == |buckets| - 1 then i
    else if LowerBound(buckets, i) <= r < Wrap32(LowerBound(buckets, i) + buckets[i].probability) then i
    else SelectFrom(buckets, r, i + 1)
  }

  function SelectBucket(buckets: seq<Bucket>, r: int): (k: nat)
    requires |buckets| > 0
    ensures k < |buckets|
  {
    SelectFrom(buckets, r, 0)
  }

  /**
   * `GetRandomNumber`, as written: a position is drawn with `Next(100%)`, which is
   * inclusive, so it lies in [0, 100%]; a candidate is then drawn with `Next(Count - 1)`.
   */
  function GetRandomNumber(t: Table, positionEntropy: nat, candidateEntropy: nat): (r: Result<int, ProbabilityError>)
    requires Valid(t)
    ensures t.cumulative != t.full ==> r == Err(NotFullyConfigured)
    ensures r.Ok? <==> t.cumulative == t.full && 0 <= t.full < MaxInt32 && t.buckets != []
    ensures r.Ok? ==>
      var position := RNG.NextUpTo(t.full, positionEntropy).value;
      0 <= position <= t.full && r.value in t.buckets[SelectBucket(t.buckets, position)].candidates
  {
    if t.cumulative != t.full then Err(NotFullyConfigured)
    else
      var position := RNG.NextUpTo(t.full, positionEntropy);
      if position.Err? then Err(Generator(position.error))
      else if t.buckets == [] then Err(NoBuckets)
      else PickCandidate(t, position.value, candidateEntropy)
  }

  /** Picks a candidate of the bucket selected by `position`, with `Next(Count - 1)`. */
  function PickCandidate(t: Table, position: int, candidateEntropy: nat): (r: Result<int, ProbabilityError>)
    requires Valid(t) && t.buckets != []
    ensures r.Ok? && r.value in t.buckets[SelectBucket(t.buckets, position)].candidates
  {
    var bucket := t.buckets[SelectBucket(t.buckets, position)];
    assert bucket in t.buckets;
    var index := RNG.NextUpTo(|bucket.candidates| - 1, candidateEntropy);
    Ok(bucket.candidates[index.value])
  }
}

=== FILE: project_folder.dfy ===
/**
 * Locating a test project's folder from the directory of its compiled assembly
 * (`TryGetFilePathRelativeToTestProjectFolderLocal` without a relative path): the
 * directory must contain `\<project>\bin\`, and the folder is everything up to and
 * including `\<project>` at the first such place.
 */
module ProjectFolder {
  import opened Base

  /** `string.IndexOf`: the first position at which `needle` occurs in `text`. */
  function IndexOf(text: string, needle: string): (k: Option<nat>)
    ensures k.Some? ==> k.value + |needle| <= |text| && text[k.value..k.value + |needle|] == needle
    ensures k.Some? ==> forall j :: 0 <= j < k.value ==> !OccursAt(text, needle, j)
    ensures k.None? ==> forall j :: 0 <= j <= |text| - |needle| ==> !OccursAt(text, needle, j)
  {
    Search(text, needle, 0)
  }

  predicate OccursAt(text: string, needle: string, j: nat) {
    j + |needle| <= |text| && text[j..j + |needle|] == needle
  }

  function Search(text: string, needle: string, from: nat): (k: Option<nat>)
    requires from <= |text| + 1
    requires forall j :: 0 <= j < from ==> !OccursAt(text, needle, j)
    ensures k.Some? ==> OccursAt(text, needle, k.value) && forall j :: 0 <= j < k.value ==> !OccursAt(text, needle, j)
    ensures k.None? ==> forall j :: 0 <= j <= |text| - |needle| ==> !OccursAt(text, needle, j)
    decreases |text| + 1 - from
  {
    if from + |needle| > |text| then None
    else if OccursAt(text, needle, from) then Some(from)
    else Search(text, needle, from + 1)
  }

  datatype FolderError = SectionNotFound(section: string)

  /** The marker `\<project>\bin\` looked for in the assembly directory. */
  function Section(project: string): string {
    "\\" + project + "\\bin\\"
  }

  /**
   * The project folder: the directory up to the first `\<project>\bin\`, followed by
   * `\<project>`; a directory without the marker fails and names it.
   */
  function TryGetTestProjectFolder(directory: string, project: string): (r: Result<string, FolderError>)
    ensures r.Err? <==> forall j :: 0 <= j <= |directory| - |Section(project)| ==> !OccursAt(directory, Section(project), j)
    ensures r.Err? ==> r.error == SectionNotFound(Section(project))
    ensures r.Ok? ==>
      exists k :: 0 <= k <= |directory| - |Section(project)| && OccursAt(directory, Section(project), k) &&
                  (forall j :: 0 <= j < k ==> !OccursAt(directory, Section(project), j)) &&
                  r.value == directory[..k] + "\\" + project
  {
    var section := Section(project);
    var index := IndexOf(directory, section);
    if index.None? then Err(SectionNotFound(section))
    else
      var k := index.value;
      var folder := directory[..k + 1 + |project|];
      assert folder == directory[..k] + "\\" + project by {
        assert directory[k..k + |section|] == section;
        assert directory[k..k + 1 + |project|] == section[..1 + |project|];
      }
      Ok(folder)
  }
}

=== FILE: random_number_generator.dfy ===
/**
 * The plain random-number generator: argument validation and the inclusive range
 * of `Next`, on top of `System.Random`, which is treated as an oracle.
 */
module RandomNumberGenerator {
  import opened Base

  datatype RngError =
    | InvalidArgument(parameter: string)  // ArgumentException raised by the generator itself
    | ArgumentOutOfRange                  // raised by System.Random when lower > upper

  /**
   * `System.Random.Next(lower, upper)`: a value in the half-open range [lower, upper),
   * `lower` itself when the range is empty, and an exception when lower > upper.
   * The generator's internal state is abstracted into `entropy`; every value of the
   * range is reachable for some entropy (see RandomNextReachesEveryValue).
   */
  function RandomNext(lower: int, upper: int, entropy: nat): (r: Result<int, RngError>)
    ensures r.Err? <==> lower > upper
    ensures r.Err? ==> r.error == ArgumentOutOfRange
    ensures r.Ok? && lower < upper ==> lower <= r.value < upper
    ensures r.Ok? && lower == upper ==> r.value == lower
  {
    if lower > upper then Err(ArgumentOutOfRange)
    else if lower == upper then Ok(lower)
    else Ok(lower + entropy % (upper - lower))
  }

  lemma RandomNextReachesEveryValue(lower: int, upper: int, v: int)
    requires lower <= v < upper
    ensures RandomNext(lower, upper, v - lower) == Ok(v)
  {
    assert (v - lower) % (upper - lower) == v - lower;
  }

  /** A generator remembers the seed it was created with (`RandomNumberSeed`), if any. */
  datatype Generator = Generator(seed: Option<int>)

  function CreateWithNullSeed(): (g: Generator)
    ensures g.seed.None?
  {
    Generator(None)
  }

  function CreateWithSeed(seed: int): (g: Generator)
    requires IsInt32(seed)
    ensures g.seed == Some(seed)
  {
    Generator(Some(seed))
  }

  /** The seed is drawn with the parameterless `Random.Next()`, whose range is [0, Int32.MaxValue). */
  function CreateWithRandomlyGeneratedSeed(entropy: nat): (g: Generator)
    ensures g.seed.Some? && 0 <= g.seed.value < MaxInt32
  {
    Generator(Some(RandomNext(0, MaxInt32, entropy).value))
  }

  /**
   * `Next(minValue, maxValue)`: both bounds inclusive. A negative minimum or a maximum
   * below the minimum is rejected; `maxValue + 1` is computed in unchecked 32-bit
   * arithmetic, so `maxValue == Int32.MaxValue` wraps and System.Random rejects the call.
   */
  function Next(minValue: int, maxValue: int, entropy: nat): (r: Result<int, RngError>)
    requires IsInt32(minValue) && IsInt32(maxValue)
    ensures minValue < 0 || maxValue < minValue ==> r == Err(InvalidArgument("minValue"))
    ensures 0 <= minValue <= maxValue == MaxInt32 ==> r == Err(ArgumentOutOfRange)
    ensures r.Ok? <==> 0 <= minValue <= maxValue < MaxInt32
    ensures r.Ok? ==> minValue <= r.value <= maxValue
  {
    if minValue < 0 || maxValue < minValue then Err(InvalidArgument("minValue"))
    else RandomNext(minValue, Wrap32(maxValue + 1), entropy)
  }

  /** Every value of the inclusive range can be produced. */
  lemma NextReachesEveryValue(minValue: int, maxValue: int, v: int)
    requires 0 <= minValue <= v <= maxValue < MaxInt32
    ensures Next(minValue, maxValue, v - minValue) == Ok(v)
  {
    RandomNextReachesEveryValue(minValue, maxValue + 1, v);
  }

  /** `Next(maxValue)` is `Next(0, maxValue)`: a value in [0, maxValue]. */
  function NextUpTo(maxValue: int, entropy: nat): (r: Result<int, RngError>)
    requires IsInt32(maxValue)
    ensures maxValue < 0 ==> r == Err(InvalidArgument("minValue"))
    ensures r.Ok? <==> 0 <= maxValue < MaxInt32
    ensures r.Ok? ==> 0 <= r.value <= maxValue
  {
    Next(0, maxValue, entropy)
  }
}

=== FILE: random_numbers_range.dfy ===
/** The enumerable range of integers [minValue, maxValue] (`RandomNumbersRange`). */
module RandomNumbersRange {
  import opened Base

  datatype RangeError = NegativeMinimum | MaximumBelowMinimum | NegativeCapacity

  /**
   * Validates the bounds, reserves a list of capacity `maxValue - minValue + 1` in
   * unchecked arithmetic (which throws when that wraps negative), then fills the list by
   * counting from the minimum up to the maximum; the range then enumerates exactly that
   * list.
   */
  method Create(minValue: int, maxValue: int) returns (r: Result<seq<int>, RangeError>)
    requires IsInt32(minValue) && IsInt32(maxValue) && (maxValue < MaxInt32 || minValue <= 0)
    ensures minValue < 0 ==> r == Err(NegativeMinimum)
    ensures 0 <= minValue && maxValue < minValue ==> r == Err(MaximumBelowMinimum)
    ensures minValue == 0 && maxValue == MaxInt32 ==> r == Err(NegativeCapacity)
    ensures r.Ok? <==> 0 <= minValue <= maxValue < MaxInt32
    ensures r.Ok? ==> |r.value| == maxValue - minValue + 1
    ensures r.Ok? ==> forall i :: 0 <= i < |r.value| ==> r.value[i] == minValue + i
  {
    if minValue < 0 {
      return Err(NegativeMinimum);
    }
    if maxValue < minValue {
      return Err(MaximumBelowMinimum);
    }
    if Wrap32(maxValue - minValue + 1) < 0 {
      return Err(NegativeCapacity);
    }
    assert maxValue < MaxInt32 by {
      if maxValue == MaxInt32 {
        WrapOfMaxPlusOne();
      }
    }
    var numbers: seq<int> := [];
    var value := minValue;
    while value <= maxValue
      invariant minValue <= value <= maxValue + 1
      invariant |numbers| == value - minValue
      invariant forall i :: 0 <= i < |numbers| ==> numbers[i] == minValue + i
      decreases maxValue - value
    {
      numbers := numbers + [value];
      value := value + 1;
    }
    return Ok(numbers);
  }

  /** The enumeration is strictly ascending and holds exactly the integers of the range. */
  lemma RangeEnumeratesInterval(minValue: int, maxValue: int, numbers: seq<int>)
    requires 0 <= minValue <= maxValue
    requires |numbers| == maxValue - minValue + 1
    requires forall i :: 0 <= i < |numbers| ==> numbers[i] == minValue + i
    ensures forall i, j :: 0 <= i < j < |numbers| ==> numbers[i] < numbers[j]
    ensures forall x :: x in numbers <==> minValue <= x <= maxValue
  {
    forall x | minValue <= x <= maxValue
      ensures x in numbers
    {
      assert numbers[x - minValue] == x;
    }
  }
}

=== FILE: simulation_generator.dfy ===
/**
 * `SimulationRandomNumberGenerator`: a random-number generator that records every number
 * it produces during a simulation iteration, so that the list can be saved and a later
 * run of the same iteration can replay exactly the same numbers.
 *
 * The XML file is abstracted: saving produces a `SavedIteration` record, and loading is
 * given the `Values` texts of the iteration elements that match the identifiers.
 */
module SimulationGenerator {
  import opened Base
  import RNG = RandomNumberGenerator
  import Text
  import ValuesList

  /**
   * The generator's state. `numbers` is the list of generated (or loaded) numbers, and
   * `cursor` the position of the next number to replay; a cursor at or past the end of
   * the list is the null node.
   */
  datatype Simulation = Simulation(
    generator: RNG.Generator,
    simulationId: Option<string>,
    iterationId: Option<string>,
    reuse: bool,
    numbers: seq<int>,
    cursor: nat)

  datatype SimulationError =
    | Generator(error: RNG.RngError)     // the base generator rejected the arguments
    | TooManyCalls                       // every saved number has been replayed
    | SavedNumberOutOfRange(number: int) // the replayed number is outside [minValue, maxValue]
    | MissingSimulationIdentifier
    | MissingIterationIdentifier
    | SavedFileMissing
    | Unparsable(text: string)           // a piece of a `Values` text is not a 32-bit number
    | NoSavedNumbers                     // the saved data holds no number for the iteration
    | NotStarted                         // saving before an iteration was started

  /** What `SaveRandomNumbers` writes: the file name, both identifiers, the seed and the `Values` text. */
  datatype SavedIteration = SavedIteration(
    fileName: string,
    simulationId: string,
    iterationId: string,
    seed: Option<int>,
    values: string)

  predicate AllInt32(numbers: seq<int>) {
    forall i :: 0 <= i < |numbers| ==> IsInt32(numbers[i])
  }

  function Initial(generator: RNG.Generator): (g: Simulation)
    ensures g.generator == generator && g.simulationId.None? && g.iterationId.None?
    ensures !g.reuse && g.numbers == []
  {
    Simulation(generator, None, None, false, [], 0)
  }

  function CreateWithNullSeed(): (g: Simulation)
    ensures g.generator.seed.None? && !g.reuse && g.numbers == []
  {
    Initial(RNG.CreateWithNullSeed())
  }

  function CreateWithSeed(seed: int): (g: Simulation)
    requires IsInt32(seed)
    ensures g.generator.seed == Some(seed) && !g.reuse && g.numbers == []
  {
    Initial(RNG.CreateWithSeed(seed))
  }

  function CreateWithRandomlyGeneratedSeed(entropy: nat): (g: Simulation)
    ensures g.generator.seed.Some? && 0 <= g.generator.seed.value < MaxInt32
    ensures !g.reuse && g.numbers == []
  {
    Initial(RNG.CreateWithRandomlyGeneratedSeed(entropy))
  }

  datatype Draw = Draw(state: Simulation, number: int)

  /**
   * `Next(minValue, maxValue)`. When replaying, the next saved number is returned if it
   * lies within the bounds, and the bounds are not validated otherwise. When recording,
   * the base generator draws the number and it is appended to the list.
   */
  function Next(g: Simulation, minValue: int, maxValue: int, entropy: nat): (r: Result<Draw, SimulationError>)
    requires IsInt32(minValue) && IsInt32(maxValue)
    ensures g.reuse && g.cursor >= |g.numbers| ==> r == Err(TooManyCalls)
    ensures g.reuse && g.cursor < |g.numbers| ==>
      (r.Ok? <==> minValue <= g.numbers[g.cursor] <= maxValue)
    ensures g.reuse && g.cursor < |g.numbers| && r.Err? ==> r == Err(SavedNumberOutOfRange(g.numbers[g.cursor]))
    ensures g.reuse && r.Ok? ==>
      r.value.number == g.numbers[g.cursor] && r.value.state == g.(cursor := g.cursor + 1)
    ensures !g.reuse ==> (r.Ok? <==> 0 <= minValue <= maxValue < MaxInt32)
    ensures !g.reuse && r.Ok? ==>
      minValue <= r.value.number <= maxValue && r.value.state == g.(numbers := g.numbers + [r.value.number])
  {
    if g.reuse then
      if g.cursor >= |g.numbers| then Err(TooManyCalls)
      else
        var number := g.numbers[g.cursor];
        if number < minValue || number > maxValue then Err(SavedNumberOutOfRange(number))
        else Ok(Draw(g.(cursor := g.cursor + 1), number))
    else
      var drawn := RNG.Next(minValue, maxValue, entropy);
      if drawn.Err? then Err(Generator(drawn.error))
      else Ok(Draw(g.(numbers := g.numbers + [drawn.value]), drawn.value))
  }

  /** `Next(maxValue)` dispatches to the overriding `Next(0, maxValue)`. */
  function NextUpTo(g: Simulation, maxValue: int, entropy: nat): (r: Result<Draw, SimulationError>)
    requires IsInt32(maxValue)
    ensures r.Ok? ==> 0 <= r.value.number <= maxValue
    ensures g.reuse && r.Ok? ==> g.cursor < |g.numbers| && r.value.number == g.numbers[g.cursor]
    ensures !g.reuse ==> (r.Ok? <==> 0 <= maxValue < MaxInt32)
  {
    Next(g, 0, maxValue, entropy)
  }

  /** Reads the numbers of every saved `Values` text, in order. */
  function LoadValues(values: seq<string>): (r: Result<seq<int>, SimulationError>)
    ensures r.Ok? ==> AllInt32(r.value)
    ensures r.Err? ==> r.error.Unparsable?
  {
    if values == [] then Ok([])
    else
      var head := ValuesList.Parse(values[0]);
      if head.Err? then Err(Unparsable(head.error))
      else
        var tail := LoadValues(values[1..]);
        if tail.Err? then tail
        else Ok(head.value + tail.value)
  }

  /**
   * `OnSimulationIterationStarting`. Both identifiers must hold more than white space and
   * are stored trimmed; the list is cleared. To replay, `saved` holds the `Values` texts
   * of the saved iteration (`None` when the file does not exist): they are read into the
   * list, which must not come out empty, and replay starts at its first number.
   */
  function StartIteration(g: Simulation, simulationId: Option<string>, iterationId: Option<string>,
                          reuse: bool, saved: Option<seq<string>>): (r: Result<Simulation, SimulationError>)
    ensures Text.IsNullOrWhiteSpace(simulationId) ==> r == Err(MissingSimulationIdentifier)
    ensures !Text.IsNullOrWhiteSpace(simulationId) && Text.IsNullOrWhiteSpace(iterationId) ==>
      r == Err(MissingIterationIdentifier)
    ensures r.Ok? ==>
      && r.value.simulationId == Some(Text.Trim(simulationId.value))
      && r.value.iterationId == Some(Text.Trim(iterationId.value))
      && r.value.reuse == reuse
      && r.value.generator == g.generator
    ensures !reuse ==> (r.Ok? <==> !Text.IsNullOrWhiteSpace(simulationId) && !Text.IsNullOrWhiteSpace(iterationId))
    ensures !reuse && r.Ok? ==> r.value.numbers == []
    ensures reuse && saved.None? && r.Err? ==> r.error in {MissingSimulationIdentifier, MissingIterationIdentifier, SavedFileMissing}
    ensures reuse && r.Ok? ==>
      saved.Some? && LoadValues(saved.value) == Ok(r.value.numbers) && r.value.numbers != [] && r.value.cursor == 0
  {
    if Text.IsNullOrWhiteSpace(simulationId) then Err(MissingSimulationIdentifier)
    else if Text.IsNullOrWhiteSpace(iterationId) then Err(MissingIterationIdentifier)
    else
      var started := g.(simulationId := Some(Text.Trim(simulationId.value)),
                        iterationId := Some(Text.Trim(iterationId.value)),
                        reuse := reuse,
                        numbers := []);
      if !reuse then Ok(started)
      else if saved.None? then Err(SavedFileMissing)
      else
        var loaded := LoadValues(saved.value);
        if loaded.Err? then Err(loaded.error)
        else if loaded.value == [] then Err(NoSavedNumbers)
        else Ok(started.(numbers := loaded.value, cursor := 0))
  }

  /**
   * The file the numbers of a simulation are saved in, relative to the configured directory.
   * It is keyed by the simulation id only, so each iteration's save replaces the previous one.
   */
  function FileName(simulationId: string): string {
    "SimulationData_" + simulationId + ".xml"
  }

  /**
   * `SaveRandomNumbers()`: refused unless an iteration was started; otherwise writes the
   * identifiers, the seed and the comma-separated list of numbers.
   */
  function SaveRandomNumbers(g: Simulation): (r: Result<SavedIteration, SimulationError>)
    ensures r.Ok? <==> !Text.IsNullOrWhiteSpace(g.simulationId) && !Text.IsNullOrWhiteSpace(g.iterationId)
    ensures r.Err? ==> r.error == NotStarted
    ensures r.Ok? ==>
      && r.value.simulationId == g.simulationId.value
      && r.value.iterationId == g.iterationId.value
      && r.value.seed == g.generator.seed
      && r.value.fileName == FileName(g.simulationId.value)
      && (AllInt32(g.numbers) && g.numbers != [] ==> ValuesList.Parse(r.value.values) == Ok(g.numbers))
  {
    if Text.IsNullOrWhiteSpace(g.simulationId) || Text.IsNullOrWhiteSpace(g.iterationId) then Err(NotStarted)
    else
      var values := ValuesList.Join(g.numbers);
      SavedValuesReadBack(g.numbers);
      Ok(SavedIteration(FileName(g.simulationId.value), g.simulationId.value, g.iterationId.value,
                        g.generator.seed, values))
  }

  lemma SavedValuesReadBack(numbers: seq<int>)
    ensures AllInt32(numbers) && numbers != [] ==> ValuesList.Parse(ValuesList.Join(numbers)) == Ok(numbers)
  {
    if AllInt32(numbers) && numbers != [] {
      ValuesList.ParseOfJoin(numbers);
    }
  }

  /** One call of `Next(minValue, maxValue)`; `entropy` feeds the base generator when recording. */
  datatype Request = Request(minValue: int, maxValue: int, entropy: nat)

  predicate ValidRequests(requests: seq<Request>) {
    forall i :: 0 <= i < |requests| ==> IsInt32(requests[i].minValue) && IsInt32(requests[i].maxValue)
  }

  datatype Outcome = Outcome(state: Simulation, numbers: seq<int>)

  /** Issues the requests in order, stopping at the first error. */
  function Run(g: Simulation, requests: seq<Request>): (r: Result<Outcome, SimulationError>)
    requires ValidRequests(requests)
    ensures r.Ok? ==> |r.value.numbers| == |requests|
    decreases |requests|
  {
    if requests == [] then Ok(Outcome(g, []))
    else
      var q := requests[0];
      var first := Next(g, q.minValue, q.maxValue, q.entropy);
      if first.Err? then Err(first.error)
      else
        var rest := Run(first.value.state, requests[1..]);
        if rest.Err? then rest
        else Ok(Outcome(rest.value.state, [first.value.number] + rest.value.numbers))
  }

  /** Every number a successful run hands out lies within its request's bounds, so it is a 32-bit number. */
  lemma {:induction false} RunWithinBounds(g: Simulation, requests: seq<Request>)
    requires ValidRequests(requests)
    ensures var r := Run(g, requests);
      r.Ok? ==> Fits(r.value.numbers, 0, requests) && AllInt32(r.value.numbers)
    decreases |requests|
  {
    if requests != [] {
      var q := requests[0];
      var first := Next(g, q.minValue, q.maxValue, q.entropy);
      if first.Ok? {
        var rest := Run(first.value.state, requests[1..]);
        RunWithinBounds(first.value.state, requests[1..]);
        if rest.Ok? {
          var numbers := [first.value.number] + rest.value.numbers;
          forall i | 1 <= i < |requests|
            ensures requests[i].minValue <= numbers[i] <= requests[i].maxValue
          {
            assert requests[i] == requests[1..][i - 1] && numbers[i] == rest.value.numbers[i - 1];
          }
        }
      }
    }
  }

  /** While recording, every number handed out is appended to the list, and nothing else changes. */
  lemma {:induction false} RecordingAppendsDraws(g: Simulation, requests: seq<Request>)
    requires ValidRequests(requests) && !g.reuse
    ensures var r := Run(g, requests);
      r.Ok? ==> r.value.state == g.(numbers := g.numbers + r.value.numbers)
    decreases |requests|
  {
    if requests != [] {
      var q := requests[0];
      var first := Next(g, q.minValue, q.maxValue, q.entropy);
      if first.Ok? {
        RecordingAppendsDraws(first.value.state, requests[1..]);
        var rest := Run(first.value.state, requests[1..]);
        if rest.Ok? {
          assert g.numbers + [first.value.number] + rest.value.numbers == g.numbers + ([first.value.number] + rest.value.numbers);
        }
      }
    }
  }

  /** The saved numbers from the cursor on satisfy the requests' bounds, one number per request. */
  predicate Fits(numbers: seq<int>, cursor: nat, requests: seq<Request>) {
    && cursor + |requests| <= |numbers|
    && forall i :: 0 <= i < |requests| ==> requests[i].minValue <= numbers[cursor + i] <= requests[i].maxValue
  }

  lemma FitsStep(numbers: seq<int>, cursor: nat, requests: seq<Request>)
    requires requests != []
    ensures Fits(numbers, cursor, requests) <==>
      && cursor < |numbers|
      && requests[0].minValue <= numbers[cursor] <= requests[0].maxValue
      && Fits(numbers, cursor + 1, requests[1..])
  {
    if cursor < |numbers| && Fits(numbers, cursor + 1, requests[1..]) {
      forall i | 1 <= i < |requests|
        ensures requests[i].minValue <= numbers[cursor + i] <= requests[i].maxValue
      {
        assert requests[i] == requests[1..][i - 1];
      }
    }
    if Fits(numbers, cursor, requests) {
      forall i | 0 <= i < |requests| - 1
        ensures requests[1..][i].minValue <= numbers[cursor + 1 + i] <= requests[1..][i].maxValue
      {
        assert requests[1..][i] == requests[i + 1];
      }
    }
  }

  /**
   * While replaying, the requests succeed exactly when enough saved numbers remain and
   * each lies within its request's bounds.
   */
  lemma {:induction false} ReplaySucceedsIffFits(g: Simulation, requests: seq<Request>)
    requires ValidRequests(requests) && g.reuse && g.cursor <= |g.numbers|
    ensures Run(g, requests).Ok? <==> Fits(g.numbers, g.cursor, requests)
    decreases |requests|
  {
    if requests != [] {
      FitsStep(g.numbers, g.cursor, requests);
      var q := requests[0];
      var first := Next(g, q.minValue, q.maxValue, q.entropy);
      if first.Ok? {
        ReplaySucceedsIffFits(first.value.state, requests[1..]);
      }
    }
  }

  /** A successful replay hands out the saved numbers from the cursor on, in order, and advances the cursor past them. */
  lemma {:induction false} ReplayHandsOutSaved(g: Simulation, requests: seq<Request>)
    requires ValidRequests(requests) && g.reuse && g.cursor <= |g.numbers|
    ensures var r := Run(g, requests);
      r.Ok? ==>
        && g.cursor + |requests| <= |g.numbers|
        && r.value.numbers == g.numbers[g.cursor..g.cursor + |requests|]
        && r.value.state == g.(cursor := g.cursor + |requests|)
    decreases |requests|
  {
    if requests != [] {
      var q := requests[0];
      var first := Next(g, q.minValue, q.maxValue, q.entropy);
      if first.Ok? {
        var h := first.value.state;
        ReplayHandsOutSaved(h, requests[1..]);
        var rest := Run(h, requests[1..]);
        if rest.Ok? {
          assert g.numbers[g.cursor..g.cursor + |requests|] == [g.numbers[g.cursor]] + h.numbers[h.cursor..h.cursor + |requests| - 1];
        }
      }
    }
  }

  lemma LoadSingleValues(text: string, numbers: seq<int>)
    requires ValuesList.Parse(text) == Ok(numbers)
    ensures LoadValues([text]) == Ok(numbers)
  {
    assert [text][1..] == [];
    assert numbers + [] == numbers;
  }

  /** Starting to replay from the text of a non-empty list loads that list and sets the cursor on its first number. */
  lemma ReplayStartLoads(g: Simulation, simulationId: Option<string>, iterationId: Option<string>, text: string, numbers: seq<int>)
    requires !Text.IsNullOrWhiteSpace(simulationId) && !Text.IsNullOrWhiteSpace(iterationId)
    requires numbers != [] && ValuesList.Parse(text) == Ok(numbers)
    ensures var r := StartIteration(g, simulationId, iterationId, true, Some([text]));
      r.Ok? && r.value.numbers == numbers && r.value.cursor == 0 && r.value.reuse
  {
    LoadSingleValues(text, numbers);
  }

  /**
   * A recording from a fresh start saves a `Values` text that reads back as the numbers
   * handed out, which fit the requests one by one.
   */
  lemma RecordingSaves(started: Simulation, requests: seq<Request>)
    requires ValidRequests(requests) && requests != [] && !started.reuse && started.numbers == []
    requires !Text.IsNullOrWhiteSpace(started.simulationId) && !Text.IsNullOrWhiteSpace(started.iterationId)
    requires Run(started, requests).Ok?
    ensures var recorded := Run(started, requests).value;
      var saved := SaveRandomNumbers(recorded.state);
      && saved.Ok?
      && saved.value.fileName == FileName(started.simulationId.value)
      && ValuesList.Parse(saved.value.values) == Ok(recorded.numbers)
      && recorded.numbers != []
      && Fits(recorded.numbers, 0, requests)
  {
    RecordingAppendsDraws(started, requests);
    RunWithinBounds(started, requests);
    var recorded := Run(started, requests).value;
    assert recorded.state.numbers == recorded.numbers;
    assert recorded.numbers[0] == recorded.numbers[0];
  }

  /** Replaying from a saved text whose numbers fit the requests hands out exactly those numbers. */
  lemma ReplayOfSaved(other: Simulation, simulationId: Option<string>, iterationId: Option<string>,
                      text: string, numbers: seq<int>, requests: seq<Request>)
    requires ValidRequests(requests)
    requires !Text.IsNullOrWhiteSpace(simulationId) && !Text.IsNullOrWhiteSpace(iterationId)
    requires numbers != [] && ValuesList.Parse(text) == Ok(numbers)
    requires |numbers| == |requests| && Fits(numbers, 0, requests)
    ensures var replay := StartIteration(other, simulationId, iterationId, true, Some([text]));
      && replay.Ok?
      && var replayed := Run(replay.value, requests);
      && replayed.Ok?
      && replayed.value.numbers == numbers
      && replayed.value.state.cursor == |numbers|
  {
    ReplayStartLoads(other, simulationId, iterationId, text, numbers);
    var replay := StartIteration(other, simulationId, iterationId, true, Some([text])).value;
    ReplaySucceedsIffFits(replay, requests);
    ReplayHandsOutSaved(replay, requests);
    assert numbers[0..|requests|] == numbers;
  }

  /**
   * Record and replay: an iteration recorded from a fresh start and then saved can be
   * started again in replay mode from the saved `Values` text, after which the same
   * requests hand out the same numbers and consume the whole list.
   */
  lemma ReplayReproducesRecording(g: Simulation, simulationId: Option<string>, iterationId: Option<string>,
                                  requests: seq<Request>, other: Simulation)
    requires ValidRequests(requests) && requests != []
    requires StartIteration(g, simulationId, iterationId, false, None).Ok?
    requires Run(StartIteration(g, simulationId, iterationId, false, None).value, requests).Ok?
    ensures
      var recorded := Run(StartIteration(g, simulationId, iterationId, false, None).value, requests).value;
      var saved := SaveRandomNumbers(recorded.state);
      && saved.Ok?
      && saved.value.fileName == FileName(Text.Trim(simulationId.value))
      && var replay := StartIteration(other, simulationId, iterationId, true, Some([saved.value.values]));
      && replay.Ok?
      && var replayed := Run(replay.value, requests);
      && replayed.Ok?
      && replayed.value.numbers == recorded.numbers
      && replayed.value.state.cursor == |replay.value.numbers|
  {
    var started := StartIteration(g, simulationId, iterationId, false, None).value;
    RecordingSaves(started, requests);
    var recorded := Run(started, requests).value;
    var saved := SaveRandomNumbers(recorded.state).value;
    ReplayOfSaved(other, simulationId, iterationId, saved.values, recorded.numbers, requests);
    ReplayStartLoads(other, simulationId, iterationId, saved.values, recorded.numbers);
  }
}

=== FILE: statistic_paths.dfy ===
/**
 * The path helpers of a statistic: the chain of statistics from the root of its tree down
 * to it (`GetPath`, `IsStatisticsPathAMatch`) and the search for a matching ancestor group
 * (`TryGetParentStatisticsGroup`).
 */
module StatisticPaths {
  import opened Base
  import opened StatisticsTree

  /** The statistics from the root of `id`'s tree down to `id`, each the parent of the next. */
  function PathIds(a: Arena, r: Ranking, id: Id): (p: seq<Id>)
    requires Ranked(a, r) && id in a
    ensures p != [] && p[|p| - 1] == id && p[0] in a && a[p[0]].parent.None?
    ensures forall k :: 0 <= k < |p| ==> p[k] in a
    ensures forall k :: 0 <= k < |p| - 1 ==> a[p[k + 1]].parent == Some(p[k])
    decreases r.top - r.rank[id]
  {
    if a[id].parent.None? then [id]
    else
      PathIds(a, r, a[id].parent.value) + [id]
  }

  /** A chain of parent links that starts at a root. */
  predicate IsRootChain(a: Arena, q: seq<Id>) {
    && q != []
    && (forall k :: 0 <= k < |q| ==> q[k] in a)
    && a[q[0]].parent.None?
    && (forall k :: 0 <= k < |q| - 1 ==> a[q[k + 1]].parent == Some(q[k]))
  }

  /** The path is the only chain of parent links from a root down to the statistic. */
  lemma {:induction false} RootChainIsPath(a: Arena, r: Ranking, q: seq<Id>)
    requires Ranked(a, r) && IsRootChain(a, q)
    ensures q == PathIds(a, r, q[|q| - 1])
    decreases |q|
  {
    var id := q[|q| - 1];
    if |q| > 1 {
      var up := q[..|q| - 1];
      assert IsRootChain(a, up) by {
        forall k | 0 <= k < |up|
          ensures up[k] == q[k]
        {
        }
      }
      RootChainIsPath(a, r, up);
      assert q == up + [id];
    }
  }

  /** The names along the path of `id`. */
  function PathNames(a: Arena, r: Ranking, id: Id): (names: seq<string>)
    requires Ranked(a, r) && id in a
    ensures |names| == |PathIds(a, r, id)|
  {
    var p := PathIds(a, r, id);
    seq(|p|, k requires 0 <= k < |p| => a[p[k]].name)
  }

  /** `string.Join("=>", pieces)` of a non-empty sequence. */
  function JoinArrows(pieces: seq<string>): string
    requires pieces != []
  {
    if |pieces| == 1 then pieces[0] else JoinArrows(pieces[..|pieces| - 1]) + "=>" + pieces[|pieces| - 1]
  }

  /** `GetPath`: the bracketed names from the root down to the statistic, joined by `=>`. */
  function GetPath(a: Arena, r: Ranking, id: Id): string
    requires Ranked(a, r) && id in a
  {
    var names := PathNames(a, r, id);
    JoinArrows(seq(|names|, k requires 0 <= k < |names| => "[" + names[k] + "]"))
  }

  /**
   * The path text of a statistic without a parent is its bracketed name; the path of any
   * other statistic is its parent's path, an arrow and its bracketed name.
   */
  lemma GetPathExtendsParentPath(a: Arena, r: Ranking, id: Id)
    requires Ranked(a, r) && id in a
    ensures a[id].parent.None? ==> GetPath(a, r, id) == "[" + a[id].name + "]"
    ensures a[id].parent.Some? ==>
      GetPath(a, r, id) == GetPath(a, r, a[id].parent.value) + "=>" + "[" + a[id].name + "]"
  {
    if a[id].parent.Some? {
      var parent := a[id].parent.value;
      var up, names := PathNames(a, r, parent), PathNames(a, r, id);
      var bracketedUp := seq(|up|, k requires 0 <= k < |up| => "[" + up[k] + "]");
      var bracketed := seq(|names|, k requires 0 <= k < |names| => "[" + names[k] + "]");
      assert bracketed[..|bracketed| - 1] == bracketedUp;
    }
  }

  datatype PathMatchError = RegularExpressionsNotImplemented

  /**
   * `IsStatisticsPathAMatch`: no names (`None` for null) never match. Without starts-with
   * matching the path must have as many statistics as there are names; with it, at least
   * as many. Names are then compared with the path from the root on; regular-expression
   * matching is not implemented and fails at the first comparison.
   */
  function IsStatisticsPathAMatch(a: Arena, r: Ranking, id: Id, useRegularExpressions: bool,
                                  startsWith: bool, names: Option<seq<string>>): (m: Result<bool, PathMatchError>)
    requires Ranked(a, r) && id in a
    ensures var path := PathNames(a, r, id);
      m.Err? <==> useRegularExpressions && names.Some? && names.value != [] &&
                  (|path| == |names.value| || (startsWith && |path| > |names.value|))
    ensures var path := PathNames(a, r, id);
      !useRegularExpressions ==>
        (m == Ok(true) <==>
           (names.Some? && names.value != [] && names.value <= path && (startsWith || |path| == |names.value|)))
    ensures var path := PathNames(a, r, id);
      m.Ok? ==>
        (m.value <==>
           (!useRegularExpressions && names.Some? && names.value != [] && names.value <= path &&
            (startsWith || |path| == |names.value|)))
  {
    if names.None? || names.value == [] then Ok(false)
    else
      var path := PathNames(a, r, id);
      if |path| != |names.value| && (!startsWith || |path| < |names.value|) then Ok(false)
      else CompareNames(path, names.value, 0, useRegularExpressions)
  }

  /**
   * The comparison loop from name k on. The length check before it leaves a path node for
   * every name, so the loop's exit on a missing node cannot happen and is not modelled.
   */
  function CompareNames(path: seq<string>, names: seq<string>, k: nat, useRegularExpressions: bool): (m: Result<bool, PathMatchError>)
    requires |names| <= |path| && k <= |names|
    ensures useRegularExpressions ==> (m.Err? <==> k < |names|)
    ensures !useRegularExpressions ==> m.Ok? && (m.value <==> path[k..|names|] == names[k..])
    decreases |names| - k
  {
    if k == |names| then Ok(true)
    else if useRegularExpressions then Err(RegularExpressionsNotImplemented)
    else if path[k] != names[k] then Ok(false)
    else
      var rest := CompareNames(path, names, k + 1, useRegularExpressions);
      assert path[k..|names|] == [path[k]] + path[k + 1..|names|];
      assert names[k..] == [names[k]] + names[k + 1..];
      rest
  }

  /**
   * `TryGetParentStatisticsGroup` as written: the loop tests the parent group but never
   * moves on to that group's parent. `fuel` bounds the number of loop iterations; `None`
   * means the loop is still running after that many.
   */
  function TryGetParentAsWritten(a: Arena, id: Id, isMatch: Id -> bool, fuel: nat): Option<Option<Id>>
    requires id in a
  {
    ParentLoopAsWritten(a[id].parent, isMatch, fuel)
  }

  function ParentLoopAsWritten(current: Option<Id>, isMatch: Id -> bool, fuel: nat): Option<Option<Id>> {
    if current.None? then Some(None)
    else if isMatch(current.value) then Some(current)
    else if fuel == 0 then None
    else ParentLoopAsWritten(current, isMatch, fuel - 1)
  }

  /** When the parent group does not match, the loop as written never ends. */
  lemma {:induction false} TryGetParentAsWrittenHangs(a: Arena, id: Id, isMatch: Id -> bool, fuel: nat)
    requires id in a && a[id].parent.Some? && !isMatch(a[id].parent.value)
    ensures TryGetParentAsWritten(a, id, isMatch, fuel).None?
    decreases fuel
  {
    if fuel > 0 {
      TryGetParentAsWrittenHangs(a, id, isMatch, fuel - 1);
    }
  }

  /** The corrected search: walks up parent links until a group matches. */
  function TryGetParent(a: Arena, r: Ranking, id: Id, isMatch: Id -> bool): Option<Id>
    requires Ranked(a, r) && id in a
    decreases r.top - r.rank[id]
  {
    if a[id].parent.None? then None
    else if isMatch(a[id].parent.value) then a[id].parent
    else TryGetParent(a, r, a[id].parent.value, isMatch)
  }

  /** The groups above a statistic, from the root down to its parent. */
  function Ancestors(a: Arena, r: Ranking, id: Id): seq<Id>
    requires Ranked(a, r) && id in a
  {
    var p := PathIds(a, r, id);
    p[..|p| - 1]
  }

  /**
   * `g` is the last of `ancestors` that matches, and `None` exactly when none matches.
   */
  predicate IsNearestMatch(ancestors: seq<Id>, isMatch: Id -> bool, g: Option<Id>) {
    && (g.None? <==> forall k :: 0 <= k < |ancestors| ==> !isMatch(ancestors[k]))
    && (g.Some? ==> exists k :: 0 <= k < |ancestors| && ancestors[k] == g.value && isMatch(ancestors[k]) &&
                               forall j :: k < j < |ancestors| ==> !isMatch(ancestors[j]))
  }

  lemma NearestMatchOfExtension(up: seq<Id>, isMatch: Id -> bool, g: Option<Id>)
    requires up != []
    requires isMatch(up[|up| - 1]) ==> g == Some(up[|up| - 1])
    requires !isMatch(up[|up| - 1]) ==> IsNearestMatch(up[..|up| - 1], isMatch, g)
    ensures IsNearestMatch(up, isMatch, g)
  {
    var last := |up| - 1;
    if isMatch(up[last]) {
      assert up[last] == g.value && isMatch(up[last]);
    } else if g.None? {
      NoMatchOfExtension(up, up[..last], isMatch);
    } else {
      var front := up[..last];
      var k :| 0 <= k < |front| && front[k] == g.value && isMatch(front[k]) &&
               forall j :: k < j < |front| ==> !isMatch(front[j]);
      LastMatchOfExtension(up, front, isMatch, k);
    }
  }

  lemma NoMatchOfExtension(up: seq<Id>, front: seq<Id>, isMatch: Id -> bool)
    requires up != [] && front == up[..|up| - 1] && !isMatch(up[|up| - 1])
    requires forall k :: 0 <= k < |front| ==> !isMatch(front[k])
    ensures forall k :: 0 <= k < |up| ==> !isMatch(up[k])
  {
    forall k | 0 <= k < |up| - 1
      ensures !isMatch(up[k])
    {
      assert front[k] == up[k];
    }
  }

  lemma LastMatchOfExtension(up: seq<Id>, front: seq<Id>, isMatch: Id -> bool, k: nat)
    requires k < |up| - 1 && front == up[..|up| - 1] && !isMatch(up[|up| - 1])
    requires forall j :: k < j < |front| ==> !isMatch(front[j])
    ensures forall j :: k < j < |up| ==> !isMatch(up[j])
  {
    forall j | k < j < |up| - 1
      ensures !isMatch(up[j])
    {
      assert front[j] == up[j];
    }
  }

  /**
   * The corrected search finds the nearest group above the statistic that matches, and
   * finds none exactly when no group above it matches.
   */
  lemma {:induction false} TryGetParentFindsNearest(a: Arena, r: Ranking, id: Id, isMatch: Id -> bool)
    requires Ranked(a, r) && id in a
    ensures IsNearestMatch(Ancestors(a, r, id), isMatch, TryGetParent(a, r, id, isMatch))
    decreases r.top - r.rank[id]
  {
    var p := PathIds(a, r, id);
    if a[id].parent.None? {
      assert Ancestors(a, r, id) == [];
    } else {
      var parent := a[id].parent.value;
      var up := PathIds(a, r, parent);
      assert Ancestors(a, r, id) == up by {
        assert p == up + [id];
      }
      if !isMatch(parent) {
        TryGetParentFindsNearest(a, r, parent, isMatch);
      }
      NearestMatchOfExtension(up, isMatch, TryGetParent(a, r, id, isMatch));
    }
  }

  /**
   * Where the loop as written ends, on a statistic without a parent or one whose parent
   * group matches, it gives the nearest matching group.
   */
  lemma TryGetParentAgreesWhereItEnds(a: Arena, r: Ranking, id: Id, isMatch: Id -> bool, fuel: nat)
    requires Ranked(a, r) && id in a
    requires a[id].parent.None? || isMatch(a[id].parent.value)
    ensures TryGetParentAsWritten(a, id, isMatch, fuel) == Some(TryGetParent(a, r, id, isMatch))
    ensures TryGetParentAsWritten(a, id, isMatch, fuel) != None
  {
  }
}

=== FILE: statistic_update.dfy ===
/**
 * Updating statistics with a statistic source (`UpdateStatistic`). A leaf matches when
 * its match predicate holds; a group updates its children in order and matches when one
 * of them does, and an exclusive group fails as soon as a second child matches. A
 * statistic that matches increments its counter, and the completion hook then runs with
 * the outcome.
 *
 * `Eval` is the reference: what a statistic's check yields, decided from the children's
 * outcomes as a whole, without counters. `Update` is the stateful walk; the lemmas show
 * that it yields `Eval`'s outcome and that every counter grows by the number of
 * completions that report an update.
 */
module StatisticUpdate {
  import opened Base
  import opened StatisticsTree

  datatype UpdateError = MultipleMatches(group: Id, first: Id, second: Id)

  type Outcome = Result<bool, UpdateError>

  /** One call of the completion hook `OnUpdateStatisticCompleted`. */
  datatype Completion = Completion(statistic: Id, updated: bool)

  /** The number of completions in the log that report an update of `id`. */
  function Increments(log: seq<Completion>, id: Id): nat {
    if log == [] then 0
    else Increments(log[..|log| - 1], id) + (if log[|log| - 1] == Completion(id, true) then 1 else 0)
  }

  lemma {:induction false} IncrementsOfConcat(l1: seq<Completion>, l2: seq<Completion>, id: Id)
    ensures Increments(l1 + l2, id) == Increments(l1, id) + Increments(l2, id)
    decreases |l2|
  {
    if l2 == [] {
      assert l1 + l2 == l1;
    } else {
      assert (l1 + l2)[..|l1 + l2| - 1] == l1 + l2[..|l2| - 1];
      IncrementsOfConcat(l1, l2[..|l2| - 1], id);
    }
  }

  /**
   * From `a` to `b`, every counter grew by the number of updates the log reports for it,
   * in the unchecked `int` arithmetic of `++Counter`.
   */
  predicate Accounted(a: Arena, b: Arena, log: seq<Completion>) {
    a.Keys == b.Keys && forall id :: id in a ==> b[id].counter == IncrementTimes32(a[id].counter, Increments(log, id))
  }

  lemma AccountedCompose(a: Arena, b: Arena, c: Arena, l1: seq<Completion>, l2: seq<Completion>)
    requires Accounted(a, b, l1) && Accounted(b, c, l2)
    ensures Accounted(a, c, l1 + l2)
  {
    forall id | id in a
      ensures c[id].counter == IncrementTimes32(a[id].counter, Increments(l1 + l2, id))
    {
      IncrementsOfConcat(l1, l2, id);
      IncrementTimes32Add(a[id].counter, Increments(l1, id), Increments(l2, id));
    }
  }

  /** Every completion in the log concerns a statistic ranked below `bound`. */
  predicate Below(log: seq<Completion>, r: Ranking, bound: nat) {
    forall k :: 0 <= k < |log| ==> log[k].statistic in r.rank && r.rank[log[k].statistic] < bound
  }

  lemma {:induction false} NoIncrementsBelow(log: seq<Completion>, r: Ranking, id: Id)
    requires id in r.rank && Below(log, r, r.rank[id])
    ensures Increments(log, id) == 0
    decreases |log|
  {
    if log != [] {
      assert log[|log| - 1].statistic != id;
      NoIncrementsBelow(log[..|log| - 1], r, id);
    }
  }

  lemma BelowConcat(l1: seq<Completion>, l2: seq<Completion>, r: Ranking, bound: nat)
    requires Below(l1, r, bound) && Below(l2, r, bound)
    ensures Below(l1 + l2, r, bound)
  {
    forall k | 0 <= k < |l1 + l2|
      ensures (l1 + l2)[k].statistic in r.rank && r.rank[(l1 + l2)[k].statistic] < bound
    {
      if k >= |l1| {
        assert (l1 + l2)[k] == l2[k - |l1|];
      }
    }
  }

  lemma SameShapeTransitive(a: Arena, b: Arena, c: Arena)
    requires SameShape(a, b) && SameShape(b, c)
    ensures SameShape(a, c)
  {
  }

  /** The positions of the outcomes that report a match, in ascending order. */
  function Matches(rs: seq<Outcome>): (m: seq<nat>)
    ensures forall i :: 0 <= i < |m| ==> m[i] < |rs| && rs[m[i]] == Ok(true)
    ensures forall i, j :: 0 <= i < j < |m| ==> m[i] < m[j]
    ensures forall k :: 0 <= k < |rs| && rs[k] == Ok(true) ==> k in m
  {
    if rs == [] then []
    else
      var m := Matches(rs[..|rs| - 1]);
      if rs[|rs| - 1] == Ok(true) then m + [|rs| - 1] else m
  }

  /** The position of the first failed outcome, or |rs| when none failed. */
  function FirstError(rs: seq<Outcome>): (e: nat)
    ensures e <= |rs|
    ensures e < |rs| ==> rs[e].Err?
    ensures forall k :: 0 <= k < e ==> rs[k].Ok?
  {
    if rs == [] then 0
    else if rs[0].Err? then 0
    else 1 + FirstError(rs[1..])
  }

  /**
   * A group's check, decided from its children's outcomes in collection order. A
   * non-exclusive group fails with the first failing child and otherwise matches when
   * some child matched. An exclusive group fails at the first failing child or at the
   * second matching child, whichever comes first, and otherwise matches when a child did.
   */
  function Decide(kind: Kind, group: Id, children: seq<Id>, rs: seq<Outcome>): Outcome
    requires |rs| == |children|
  {
    var e := FirstError(rs);
    var m := Matches(rs);
    if kind.Exclusive? && |m| >= 2 && m[1] < e then Err(MultipleMatches(group, children[m[0]], children[m[1]]))
    else if e < |rs| then rs[e]
    else Ok(|m| > 0)
  }

  /** The outcome of a statistic's check: its match predicate for a leaf, `Decide` for a group. */
  function Eval<S>(a: Arena, r: Ranking, isMatch: (Id, S) -> bool, id: Id, src: S): Outcome
    requires Ranked(a, r) && id in a
    decreases r.rank[id]
  {
    if a[id].kind.Leaf? then Ok(isMatch(id, src))
    else Decide(a[id].kind, id, a[id].children, ChildOutcomes(a, r, isMatch, id, src))
  }

  function ChildOutcomes<S>(a: Arena, r: Ranking, isMatch: (Id, S) -> bool, id: Id, src: S): (rs: seq<Outcome>)
    requires Ranked(a, r) && id in a
    ensures |rs| == |a[id].children|
    decreases r.rank[id], 0
  {
    seq(|a[id].children|, k requires 0 <= k < |a[id].children| => Eval(a, r, isMatch, a[id].children[k], src))
  }

  /** Counters play no part in a check's outcome. */
  lemma {:induction false} EvalIgnoresCounters<S>(a: Arena, b: Arena, r: Ranking, isMatch: (Id, S) -> bool, id: Id, src: S)
    requires Ranked(a, r) && SameShape(a, b) && id in a
    ensures Ranked(b, r)
    ensures Eval(a, r, isMatch, id, src) == Eval(b, r, isMatch, id, src)
    decreases r.rank[id]
  {
    RankedOfSameShape(a, b, r);
    assert Shape(a[id]) == Shape(b[id]);
    if !a[id].kind.Leaf? {
      var children := a[id].children;
      forall k | 0 <= k < |children|
        ensures Eval(a, r, isMatch, children[k], src) == Eval(b, r, isMatch, children[k], src)
      {
        EvalIgnoresCounters(a, b, r, isMatch, children[k], src);
      }
      assert ChildOutcomes(a, r, isMatch, id, src) == ChildOutcomes(b, r, isMatch, id, src);
    }
  }

  /**
   * A non-exclusive group's check succeeds exactly when no child fails, and then matches
   * exactly when some child matched.
   */
  lemma NonExclusiveMeaning(group: Id, children: seq<Id>, rs: seq<Outcome>)
    requires |rs| == |children|
    ensures Decide(NonExclusive, group, children, rs).Ok? <==> forall k :: 0 <= k < |rs| ==> rs[k].Ok?
    ensures Decide(NonExclusive, group, children, rs) == Ok(true) <==>
      (forall k :: 0 <= k < |rs| ==> rs[k].Ok?) && exists k :: 0 <= k < |rs| && rs[k] == Ok(true)
  {
    var m := Matches(rs);
    if exists k :: 0 <= k < |rs| && rs[k] == Ok(true) {
      var k :| 0 <= k < |rs| && rs[k] == Ok(true);
      assert k in m;
    }
    if m != [] {
      assert rs[m[0]] == Ok(true);
    }
  }

  /**
   * An exclusive group matches exactly when no child fails and exactly one child
   * matched, and its check is false exactly when no child fails and none matched.
   */
  lemma ExclusiveMeaning(group: Id, children: seq<Id>, rs: seq<Outcome>)
    requires |rs| == |children|
    ensures Decide(Exclusive, group, children, rs) == Ok(true) <==>
      (forall k :: 0 <= k < |rs| ==> rs[k].Ok?) && |Matches(rs)| == 1
    ensures Decide(Exclusive, group, children, rs) == Ok(false) <==>
      (forall k :: 0 <= k < |rs| ==> rs[k] == Ok(false))
  {
    var m := Matches(rs);
    var e := FirstError(rs);
    assert m != [] ==> rs[m[0]] == Ok(true);
    if e == |rs| && m == [] {
      forall k | 0 <= k < |rs|
        ensures rs[k] == Ok(false)
      {
        assert rs[k].Ok? && k !in m;
        assert rs[k] != Ok(true);
        assert rs[k] == Ok(rs[k].value);
        assert !rs[k].value;
      }
    }
  }

  /** The outcome of an update, the arena after it and the completion hooks it ran, in order. */
  datatype Updated = Updated(arena: Arena, result: Outcome, log: seq<Completion>)

  /**
   * `UpdateStatistic`: the check runs (for a group, updating its children), the counter
   * is incremented when the check is true, and the completion hook runs with the same
   * flag. A failed check raises before the counter or the hook is reached.
   */
  function Update<S>(a: Arena, r: Ranking, isMatch: (Id, S) -> bool, id: Id, src: S): (u: Updated)
    requires Ranked(a, r) && id in a
    ensures SameShape(a, u.arena) && Ranked(u.arena, r)
    ensures Accounted(a, u.arena, u.log)
    ensures Below(u.log, r, r.rank[id] + 1)
    ensures u.result.Ok? ==> u.log != [] && u.log[|u.log| - 1] == Completion(id, u.result.value)
    ensures u.result.Ok? ==> u.arena[id].counter == IncrementTimes32(a[id].counter, if u.result.value then 1 else 0)
    ensures u.result.Err? ==> u.arena[id].counter == a[id].counter
    ensures a[id].kind.Leaf? ==>
      u.result == Ok(isMatch(id, src)) && u.log == [Completion(id, isMatch(id, src))]
    decreases r.rank[id], 1
  {
    var check := if a[id].kind.Leaf? then Updated(a, Ok(isMatch(id, src)), [])
                 else UpdateChildren(a, r, isMatch, id, src, 0, None);
    BelowKeepsCounter(a, check.arena, r, id, check.log);
    if check.result.Err? then check
    else
      var flag := check.result.value;
      CompleteKeepsAccounts(a, check.arena, r, id, flag, check.log);
      Updated(Bump(check.arena, id, flag), Ok(flag), check.log + [Completion(id, flag)])
  }

  /** The counter increment of a statistic whose check is true; `++Counter` wraps at `int.MaxValue`. */
  function Bump(b: Arena, id: Id, flag: bool): Arena
    requires id in b
  {
    if flag then b[id := b[id].(counter := Increment32(b[id].counter))] else b
  }

  /** Updates of lower-ranked statistics leave a statistic's own counter alone. */
  lemma BelowKeepsCounter(a: Arena, b: Arena, r: Ranking, id: Id, log: seq<Completion>)
    requires id in a && id in r.rank && Accounted(a, b, log) && Below(log, r, r.rank[id])
    ensures b[id].counter == a[id].counter
  {
    NoIncrementsBelow(log, r, id);
  }

  lemma BumpAccounted(b: Arena, id: Id, flag: bool)
    requires id in b
    ensures Accounted(b, Bump(b, id, flag), [Completion(id, flag)])
  {
    var c := Bump(b, id, flag);
    var done := [Completion(id, flag)];
    forall x | x in b
      ensures c[x].counter == IncrementTimes32(b[x].counter, Increments(done, x))
    {
      assert done[..0] == [];
      if x != id || !flag {
        assert Increments(done, x) == 0;
        assert c[x].counter == b[x].counter;
      }
    }
  }

  lemma CompleteKeepsAccounts(a: Arena, b: Arena, r: Ranking, id: Id, flag: bool, log: seq<Completion>)
    requires Ranked(b, r) && id in b && SameShape(a, b) && Accounted(a, b, log)
    requires Below(log, r, r.rank[id]) && b[id].counter == a[id].counter
    ensures var c := Bump(b, id, flag);
      && SameShape(a, c) && Ranked(c, r)
      && Accounted(a, c, log + [Completion(id, flag)])
      && Below(log + [Completion(id, flag)], r, r.rank[id] + 1)
      && c[id].counter == IncrementTimes32(a[id].counter, if flag then 1 else 0)
  {
    var c := Bump(b, id, flag);
    var done := [Completion(id, flag)];
    assert SameShape(b, c);
    RankedOfSameShape(b, c, r);
    BumpAccounted(b, id, flag);
    AccountedCompose(a, b, c, log, done);
    BelowConcat(log, done, r, r.rank[id] + 1);
  }

  /**
   * The children loop of a group's check, from child k on; `matched` is the child that
   * matched so far, if any.
   */
  function UpdateChildren<S>(a: Arena, r: Ranking, isMatch: (Id, S) -> bool, id: Id, src: S,
                             k: nat, matched: Option<Id>): (u: Updated)
    requires Ranked(a, r) && id in a && !a[id].kind.Leaf? && k <= |a[id].children|
    ensures SameShape(a, u.arena) && Ranked(u.arena, r)
    ensures Accounted(a, u.arena, u.log)
    ensures Below(u.log, r, r.rank[id])
    decreases r.rank[id], 0, |a[id].children| - k
  {
    if k == |a[id].children| then Updated(a, Ok(matched.Some?), [])
    else
      var c := a[id].children[k];
      var child := Update(a, r, isMatch, c, src);
      assert Shape(a[id]) == Shape(child.arena[id]);
      if child.result.Err? then child
      else if child.result.value && a[id].kind.Exclusive? && matched.Some? then
        Updated(child.arena, Err(MultipleMatches(id, matched.value, c)), child.log)
      else
        var rest := UpdateChildren(child.arena, r, isMatch, id, src, k + 1,
                                   if child.result.value then Some(c) else matched);
        SameShapeTransitive(a, child.arena, rest.arena);
        AccountedCompose(a, child.arena, rest.arena, child.log, rest.log);
        BelowConcat(child.log, rest.log, r, r.rank[id]);
        Updated(rest.arena, rest.result, child.log + rest.log)
  }

  /** The positions that match among the first k outcomes grow by k itself when outcome k matches. */
  lemma MatchesStep(rs: seq<Outcome>, k: nat)
    requires k < |rs|
    ensures Matches(rs[..k + 1]) == Matches(rs[..k]) + (if rs[k] == Ok(true) then [k] else [])
  {
    assert rs[..k + 1][..k] == rs[..k];
  }

  /** The matches among the first k outcomes are the matches of all outcomes that lie below k. */
  lemma {:induction false} MatchesOfPrefix(rs: seq<Outcome>, k: nat)
    requires k <= |rs|
    ensures Matches(rs[..k]) <= Matches(rs)
    ensures forall i :: |Matches(rs[..k])| <= i < |Matches(rs)| ==> Matches(rs)[i] >= k
    decreases |rs| - k
  {
    if k == |rs| {
      assert rs[..k] == rs;
    } else {
      MatchesOfPrefix(rs, k + 1);
      MatchesStep(rs, k);
    }
  }

  /**
   * What the children loop knows after k children: none failed, `matched` is set exactly
   * when one matched, and in an exclusive group at most one did, the one `matched` names.
   */
  predicate ScanState(kind: Kind, children: seq<Id>, rs: seq<Outcome>, k: nat, matched: Option<Id>)
    requires |rs| == |children| && k <= |rs|
  {
    var m := Matches(rs[..k]);
    && (forall j :: 0 <= j < k ==> rs[j].Ok?)
    && (matched.Some? <==> m != [])
    && (kind.Exclusive? ==> |m| <= 1 && (matched.Some? ==> matched.value == children[m[0]]))
  }

  lemma ChildOutcomesIgnoreCounters<S>(a: Arena, b: Arena, r: Ranking, isMatch: (Id, S) -> bool, id: Id, src: S)
    requires Ranked(a, r) && SameShape(a, b) && id in a
    ensures Ranked(b, r)
    ensures ChildOutcomes(a, r, isMatch, id, src) == ChildOutcomes(b, r, isMatch, id, src)
  {
    EvalIgnoresCounters(a, b, r, isMatch, id, src);
    assert Shape(a[id]) == Shape(b[id]);
    var children := a[id].children;
    forall k | 0 <= k < |children|
      ensures Eval(a, r, isMatch, children[k], src) == Eval(b, r, isMatch, children[k], src)
    {
      EvalIgnoresCounters(a, b, r, isMatch, children[k], src);
    }
  }

  /** The stateful update yields the reference outcome of the statistic's check. */
  lemma {:induction false} UpdateYieldsEval<S>(a: Arena, r: Ranking, isMatch: (Id, S) -> bool, id: Id, src: S)
    requires Ranked(a, r) && id in a
    ensures Update(a, r, isMatch, id, src).result == Eval(a, r, isMatch, id, src)
    decreases r.rank[id], 1
  {
    if !a[id].kind.Leaf? {
      var rs := ChildOutcomes(a, r, isMatch, id, src);
      assert rs[..0] == [];
      UpdateChildrenYieldsDecide(a, r, isMatch, id, src, 0, None);
    }
  }

  lemma {:induction false} UpdateChildrenYieldsDecide<S>(a: Arena, r: Ranking, isMatch: (Id, S) -> bool, id: Id, src: S,
                                                         k: nat, matched: Option<Id>)
    requires Ranked(a, r) && id in a && !a[id].kind.Leaf? && k <= |a[id].children|
    requires ScanState(a[id].kind, a[id].children, ChildOutcomes(a, r, isMatch, id, src), k, matched)
    ensures UpdateChildren(a, r, isMatch, id, src, k, matched).result ==
            Decide(a[id].kind, id, a[id].children, ChildOutcomes(a, r, isMatch, id, src))
    decreases r.rank[id], 0, |a[id].children| - k, 1
  {
    var children, kind := a[id].children, a[id].kind;
    var rs := ChildOutcomes(a, r, isMatch, id, src);
    if k == |children| {
      DecideAtEnd(kind, id, children, rs, matched);
    } else {
      var c := children[k];
      var child := Update(a, r, isMatch, c, src);
      UpdateYieldsEval(a, r, isMatch, c, src);
      assert child.result == rs[k];
      if rs[k].Err? {
        DecideAtError(kind, id, children, rs, k, matched);
      } else if rs[k].value && kind.Exclusive? && matched.Some? {
        DecideAtSecondMatch(id, children, rs, k, matched);
      } else {
        var next := if rs[k].value then Some(c) else matched;
        ScanStateStep(kind, children, rs, k, matched);
        ScanOn(a, child.arena, r, isMatch, id, src, k, next);
      }
    }
  }

  /** The children loop resumes after child k on an arena whose counters alone differ. */
  lemma {:induction false} ScanOn<S>(a: Arena, b: Arena, r: Ranking, isMatch: (Id, S) -> bool, id: Id, src: S,
                                     k: nat, matched: Option<Id>)
    requires Ranked(a, r) && id in a && !a[id].kind.Leaf? && k < |a[id].children| && SameShape(a, b)
    requires ScanState(a[id].kind, a[id].children, ChildOutcomes(a, r, isMatch, id, src), k + 1, matched)
    ensures Ranked(b, r) && id in b && !b[id].kind.Leaf? && k + 1 <= |b[id].children|
    ensures UpdateChildren(b, r, isMatch, id, src, k + 1, matched).result ==
            Decide(a[id].kind, id, a[id].children, ChildOutcomes(a, r, isMatch, id, src))
    decreases r.rank[id], 0, |a[id].children| - k, 0
  {
    assert Shape(a[id]) == Shape(b[id]);
    ChildOutcomesIgnoreCounters(a, b, r, isMatch, id, src);
    UpdateChildrenYieldsDecide(b, r, isMatch, id, src, k + 1, matched);
  }

  lemma DecideAtEnd(kind: Kind, group: Id, children: seq<Id>, rs: seq<Outcome>, matched: Option<Id>)
    requires |rs| == |children| && ScanState(kind, children, rs, |rs|, matched)
    ensures Decide(kind, group, children, rs) == Ok(matched.Some?)
  {
    assert rs[..|rs|] == rs;
  }

  lemma DecideAtError(kind: Kind, group: Id, children: seq<Id>, rs: seq<Outcome>, k: nat, matched: Option<Id>)
    requires |rs| == |children| && k < |rs| && ScanState(kind, children, rs, k, matched)
    requires rs[k].Err?
    ensures Decide(kind, group, children, rs) == rs[k]
  {
    var e := FirstError(rs);
    assert e == k;
    MatchesOfPrefix(rs, k);
  }

  lemma DecideAtSecondMatch(group: Id, children: seq<Id>, rs: seq<Outcome>, k: nat, matched: Option<Id>)
    requires |rs| == |children| && k < |rs| && ScanState(Exclusive, children, rs, k, matched)
    requires rs[k] == Ok(true) && matched.Some?
    ensures Decide(Exclusive, group, children, rs) == Err(MultipleMatches(group, matched.value, children[k]))
  {
    var e := FirstError(rs);
    assert e > k;
    MatchesOfPrefix(rs, k + 1);
    MatchesStep(rs, k);
  }

  lemma ScanStateStep(kind: Kind, children: seq<Id>, rs: seq<Outcome>, k: nat, matched: Option<Id>)
    requires |rs| == |children| && k < |rs| && ScanState(kind, children, rs, k, matched)
    requires rs[k].Ok? && !(rs[k].value && kind.Exclusive? && matched.Some?)
    ensures ScanState(kind, children, rs, k + 1, if rs[k].value then Some(children[k]) else matched)
  {
    MatchesStep(rs, k);
  }

  /**
   * How many of a group's children its check updates, given their reference outcomes:
   * the loop stops after the first failing child and, in an exclusive group, after the
   * second matching one, whichever comes first.
   */
  function Reached(kind: Kind, rs: seq<Outcome>): (n: nat)
    ensures n <= |rs|
  {
    var e := FirstError(rs);
    var m := Matches(rs);
    if kind.Exclusive? && |m| >= 2 && m[1] < e then m[1] + 1
    else if e < |rs| then e + 1
    else |rs|
  }

  /**
   * Child k is updated exactly when every earlier child succeeded and, in an exclusive
   * group, at most one earlier child matched.
   */
  lemma ReachedIff(kind: Kind, rs: seq<Outcome>, k: nat)
    ensures k < Reached(kind, rs) <==>
      k < |rs| && (forall j :: 0 <= j < k ==> rs[j].Ok?) && (kind.Exclusive? ==> |Matches(rs[..k])| <= 1)
  {
    var e := FirstError(rs);
    var m := Matches(rs);
    if k <= |rs| {
      MatchesOfPrefix(rs, k);
      var mk := Matches(rs[..k]);
      if |mk| >= 2 {
        assert m[1] == mk[1] < k;
      }
      if |m| >= 2 && m[1] < k {
        assert |mk| >= 2;
      }
    }
  }

  /** The loop that has scanned k children goes on to child k, and stops after it when it fails or is a second exclusive match. */
  lemma ReachedAt(kind: Kind, children: seq<Id>, rs: seq<Outcome>, k: nat, matched: Option<Id>)
    requires |rs| == |children| && k < |rs| && ScanState(kind, children, rs, k, matched)
    ensures k < Reached(kind, rs)
    ensures rs[k].Err? || (rs[k] == Ok(true) && kind.Exclusive? && matched.Some?) ==> Reached(kind, rs) == k + 1
  {
    ReachedIff(kind, rs, k);
    ReachedIff(kind, rs, k + 1);
    MatchesStep(rs, k);
  }

  /**
   * The completion hooks a statistic's update runs, decided from the reference outcomes:
   * for a group, those of each child its check reaches, in collection order; then the
   * statistic's own completion, unless its check failed.
   */
  function RefLog<S>(a: Arena, r: Ranking, isMatch: (Id, S) -> bool, id: Id, src: S): seq<Completion>
    requires Ranked(a, r) && id in a
    decreases r.rank[id], 1
  {
    var out := Eval(a, r, isMatch, id, src);
    var reached := if a[id].kind.Leaf? then 0 else Reached(a[id].kind, ChildOutcomes(a, r, isMatch, id, src));
    ChildLogs(a, r, isMatch, id, src, 0, reached) + (if out.Ok? then [Completion(id, out.value)] else [])
  }

  /** The reference logs of children k to n - 1 of `id`, joined in collection order. */
  function ChildLogs<S>(a: Arena, r: Ranking, isMatch: (Id, S) -> bool, id: Id, src: S, k: nat, n: nat): seq<Completion>
    requires Ranked(a, r) && id in a && k <= n <= |a[id].children|
    decreases r.rank[id], 0, n - k
  {
    if k == n then []
    else RefLog(a, r, isMatch, a[id].children[k], src) + ChildLogs(a, r, isMatch, id, src, k + 1, n)
  }

  lemma {:induction false} RefLogIgnoresCounters<S>(a: Arena, b: Arena, r: Ranking, isMatch: (Id, S) -> bool, id: Id, src: S)
    requires Ranked(a, r) && SameShape(a, b) && id in a
    ensures Ranked(b, r)
    ensures RefLog(a, r, isMatch, id, src) == RefLog(b, r, isMatch, id, src)
    decreases r.rank[id], 1
  {
    RankedOfSameShape(a, b, r);
    EvalIgnoresCounters(a, b, r, isMatch, id, src);
    assert Shape(a[id]) == Shape(b[id]);
    if !a[id].kind.Leaf? {
      ChildOutcomesIgnoreCounters(a, b, r, isMatch, id, src);
      ChildLogsIgnoreCounters(a, b, r, isMatch, id, src, 0,
                              Reached(a[id].kind, ChildOutcomes(a, r, isMatch, id, src)));
    }
  }

  lemma {:induction false} ChildLogsIgnoreCounters<S>(a: Arena, b: Arena, r: Ranking, isMatch: (Id, S) -> bool,
                                                      id: Id, src: S, k: nat, n: nat)
    requires Ranked(a, r) && SameShape(a, b) && id in a && k <= n <= |a[id].children|
    ensures Ranked(b, r) && n <= |b[id].children|
    ensures ChildLogs(a, r, isMatch, id, src, k, n) == ChildLogs(b, r, isMatch, id, src, k, n)
    decreases r.rank[id], 0, n - k
  {
    RankedOfSameShape(a, b, r);
    assert Shape(a[id]) == Shape(b[id]);
    if k < n {
      RefLogIgnoresCounters(a, b, r, isMatch, a[id].children[k], src);
      ChildLogsIgnoreCounters(a, b, r, isMatch, id, src, k + 1, n);
    }
  }

  /**
   * Every counter grows by the number of reference completions that report an update of
   * its statistic: a matching leaf's counter goes up by one, and so does that of each
   * group whose check is true.
   */
  lemma UpdateCountsRefLog<S>(a: Arena, r: Ranking, isMatch: (Id, S) -> bool, id: Id, src: S)
    requires Ranked(a, r) && id in a
    ensures var u := Update(a, r, isMatch, id, src);
      forall x :: x in a ==> u.arena[x].counter == IncrementTimes32(a[x].counter, Increments(RefLog(a, r, isMatch, id, src), x))
  {
    var u := Update(a, r, isMatch, id, src);
    UpdateLogIsRefLog(a, r, isMatch, id, src);
    CountersFollowLog(a, u.arena, u.log);
  }

  /** The update runs exactly the reference completion hooks, in order. */
  lemma {:induction false} UpdateLogIsRefLog<S>(a: Arena, r: Ranking, isMatch: (Id, S) -> bool, id: Id, src: S)
    requires Ranked(a, r) && id in a
    ensures Update(a, r, isMatch, id, src).log == RefLog(a, r, isMatch, id, src)
    decreases r.rank[id], 1
  {
    var u := Update(a, r, isMatch, id, src);
    UpdateYieldsEval(a, r, isMatch, id, src);
    if !a[id].kind.Leaf? {
      var rs := ChildOutcomes(a, r, isMatch, id, src);
      assert rs[..0] == [];
      UpdateChildrenLog(a, r, isMatch, id, src, 0, None);
      var check := UpdateChildren(a, r, isMatch, id, src, 0, None);
      var out := Eval(a, r, isMatch, id, src);
      assert u.log == check.log + (if out.Ok? then [Completion(id, out.value)] else []);
    }
  }

  lemma CountersFollowLog(a: Arena, b: Arena, log: seq<Completion>)
    requires Accounted(a, b, log)
    ensures forall x :: x in a ==> b[x].counter == IncrementTimes32(a[x].counter, Increments(log, x))
  {
  }

  lemma {:induction false} UpdateChildrenLog<S>(a: Arena, r: Ranking, isMatch: (Id, S) -> bool, id: Id, src: S,
                                                k: nat, matched: Option<Id>)
    requires Ranked(a, r) && id in a && !a[id].kind.Leaf? && k <= |a[id].children|
    requires ScanState(a[id].kind, a[id].children, ChildOutcomes(a, r, isMatch, id, src), k, matched)
    ensures k <= Reached(a[id].kind, ChildOutcomes(a, r, isMatch, id, src))
    ensures UpdateChildren(a, r, isMatch, id, src, k, matched).log ==
            ChildLogs(a, r, isMatch, id, src, k, Reached(a[id].kind, ChildOutcomes(a, r, isMatch, id, src)))
    decreases r.rank[id], 0, |a[id].children| - k, 2
  {
    var rs := ChildOutcomes(a, r, isMatch, id, src);
    if k == |a[id].children| {
      assert rs[..|rs|] == rs;
    } else {
      ChildStepLog(a, r, isMatch, id, src, k, matched);
    }
  }

  /** The children loop at child k: that child's reference log, then the rest of the loop's. */
  lemma {:induction false} ChildStepLog<S>(a: Arena, r: Ranking, isMatch: (Id, S) -> bool, id: Id, src: S,
                                           k: nat, matched: Option<Id>)
    requires Ranked(a, r) && id in a && !a[id].kind.Leaf? && k < |a[id].children|
    requires ScanState(a[id].kind, a[id].children, ChildOutcomes(a, r, isMatch, id, src), k, matched)
    ensures k < Reached(a[id].kind, ChildOutcomes(a, r, isMatch, id, src))
    ensures UpdateChildren(a, r, isMatch, id, src, k, matched).log ==
            ChildLogs(a, r, isMatch, id, src, k, Reached(a[id].kind, ChildOutcomes(a, r, isMatch, id, src)))
    decreases r.rank[id], 0, |a[id].children| - k, 1
  {
    var children, kind := a[id].children, a[id].kind;
    var rs := ChildOutcomes(a, r, isMatch, id, src);
    var n := Reached(kind, rs);
    ReachedAt(kind, children, rs, k, matched);
    var c := children[k];
    var child := Update(a, r, isMatch, c, src);
    UpdateYieldsEval(a, r, isMatch, c, src);
    UpdateLogIsRefLog(a, r, isMatch, c, src);
    UpdateChildrenUnfold(a, r, isMatch, id, src, k, matched);
    assert ChildLogs(a, r, isMatch, id, src, k, n) ==
           RefLog(a, r, isMatch, c, src) + ChildLogs(a, r, isMatch, id, src, k + 1, n);
    if !(rs[k].Err? || (rs[k].value && kind.Exclusive? && matched.Some?)) {
      var next := if rs[k].value then Some(c) else matched;
      ScanStateStep(kind, children, rs, k, matched);
      LogOn(a, child.arena, r, isMatch, id, src, k, next);
    }
  }

  /** One round of the children loop, in terms of the update of child k. */
  lemma UpdateChildrenUnfold<S>(a: Arena, r: Ranking, isMatch: (Id, S) -> bool, id: Id, src: S,
                                k: nat, matched: Option<Id>)
    requires Ranked(a, r) && id in a && !a[id].kind.Leaf? && k < |a[id].children|
    ensures var c := a[id].children[k];
      var child := Update(a, r, isMatch, c, src);
      var u := UpdateChildren(a, r, isMatch, id, src, k, matched);
      && (child.result.Err? || (child.result.value && a[id].kind.Exclusive? && matched.Some?) ==> u.log == child.log)
      && (child.result.Ok? && !(child.result.value && a[id].kind.Exclusive? && matched.Some?) ==>
            && Ranked(child.arena, r) && id in child.arena && !child.arena[id].kind.Leaf?
            && k + 1 <= |child.arena[id].children|
            && u.log == child.log + UpdateChildren(child.arena, r, isMatch, id, src, k + 1,
                                                   if child.result.value then Some(c) else matched).log)
  {
    var child := Update(a, r, isMatch, a[id].children[k], src);
    assert Shape(a[id]) == Shape(child.arena[id]);
  }

  /** The children loop resumes after child k on an arena whose counters alone differ, with the same log. */
  lemma {:induction false} LogOn<S>(a: Arena, b: Arena, r: Ranking, isMatch: (Id, S) -> bool, id: Id, src: S,
                                    k: nat, matched: Option<Id>)
    requires Ranked(a, r) && id in a && !a[id].kind.Leaf? && k < |a[id].children| && SameShape(a, b)
    requires ScanState(a[id].kind, a[id].children, ChildOutcomes(a, r, isMatch, id, src), k + 1, matched)
    ensures Ranked(b, r) && id in b && !b[id].kind.Leaf? && k + 1 <= |b[id].children|
    ensures k + 1 <= Reached(a[id].kind, ChildOutcomes(a, r, isMatch, id, src))
    ensures UpdateChildren(b, r, isMatch, id, src, k + 1, matched).log ==
            ChildLogs(a, r, isMatch, id, src, k + 1, Reached(a[id].kind, ChildOutcomes(a, r, isMatch, id, src)))
    decreases r.rank[id], 0, |a[id].children| - k, 0
  {
    assert Shape(a[id]) == Shape(b[id]);
    ChildOutcomesIgnoreCounters(a, b, r, isMatch, id, src);
    UpdateChildrenLog(b, r, isMatch, id, src, k + 1, matched);
    ChildLogsIgnoreCounters(a, b, r, isMatch, id, src, k + 1,
                            Reached(a[id].kind, ChildOutcomes(a, r, isMatch, id, src)));
  }

  /** `TestStatistics`: a named collection of top-level statistics and the number of rounds started. */
  datatype Registry = Registry(name: string, counter: Int32, statistics: seq<Id>)

  function NewRegistry(name: string, statistics: seq<Id>): (g: Registry)
    ensures g.name == name && g.counter == 0 && g.statistics == statistics
  {
    Registry(name, 0, statistics)
  }

  /**
   * The effect of updating statistics in order: the arena afterwards, how many
   * statistics were updated before one failed, the failure and the completion hooks run.
   */
  datatype Sweep = Sweep(arena: Arena, done: nat, error: Option<UpdateError>, log: seq<Completion>)

  /** The reference outcomes of a sequence of statistics. */
  function Outcomes<S>(a: Arena, r: Ranking, isMatch: (Id, S) -> bool, ids: seq<Id>, src: S): (rs: seq<Outcome>)
    requires Ranked(a, r) && forall id :: id in ids ==> id in a
    ensures |rs| == |ids|
  {
    seq(|ids|, k requires 0 <= k < |ids| => Eval(a, r, isMatch, ids[k], src))
  }

  /** Updates each statistic in order and stops at the first whose update fails. */
  function UpdateEach<S>(a: Arena, r: Ranking, isMatch: (Id, S) -> bool, ids: seq<Id>, src: S): (o: Sweep)
    requires Ranked(a, r) && forall id :: id in ids ==> id in a
    ensures SameShape(a, o.arena) && Ranked(o.arena, r) && Accounted(a, o.arena, o.log)
    ensures o.done <= |ids| && (o.error.None? <==> o.done == |ids|)
    decreases |ids|
  {
    if ids == [] then
      assert Accounted(a, a, []);
      Sweep(a, 0, None, [])
    else
      var first := Update(a, r, isMatch, ids[0], src);
      if first.result.Err? then Sweep(first.arena, 0, Some(first.result.error), first.log)
      else
        var rest := UpdateEach(first.arena, r, isMatch, ids[1..], src);
        SameShapeTransitive(a, first.arena, rest.arena);
        AccountedCompose(a, first.arena, rest.arena, first.log, rest.log);
        Sweep(rest.arena, rest.done + 1, rest.error, first.log + rest.log)
  }

  /**
   * The sweep stops at the first statistic whose reference outcome, evaluated on the
   * arena before the sweep, is a failure, and fails with that failure.
   */
  lemma {:induction false} UpdateEachStopsAtFirstFailure<S>(a: Arena, r: Ranking, isMatch: (Id, S) -> bool, ids: seq<Id>, src: S)
    requires Ranked(a, r) && forall id :: id in ids ==> id in a
    ensures var o := UpdateEach(a, r, isMatch, ids, src);
      var rs := Outcomes(a, r, isMatch, ids, src);
      o.done == FirstError(rs) && (o.error.Some? ==> rs[o.done] == Err(o.error.value))
    decreases |ids|
  {
    if ids != [] {
      var first := Update(a, r, isMatch, ids[0], src);
      UpdateYieldsEval(a, r, isMatch, ids[0], src);
      OutcomesOfTail(a, r, isMatch, ids, src);
      if first.result.Ok? {
        var rest := UpdateEach(first.arena, r, isMatch, ids[1..], src);
        UpdateEachStopsAtFirstFailure(first.arena, r, isMatch, ids[1..], src);
        OutcomesIgnoreCounters(a, first.arena, r, isMatch, ids[1..], src);
        StopAfterSuccess(Outcomes(a, r, isMatch, ids, src), Outcomes(first.arena, r, isMatch, ids[1..], src),
                         rest.done, rest.error);
      }
    }
  }

  /** After a successful first outcome, the first failure is one further on than in the rest. */
  lemma StopAfterSuccess(rs: seq<Outcome>, tail: seq<Outcome>, restDone: nat, restError: Option<UpdateError>)
    requires rs != [] && rs[0].Ok? && tail == rs[1..]
    requires restDone == FirstError(tail) && (restError.Some? ==> restDone < |tail| && tail[restDone] == Err(restError.value))
    ensures restDone + 1 == FirstError(rs) && (restError.Some? ==> rs[restDone + 1] == Err(restError.value))
  {
  }

  lemma OutcomesOfTail<S>(a: Arena, r: Ranking, isMatch: (Id, S) -> bool, ids: seq<Id>, src: S)
    requires Ranked(a, r) && ids != [] && forall id :: id in ids ==> id in a
    ensures Outcomes(a, r, isMatch, ids[1..], src) == Outcomes(a, r, isMatch, ids, src)[1..]
  {
  }

  lemma OutcomesIgnoreCounters<S>(a: Arena, b: Arena, r: Ranking, isMatch: (Id, S) -> bool, ids: seq<Id>, src: S)
    requires Ranked(a, r) && SameShape(a, b) && forall id :: id in ids ==> id in a
    ensures Ranked(b, r)
    ensures Outcomes(a, r, isMatch, ids, src) == Outcomes(b, r, isMatch, ids, src)
  {
    RankedOfSameShape(a, b, r);
    forall k | 0 <= k < |ids|
      ensures Eval(a, r, isMatch, ids[k], src) == Eval(b, r, isMatch, ids[k], src)
    {
      EvalIgnoresCounters(a, b, r, isMatch, ids[k], src);
    }
  }

  /** The reference logs of `ids`, joined in order. */
  function SweepLog<S>(a: Arena, r: Ranking, isMatch: (Id, S) -> bool, ids: seq<Id>, src: S): seq<Completion>
    requires Ranked(a, r) && forall id :: id in ids ==> id in a
    decreases |ids|
  {
    if ids == [] then [] else RefLog(a, r, isMatch, ids[0], src) + SweepLog(a, r, isMatch, ids[1..], src)
  }

  lemma {:induction false} SweepLogIgnoresCounters<S>(a: Arena, b: Arena, r: Ranking, isMatch: (Id, S) -> bool, ids: seq<Id>, src: S)
    requires Ranked(a, r) && SameShape(a, b) && forall id :: id in ids ==> id in a
    ensures Ranked(b, r)
    ensures SweepLog(a, r, isMatch, ids, src) == SweepLog(b, r, isMatch, ids, src)
    decreases |ids|
  {
    RankedOfSameShape(a, b, r);
    if ids != [] {
      RefLogIgnoresCounters(a, b, r, isMatch, ids[0], src);
      SweepLogIgnoresCounters(a, b, r, isMatch, ids[1..], src);
    }
  }

  /**
   * A sweep runs the reference completion hooks of the statistics it reaches, in order:
   * it reaches them exactly as a non-exclusive group reaches its children, up to and
   * including the first that fails.
   */
  lemma {:induction false} UpdateEachLogIsSweepLog<S>(a: Arena, r: Ranking, isMatch: (Id, S) -> bool, ids: seq<Id>, src: S)
    requires Ranked(a, r) && forall id :: id in ids ==> id in a
    ensures var n := Reached(NonExclusive, Outcomes(a, r, isMatch, ids, src));
      UpdateEach(a, r, isMatch, ids, src).log == SweepLog(a, r, isMatch, ids[..n], src)
    decreases |ids|
  {
    var rs := Outcomes(a, r, isMatch, ids, src);
    var n := Reached(NonExclusive, rs);
    if ids == [] {
      assert ids[..n] == [];
    } else {
      var first := Update(a, r, isMatch, ids[0], src);
      UpdateYieldsEval(a, r, isMatch, ids[0], src);
      UpdateLogIsRefLog(a, r, isMatch, ids[0], src);
      assert rs[0] == first.result;
      if first.result.Err? {
        assert n == 1;
        assert ids[..n] == [ids[0]];
        assert SweepLog(a, r, isMatch, ids[..n], src) == RefLog(a, r, isMatch, ids[0], src) + SweepLog(a, r, isMatch, [], src);
      } else {
        var tail := ids[1..];
        OutcomesOfTail(a, r, isMatch, ids, src);
        OutcomesIgnoreCounters(a, first.arena, r, isMatch, tail, src);
        UpdateEachLogIsSweepLog(first.arena, r, isMatch, tail, src);
        var m := Reached(NonExclusive, rs[1..]);
        ReachedAfterSuccess(rs);
        TakeThenDrop(ids, m);
        SweepLogIgnoresCounters(a, first.arena, r, isMatch, tail[..m], src);
      }
    }
  }

  lemma ReachedAfterSuccess(rs: seq<Outcome>)
    requires rs != [] && rs[0].Ok?
    ensures Reached(NonExclusive, rs) == Reached(NonExclusive, rs[1..]) + 1
  {
    assert FirstError(rs) == FirstError(rs[1..]) + 1;
  }

  lemma TakeThenDrop<T>(s: seq<T>, m: nat)
    requires m < |s|
    ensures s[..m + 1][1..] == s[1..][..m]
  {
  }

  /** Every counter grows by the number of reference completions of the reached statistics that report it updated. */
  lemma UpdateEachCountsSweepLog<S>(a: Arena, r: Ranking, isMatch: (Id, S) -> bool, ids: seq<Id>, src: S)
    requires Ranked(a, r) && forall id :: id in ids ==> id in a
    ensures var o := UpdateEach(a, r, isMatch, ids, src);
      var log := SweepLog(a, r, isMatch, ids[..Reached(NonExclusive, Outcomes(a, r, isMatch, ids, src))], src);
      forall x :: x in a ==> o.arena[x].counter == IncrementTimes32(a[x].counter, Increments(log, x))
  {
    var o := UpdateEach(a, r, isMatch, ids, src);
    UpdateEachLogIsSweepLog(a, r, isMatch, ids, src);
    CountersFollowLog(a, o.arena, o.log);
  }

  datatype Round = Round(registry: Registry, sweep: Sweep)

  /**
   * `UpdateStatistics`: the round counter goes up first, then each top-level statistic is
   * updated in order; a failing statistic ends the round with the counter already raised.
   */
  function UpdateStatistics<S>(g: Registry, a: Arena, r: Ranking, isMatch: (Id, S) -> bool, src: S): (o: Round)
    requires Ranked(a, r) && forall id :: id in g.statistics ==> id in a
    ensures o.registry == g.(counter := Increment32(g.counter))
    ensures SameShape(a, o.sweep.arena) && Accounted(a, o.sweep.arena, o.sweep.log)
    ensures o.sweep.done <= |g.statistics| && (o.sweep.error.None? <==> o.sweep.done == |g.statistics|)
    ensures var rs := Outcomes(a, r, isMatch, g.statistics, src);
      o.sweep.done == FirstError(rs) && (o.sweep.error.Some? ==> rs[o.sweep.done] == Err(o.sweep.error.value))
    ensures var rs := Outcomes(a, r, isMatch, g.statistics, src);
      o.sweep.log == SweepLog(a, r, isMatch, g.statistics[..Reached(NonExclusive, rs)], src)
  {
    UpdateEachStopsAtFirstFailure(a, r, isMatch, g.statistics, src);
    UpdateEachLogIsSweepLog(a, r, isMatch, g.statistics, src);
    Round(g.(counter := Increment32(g.counter)), UpdateEach(a, r, isMatch, g.statistics, src))
  }
}

=== FILE: statistic_visitor.dfy ===
/**
 * `ProcessTestStatistics`: a depth-first, pre-order walk over the statistics of a
 * collection that calls a visitor on every statistic until the visitor asks to stop.
 *
 * The visitor is a callback that may keep state of its own, so its decision to stop is
 * modelled as a function of all the statistics it has been called with so far, the last
 * one included.
 */
module StatisticVisitor {
  import opened StatisticsTree

  /** The statistics of the trees rooted at `id`, each before its children, children in order. */
  function Subtree(a: Arena, r: Ranking, id: Id): seq<Id>
    requires Ranked(a, r) && id in a
    decreases r.rank[id] + 1, 0
  {
    [id] + Forest(a, r, a[id].children, r.rank[id])
  }

  /** The pre-order sequences of the trees rooted at `ids`, one after another. */
  function Forest(a: Arena, r: Ranking, ids: seq<Id>, bound: nat): seq<Id>
    requires Ranked(a, r) && forall k :: 0 <= k < |ids| ==> ids[k] in a && r.rank[ids[k]] < bound
    decreases bound, |ids|
  {
    if ids == [] then [] else Subtree(a, r, ids[0]) + Forest(a, r, ids[1..], bound)
  }

  /** The statistics the visitor was called with, in order, and whether it asked to stop. */
  datatype Visited = Visited(history: seq<Id>, stopped: bool)

  /**
   * The walk from one statistic: the visitor is called on it and, unless it asks to stop,
   * the walk goes on into each child in order, ending as soon as a visit below asks to stop.
   */
  function Visit(a: Arena, r: Ranking, stop: seq<Id> -> bool, history: seq<Id>, id: Id): Visited
    requires Ranked(a, r) && id in a
    decreases r.rank[id] + 1, 0
  {
    var h := history + [id];
    if stop(h) then Visited(h, true)
    else VisitAll(a, r, stop, h, a[id].children, r.rank[id])
  }

  function VisitAll(a: Arena, r: Ranking, stop: seq<Id> -> bool, history: seq<Id>, ids: seq<Id>, bound: nat): Visited
    requires Ranked(a, r) && forall k :: 0 <= k < |ids| ==> ids[k] in a && r.rank[ids[k]] < bound
    decreases bound, |ids|
  {
    if ids == [] then Visited(history, false)
    else
      var v := Visit(a, r, stop, history, ids[0]);
      if v.stopped then v else VisitAll(a, r, stop, v.history, ids[1..], bound)
  }

  /** `ProcessTestStatistics` over the top-level statistics of a collection. */
  function ProcessStatistics(a: Arena, r: Ranking, stop: seq<Id> -> bool, roots: seq<Id>): seq<Id>
    requires Ranked(a, r) && forall k :: 0 <= k < |roots| ==> roots[k] in a
  {
    VisitAll(a, r, stop, [], roots, r.top).history
  }

  /**
   * What a walk that starts after `history` and covers the pre-order `order` leaves
   * behind: the history grows by a prefix of `order`; no visit before the last asked to
   * stop; and the walk either asked to stop on its last visit or covered all of `order`.
   */
  predicate WalkOf(stop: seq<Id> -> bool, history: seq<Id>, order: seq<Id>, v: Visited) {
    && |history| <= |v.history| <= |history| + |order|
    && v.history == history + order[..|v.history| - |history|]
    && (forall j :: |history| < j <= |v.history| && (j < |v.history| || !v.stopped) ==> !stop(v.history[..j]))
    && (v.stopped ==> |v.history| > |history| && stop(v.history))
    && (!v.stopped ==> |v.history| == |history| + |order|)
  }

  /** The walk visits the statistics in pre-order and ends exactly at the first visit that asks to stop. */
  lemma {:induction false} VisitWalksSubtree(a: Arena, r: Ranking, stop: seq<Id> -> bool, history: seq<Id>, id: Id)
    requires Ranked(a, r) && id in a
    ensures WalkOf(stop, history, Subtree(a, r, id), Visit(a, r, stop, history, id))
    decreases r.rank[id] + 1, 0
  {
    var h := history + [id];
    var order := Subtree(a, r, id);
    var v := Visit(a, r, stop, history, id);
    if stop(h) {
      assert order[..1] == [id];
    } else {
      var rest := Forest(a, r, a[id].children, r.rank[id]);
      VisitAllWalksForest(a, r, stop, h, a[id].children, r.rank[id]);
      var n := |v.history| - |h|;
      assert v.history == h + rest[..n];
      assert order[..n + 1] == [id] + rest[..n];
      ConcatAssociative(history, [id], rest[..n]);
      forall j | |history| < j <= |v.history| && (j < |v.history| || !v.stopped)
        ensures !stop(v.history[..j])
      {
        if j == |h| {
          assert v.history[..j] == h;
        }
      }
    }
  }

  lemma {:induction false} VisitAllWalksForest(a: Arena, r: Ranking, stop: seq<Id> -> bool, history: seq<Id>,
                                               ids: seq<Id>, bound: nat)
    requires Ranked(a, r) && forall k :: 0 <= k < |ids| ==> ids[k] in a && r.rank[ids[k]] < bound
    ensures WalkOf(stop, history, Forest(a, r, ids, bound), VisitAll(a, r, stop, history, ids, bound))
    decreases bound, |ids|
  {
    var order := Forest(a, r, ids, bound);
    var v := VisitAll(a, r, stop, history, ids, bound);
    if ids == [] {
      assert history + order[..0] == history;
    } else {
      var first := Visit(a, r, stop, history, ids[0]);
      var sub := Subtree(a, r, ids[0]);
      var later := Forest(a, r, ids[1..], bound);
      VisitWalksSubtree(a, r, stop, history, ids[0]);
      if first.stopped {
        var n := |first.history| - |history|;
        assert order[..n] == sub[..n];
      } else {
        VisitAllWalksForest(a, r, stop, first.history, ids[1..], bound);
        assert first.history == history + sub by {
          assert sub[..|sub|] == sub;
        }
        var n := |v.history| - |first.history|;
        assert order[..|sub| + n] == sub + later[..n];
        ConcatAssociative(history, sub, later[..n]);
        forall j | |history| < j <= |v.history| && (j < |v.history| || !v.stopped)
          ensures !stop(v.history[..j])
        {
          if j <= |first.history| {
            assert v.history[..j] == first.history[..j];
          }
        }
      }
    }
  }

  /**
   * `ProcessTestStatistics` calls the visitor on the statistics in pre-order, tree after
   * tree, and stops right after the first call that asks to stop; a visitor that never
   * asks sees every statistic.
   */
  lemma ProcessVisitsInPreOrder(a: Arena, r: Ranking, stop: seq<Id> -> bool, roots: seq<Id>)
    requires Ranked(a, r) && forall k :: 0 <= k < |roots| ==> roots[k] in a
    ensures var order, seen := Forest(a, r, roots, r.top), ProcessStatistics(a, r, stop, roots);
      && seen <= order
      && (forall j :: 0 < j < |seen| ==> !stop(seen[..j]))
      && (seen == order || stop(seen))
  {
    VisitAllWalksForest(a, r, stop, [], roots, r.top);
    var v := VisitAll(a, r, stop, [], roots, r.top);
    assert [] + v.history == v.history;
  }
}

=== FILE: statistics_tree.dfy ===
/**
 * The test-statistics tree. Statistics are objects with identity that point at each
 * other, so they are modelled as an arena: a map from identifiers to statistic records.
 * A statistic is a leaf (`TestStatistic`) or a group (`ExclusiveTestStatisticGroup`,
 * `NonExclusiveTestStatisticGroup`) whose children are other statistics; every
 * statistic has a counter and a parent that can be assigned only once.
 */
module StatisticsTree {
  import opened Base

  type Id = nat

  datatype Kind = Leaf | Exclusive | NonExclusive

  datatype Statistic = Statistic(name: string, kind: Kind, counter: Int32, parent: Option<Id>, children: seq<Id>)

  type Arena = map<Id, Statistic>

  /**
   * A witness that the links of an arena have no cycle: every child ranks below its
   * group and every parent above its child, and all ranks are below `top`.
   */
  datatype Ranking = Ranking(rank: map<Id, nat>, top: nat)

  predicate Ranked(a: Arena, r: Ranking) {
    && (forall id :: id in a ==> id in r.rank && r.rank[id] < r.top)
    && (forall id, k :: id in a && 0 <= k < |a[id].children| ==>
          a[id].children[k] in a && r.rank[a[id].children[k]] < r.rank[id])
    && (forall id :: id in a && a[id].parent.Some? ==>
          a[id].parent.value in a && r.rank[id] < r.rank[a[id].parent.value])
  }

  /** Everything but the statistic's counter. */
  function Shape(s: Statistic): Statistic {
    s.(counter := 0)
  }

  /** Two arenas that hold the same statistics with the same links, whatever their counters. */
  predicate SameShape(a: Arena, b: Arena) {
    a.Keys == b.Keys && forall id :: id in a ==> Shape(a[id]) == Shape(b[id])
  }

  lemma RankedOfSameShape(a: Arena, b: Arena, r: Ranking)
    requires Ranked(a, r) && SameShape(a, b)
    ensures Ranked(b, r)
  {
    forall id | id in b
      ensures b[id].children == a[id].children && b[id].parent == a[id].parent
    {
      assert Shape(a[id]) == Shape(b[id]);
    }
  }

  datatype StructureError = ParentAlreadySet

  /** A new statistic has a zero counter, no parent and no children. */
  function NewStatistic(a: Arena, id: Id, name: string, kind: Kind): (b: Arena)
    requires id !in a
    ensures b.Keys == a.Keys + {id}
    ensures b[id].name == name && b[id].kind == kind && b[id].counter == 0
    ensures b[id].parent.None? && b[id].children == []
    ensures forall x :: x in a ==> b[x] == a[x]
  {
    a[id := Statistic(name, kind, 0, None, [])]
  }

  /**
   * The `ParentStatisticGroup` setter: assigning while a parent is set fails and keeps the
   * old parent; otherwise the new value, possibly none, is stored.
   */
  function SetParent(a: Arena, id: Id, parent: Option<Id>): (r: Result<Arena, StructureError>)
    requires id in a
    ensures a[id].parent.Some? <==> r.Err?
    ensures r.Err? ==> r.error == ParentAlreadySet
    ensures r.Ok? ==> r.value.Keys == a.Keys && r.value[id].parent == parent
    ensures r.Ok? ==> Shape(r.value[id]).(parent := None) == Shape(a[id]) && r.value[id].counter == a[id].counter
    ensures r.Ok? ==> forall x :: x in a && x != id ==> r.value[x] == a[x]
  {
    if a[id].parent.Some? then Err(ParentAlreadySet)
    else Ok(a[id := a[id].(parent := parent)])
  }

  /** No statistic appears or disappears, and only parents and children lists change, the lists only by growing. */
  predicate OnlyAddsChildren(a: Arena, b: Arena) {
    && a.Keys == b.Keys
    && forall x :: x in a ==>
         && b[x].name == a[x].name && b[x].kind == a[x].kind && b[x].counter == a[x].counter
         && a[x].children <= b[x].children
  }

  lemma OnlyAddsChildrenTransitive(a: Arena, b: Arena, c: Arena)
    requires OnlyAddsChildren(a, b) && OnlyAddsChildren(b, c)
    ensures OnlyAddsChildren(a, c)
  {
    forall x | x in a
      ensures a[x].children <= c[x].children
    {
      var n := |a[x].children|;
      assert a[x].children == b[x].children[..n] == c[x].children[..|b[x].children|][..n];
    }
  }

  /**
   * `AddChildStatistic` of group `g`: a child the group's filter rejects is ignored;
   * otherwise its parent is set to the group, which fails when it already has one, and
   * it is appended to the group's children.
   */
  function AddChild(a: Arena, g: Id, c: Id, filteredOut: Id -> bool): (r: Result<Arena, StructureError>)
    requires g in a && c in a && !a[g].kind.Leaf?
    ensures filteredOut(c) ==> r == Ok(a)
    ensures !filteredOut(c) ==> (r.Err? <==> a[c].parent.Some?)
    ensures r.Err? ==> r.error == ParentAlreadySet
    ensures r.Ok? ==> OnlyAddsChildren(a, r.value)
    ensures r.Ok? && !filteredOut(c) ==>
      && r.value[c].parent == Some(g)
      && r.value[g].children == a[g].children + [c]
      && (c != g ==> r.value[g].parent == a[g].parent && r.value[c].children == a[c].children)
      && (forall x :: x in a && x != c && x != g ==> r.value[x] == a[x])
  {
    if filteredOut(c) then Ok(a)
    else
      var withParent := SetParent(a, c, Some(g));
      if withParent.Err? then Err(withParent.error)
      else
        var b := withParent.value;
        Ok(b[g := b[g].(children := b[g].children + [c])])
  }

  /** An added child keeps the arena free of cycles when it ranks below the group. */
  lemma AddChildKeepsRanked(a: Arena, r: Ranking, g: Id, c: Id, filteredOut: Id -> bool)
    requires Ranked(a, r) && g in a && c in a && !a[g].kind.Leaf?
    requires r.rank[c] < r.rank[g]
    ensures var b := AddChild(a, g, c, filteredOut); b.Ok? ==> Ranked(b.value, r)
  {
    var b := AddChild(a, g, c, filteredOut);
    if b.Ok? && !filteredOut(c) {
      var m := b.value;
      forall id, k | id in m && 0 <= k < |m[id].children|
        ensures m[id].children[k] in m && r.rank[m[id].children[k]] < r.rank[id]
      {
        if id == g && k == |a[g].children| {
          assert m[id].children[k] == c;
        } else {
          assert m[id].children[k] == a[id].children[k];
        }
      }
    }
  }

  /** The statistics the filter lets through, in input order. */
  function Accepted(cs: seq<Id>, filteredOut: Id -> bool): (accepted: seq<Id>)
    ensures |accepted| <= |cs|
    ensures forall x :: x in accepted <==> x in cs && !filteredOut(x)
  {
    if cs == [] then [] else (if filteredOut(cs[0]) then [] else [cs[0]]) + Accepted(cs[1..], filteredOut)
  }

  lemma ConcatAssociative(x: seq<Id>, y: seq<Id>, z: seq<Id>)
    ensures (x + y) + z == x + (y + z)
  {
  }

  lemma AcceptedOfTail(cs: seq<Id>, n: nat, filteredOut: Id -> bool)
    requires n < |cs|
    ensures Accepted(cs[..n + 1], filteredOut) == (if filteredOut(cs[0]) then [] else [cs[0]]) + Accepted(cs[1..][..n], filteredOut)
  {
    assert cs[..n + 1][1..] == cs[1..][..n];
  }

  /**
   * The result of `AddChildStatistics`: the arena after the last attempted addition, the
   * number of elements added (or filtered out) before a failure, and the failure, if any.
   */
  datatype Additions = Additions(arena: Arena, done: nat, error: Option<StructureError>)

  /**
   * `AddChildStatistics`: `AddChildStatistic` on each element in order. Elements before a
   * failing one stay added; the failing element is the first unfiltered one that already
   * has a parent.
   */
  function AddChildren(a: Arena, g: Id, cs: seq<Id>, filteredOut: Id -> bool): (o: Additions)
    requires g in a && !a[g].kind.Leaf? && forall k :: 0 <= k < |cs| ==> cs[k] in a
    ensures cs == [] ==> o == Additions(a, 0, None)
    ensures OnlyAddsChildren(a, o.arena)
    ensures o.done <= |cs| && (o.error.None? <==> o.done == |cs|)
    ensures o.arena[g].children == a[g].children + Accepted(cs[..o.done], filteredOut)
    ensures o.error.Some? ==> !filteredOut(cs[o.done]) && o.arena[cs[o.done]].parent.Some?
    decreases |cs|
  {
    assert cs[..0] == [] && a[g].children + [] == a[g].children;
    if cs == [] then Additions(a, 0, None)
    else
      var first := AddChild(a, g, cs[0], filteredOut);
      if first.Err? then Additions(a, 0, Some(first.error))
      else
        var rest := AddChildren(first.value, g, cs[1..], filteredOut);
        AcceptedOfTail(cs, rest.done, filteredOut);
        OnlyAddsChildrenTransitive(a, first.value, rest.arena);
        var head := if filteredOut(cs[0]) then [] else [cs[0]];
        var before, tail := a[g].children, Accepted(cs[1..][..rest.done], filteredOut);
        assert first.value[g].children == before + head;
        ConcatAssociative(before, head, tail);
        assert rest.error.Some? ==> cs[1..][rest.done] == cs[rest.done + 1];
        Additions(rest.arena, rest.done + 1, rest.error)
  }


  /**
   * What `AddChildStatistics` does to parents: every accepted child before the stopping
   * point now has the group as its parent, the group's own parent changes only when it
   * was added to itself, and every other statistic is untouched.
   */
  lemma {:induction false} AddChildrenSetsParents(a: Arena, g: Id, cs: seq<Id>, filteredOut: Id -> bool)
    requires g in a && !a[g].kind.Leaf? && forall k :: 0 <= k < |cs| ==> cs[k] in a
    ensures var o := AddChildren(a, g, cs, filteredOut);
      var added := Accepted(cs[..o.done], filteredOut);
      && (forall x :: x in added ==> o.arena[x].parent == Some(g))
      && o.arena[g].parent == (if g in added then Some(g) else a[g].parent)
      && (forall x :: x in a && x != g && x !in added ==> o.arena[x] == a[x])
    decreases |cs|
  {
    var o := AddChildren(a, g, cs, filteredOut);
    if cs != [] {
      var first := AddChild(a, g, cs[0], filteredOut);
      if first.Err? {
        assert cs[..0] == [];
      } else {
        var b := first.value;
        AddChildrenSetsParents(b, g, cs[1..], filteredOut);
        var rest := AddChildren(b, g, cs[1..], filteredOut);
        assert o == Additions(rest.arena, rest.done + 1, rest.error);
        AcceptedOfTail(cs, rest.done, filteredOut);
        var head := if filteredOut(cs[0]) then [] else [cs[0]];
        var tail := Accepted(cs[1..][..rest.done], filteredOut);
        assert Accepted(cs[..o.done], filteredOut) == head + tail;
        ParentsCompose(a, b, rest.arena, g, head, tail);
      }
    }
  }

  /** One accepted (or filtered) child followed by the rest: the parent facts of both parts combine. */
  lemma ParentsCompose(a: Arena, b: Arena, c: Arena, g: Id, head: seq<Id>, tail: seq<Id>)
    requires a.Keys == b.Keys == c.Keys && g in a && |head| <= 1 && forall x :: x in tail ==> x in a
    requires head == [] ==> b == a
    requires head != [] ==>
      && head[0] in a && b[head[0]].parent == Some(g)
      && (head[0] != g ==> b[g].parent == a[g].parent)
      && forall x :: x in a && x != head[0] && x != g ==> b[x] == a[x]
    requires forall x :: x in tail ==> c[x].parent == Some(g)
    requires c[g].parent == (if g in tail then Some(g) else b[g].parent)
    requires forall x :: x in b && x != g && x !in tail ==> c[x] == b[x]
    ensures forall x :: x in head + tail ==> c[x].parent == Some(g)
    ensures c[g].parent == (if g in head + tail then Some(g) else a[g].parent)
    ensures forall x :: x in a && x != g && x !in head + tail ==> c[x] == a[x]
  {
  }

}

=== FILE: text.dfy ===
/** The .NET string helpers the generators rely on: white-space tests and trimming. */
module Text {
  import opened Base

  /**
   * `char.IsWhiteSpace`: the Unicode space, line and paragraph separators, the
   * control characters U+0009 to U+000D, and U+0085.
   */
  predicate IsWhiteSpace(c: char) {
    || ('\U{0009}' <= c <= '\U{000D}')
    || c == '\U{0020}' || c == '\U{0085}' || c == '\U{00A0}' || c == '\U{1680}'
    || ('\U{2000}' <= c <= '\U{200A}')
    || c == '\U{2028}' || c == '\U{2029}' || c == '\U{202F}' || c == '\U{205F}' || c == '\U{3000}'
  }

  predicate AllWhiteSpace(s: string) {
    forall i :: 0 <= i < |s| ==> IsWhiteSpace(s[i])
  }

  /** `string.IsNullOrWhiteSpace`, with `None` standing for null. */
  predicate IsNullOrWhiteSpace(s: Option<string>) {
    s.None? || AllWhiteSpace(s.value)
  }

  /** Drops the white space at the front: the result is a suffix whose dropped part is all white space. */
  function TrimStart(s: string): (r: string)
    ensures |r| <= |s| && r == s[|s| - |r|..]
    ensures AllWhiteSpace(s[..|s| - |r|])
    ensures r == [] || !IsWhiteSpace(r[0])
  {
    if s != [] && IsWhiteSpace(s[0]) then
      var r := TrimStart(s[1..]);
      assert AllWhiteSpace(s[..|s| - |r|]) by {
        forall i | 0 < i < |s| - |r| ensures IsWhiteSpace(s[i]) {
          assert s[1..][..|s| - 1 - |r|][i - 1] == s[i];
        }
      }
      r
    else s
  }

  /** Drops the white space at the back: the result is a prefix whose dropped part is all white space. */
  function TrimEnd(s: string): (r: string)
    ensures |r| <= |s| && r == s[..|r|]
    ensures AllWhiteSpace(s[|r|..])
    ensures r == [] || !IsWhiteSpace(r[|r| - 1])
  {
    if s != [] && IsWhiteSpace(s[|s| - 1]) then
      var r := TrimEnd(s[..|s| - 1]);
      assert AllWhiteSpace(s[|r|..]) by {
        forall i | |r| <= i < |s| - 1 ensures IsWhiteSpace(s[i]) {
          assert s[..|s| - 1][|r|..][i - |r|] == s[i];
        }
      }
      r
    else s
  }

  /**
   * `string.Trim`: the result is the middle of the text, with only white space cut off
   * either end; both its ends are not white space, and it is empty exactly for blank text.
   */
  function Trim(s: string): (r: string)
    ensures exists i, j :: 0 <= i <= j <= |s| && r == s[i..j] && AllWhiteSpace(s[..i]) && AllWhiteSpace(s[j..])
    ensures r == [] || (!IsWhiteSpace(r[0]) && !IsWhiteSpace(r[|r| - 1]))
    ensures r == [] <==> AllWhiteSpace(s)
  {
    var front := TrimStart(s);
    var r := TrimEnd(front);
    TrimmedEmptyIffBlank(s, front, r);
    MiddleOfParts(s, front, r);
    r
  }

  lemma MiddleOfParts(s: string, front: string, r: string)
    requires |front| <= |s| && front == s[|s| - |front|..] && AllWhiteSpace(s[..|s| - |front|])
    requires |r| <= |front| && r == front[..|r|] && AllWhiteSpace(front[|r|..])
    ensures exists i, j :: 0 <= i <= j <= |s| && r == s[i..j] && AllWhiteSpace(s[..i]) && AllWhiteSpace(s[j..])
  {
    var i := |s| - |front|;
    var j := i + |r|;
    assert s[i..j] == r;
    assert s[j..] == front[|r|..];
  }

  lemma TrimmedEmptyIffBlank(s: string, front: string, r: string)
    requires front == TrimStart(s) && r == TrimEnd(front)
    ensures r == [] <==> AllWhiteSpace(s)
    ensures r != [] ==> r[0] == front[0]
  {
    var cut := |s| - |front|;
    assert front != [] ==> front[0] == s[cut];
    assert front == [] ==> s[..cut] == s;
  }
}

=== FILE: validation_frame.dfy ===
/**
 * `ObjectEqualityValidationData`: one frame of the equality validator's stack. A frame
 * holds an expected and an actual object of one type and walks their members in
 * order; a composite enumerable member is turned into two element arrays that the
 * frame then hands out one index at a time.
 */
module ValidationFrame {
  import opened Base
  import opened ObjectGraph

  /** The element arrays of the current enumerable member. */
  datatype Items = Items(expected: seq<Value>, actual: seq<Value>)

  /**
   * A frame: the two objects, their member list, how many members the enumerator has
   * consumed (`cursor`; the current member is the one before it), the values of the
   * current member, the element arrays and the index into them (-1 without arrays).
   */
  datatype Frame = Frame(expected: Ref, actual: Ref, members: seq<Member>, cursor: nat,
                         expectedValue: Value, actualValue: Value, arrays: Option<Items>, index: int)

  /** The `"{expectedId}_{actualId}_{memberName}"` key of a composite member value; object ids are the references. */
  datatype Key = Key(expectedId: Ref, actualId: Ref, name: string)

  /** `ValidatedObjectData`: the parents, the member and the two values handed to the hooks. */
  datatype Data = Data(expectedParent: Ref, actualParent: Ref, member: Member, expected: Value, actual: Value)

  /** Why a validation fails; the failure message's wording is not modelled. */
  datatype Mismatch =
    | RootNullness
    | RootTypes
    | MemberNullness(expected: Value, actual: Value)
    | MemberTypes
    | ItemNullness
    | ParentTypes
    | ValuesDiffer(expectedText: string, actualText: string)
    | ItemCounts
    | StackTooDeep

  /** The result of a successful `MoveNext`: the frame, the compared-member keys, and whether there is a current member. */
  datatype Moved = Moved(frame: Frame, keys: set<Key>, more: bool)

  /** The invariant of a frame between two calls of `MoveNext`. */
  predicate FrameOk(h: Heap, f: Frame)
    requires WellFormed(h)
  {
    && f.expected in h && f.actual in h && h[f.expected].typ == h[f.actual].typ
    && f.members == Members(h[f.expected].typ)
    && f.cursor <= |f.members|
    && ValueIn(h, f.expectedValue) && ValueIn(h, f.actualValue)
    && (f.arrays.None? ==> f.index == -1)
    && (f.arrays.Some? ==> f.cursor >= 1 && ArraysOfCurrent(h, f) && 0 <= f.index < |f.arrays.value.expected|)
    && (f.arrays.Some? ==> ItemsIn(h, f.arrays.value))
  }

  predicate ItemsIn(h: Heap, it: Items) {
    && (forall j :: 0 <= j < |it.expected| ==> ValueIn(h, it.expected[j]))
    && (forall j :: 0 <= j < |it.actual| ==> ValueIn(h, it.actual[j]))
  }

  /** The values of the member the enumerator is on. */
  function Current(h: Heap, f: Frame): (Value, Value)
    requires WellFormed(h) && f.expected in h && f.actual in h && h[f.expected].typ == h[f.actual].typ
    requires f.members == Members(h[f.expected].typ) && 1 <= f.cursor <= |f.members|
  {
    ReadMember(h, f.expected, f.actual, f.cursor - 1)
  }

  /**
   * The element arrays are those of the current member, a composite enumerable with as
   * many elements on each side, whose values the frame keeps.
   */
  predicate ArraysOfCurrent(h: Heap, f: Frame)
    requires WellFormed(h) && f.expected in h && f.actual in h && h[f.expected].typ == h[f.actual].typ
    requires f.members == Members(h[f.expected].typ) && 1 <= f.cursor <= |f.members|
  {
    var v := Current(h, f);
    && v.0.Ptr? && v.1.Ptr? && h[v.0.ref].typ == h[v.1.ref].typ
    && !IsPrimitiveType(h[v.0.ref].typ) && h[v.0.ref].typ.isEnumerable
    && |h[v.0.ref].items| == |h[v.1.ref].items|
    && f.arrays == Some(Items(h[v.0.ref].items, h[v.1.ref].items))
    && (f.expectedValue, f.actualValue) == v
  }

  /** The constructor: two objects of different types fail; the members are listed in walking order. */
  function NewFrame(h: Heap, e: Ref, a: Ref): (r: Result<Frame, Mismatch>)
    requires WellFormed(h) && e in h && a in h
    ensures r.Err? <==> h[e].typ != h[a].typ
    ensures r.Err? ==> r.error == ParentTypes
    ensures r.Ok? ==> FrameOk(h, r.value) && r.value.expected == e && r.value.actual == a
    ensures r.Ok? ==> r.value.cursor == 0 && r.value.arrays.None?
    ensures r.Ok? ==> r.value.members == h[e].typ.properties + h[e].typ.fields +
                                         (if h[e].typ.isEnumerable then [EnumeratorMember(h[e].typ)] else [])
  {
    if h[e].typ != h[a].typ then Err(ParentTypes)
    else Ok(Frame(e, a, Members(h[e].typ), 0, Null, Null, None, -1))
  }

  /**
   * The checks a member passed before the walk went past it: both values null, or of
   * one type and, for primitive-classified ones, equal; for composite ones, their key
   * was recorded.
   */
  predicate ShallowAgrees(h: Heap, keys: set<Key>, name: string, x: Value, y: Value)
    requires ValueIn(h, x) && ValueIn(h, y)
  {
    || (x.Null? && y.Null?)
    || (&& x.Ptr? && y.Ptr? && h[x.ref].typ == h[y.ref].typ
        && (if IsPrimitiveType(h[x.ref].typ) then x == y || ValueEquals(h, x.ref, y.ref)
            else Key(x.ref, y.ref, name) in keys))
  }

  /** Member `k` of the frame's objects is ignored or has passed the checks. */
  predicate MemberSettled(h: Heap, ignore: Member -> bool, keys: set<Key>, e: Ref, a: Ref, k: nat)
    requires WellFormed(h) && e in h && a in h && h[e].typ == h[a].typ && k < |Members(h[e].typ)|
  {
    var m := Members(h[e].typ)[k];
    var v := ReadMember(h, e, a, k);
    Ignored(ignore, m) || ShallowAgrees(h, keys, m.name, v.0, v.1)
  }

  /** No member from `from` on that is not ignored clashes. */
  predicate NoClashFrom(h: Heap, ignore: Member -> bool, f: Frame, from: nat)
    requires WellFormed(h) && f.expected in h && f.actual in h && h[f.expected].typ == h[f.actual].typ
    requires f.members == Members(h[f.expected].typ)
  {
    forall k :: from <= k < |f.members| && !Ignored(ignore, f.members[k]) ==>
      var v := ReadMember(h, f.expected, f.actual, k); !MemberClashes(h, v.0, v.1)
  }

  /**
   * Where `MoveNext` leaves a frame that has a new current member: the member is not
   * ignored; its values are both null, or of one type; a composite value's key was not
   * recorded before and is recorded now; and a composite enumerable is replaced by its
   * element arrays, or by two nulls when both are empty.
   */
  predicate Positioned(h: Heap, ignore: Member -> bool, keys: set<Key>, m: Moved)
    requires WellFormed(h) && FrameOk(h, m.frame) && m.frame.cursor >= 1
  {
    var f := m.frame;
    var mem := f.members[f.cursor - 1];
    var v := Current(h, f);
    && !Ignored(ignore, mem)
    && if v.0.Null? || v.1.Null? then
         v.0.Null? && v.1.Null? && (f.expectedValue, f.actualValue) == v && f.arrays.None? && m.keys == keys
       else
         && h[v.0.ref].typ == h[v.1.ref].typ
         && if IsPrimitiveType(h[v.0.ref].typ) then
              (f.expectedValue, f.actualValue) == v && f.arrays.None? && m.keys == keys
            else
              && Key(v.0.ref, v.1.ref, mem.name) !in keys
              && m.keys == keys + {Key(v.0.ref, v.1.ref, mem.name)}
              && if !h[v.0.ref].typ.isEnumerable then (f.expectedValue, f.actualValue) == v && f.arrays.None?
                 else if h[v.0.ref].items == [] then
                   h[v.1.ref].items == [] && f.expectedValue == Null && f.actualValue == Null && f.arrays.None?
                 else f.arrays.Some? && f.index == 0
  }

  /** The frame objects and member list stay; the walk only moves forward. */
  predicate Follows(f: Frame, g: Frame) {
    g.expected == f.expected && g.actual == f.actual && g.members == f.members && g.cursor >= f.cursor
  }

  /** What the member loop does with one member: passes over it, or stops there. */
  datatype Examined = Skip(next: Frame) | Stop(result: Result<Moved, Mismatch>)

  /**
   * One round of the member loop of `MoveNext`, on member `f.cursor`: an ignored member,
   * or a composite one whose key is already recorded, is passed over; otherwise the
   * loop stops there, with the member positioned or with a failure.
   */
  function Examine(h: Heap, ignore: Member -> bool, f: Frame, keys: set<Key>): (x: Examined)
    requires WellFormed(h) && FrameOk(h, f) && f.arrays.None? && f.cursor < |f.members|
    ensures x.Skip? ==> && FrameOk(h, x.next) && x.next.arrays.None? && Follows(f, x.next)
                        && x.next.cursor == f.cursor + 1
    ensures x.Stop? && x.result.Ok? ==>
      && FrameOk(h, x.result.value.frame) && Follows(f, x.result.value.frame) && keys <= x.result.value.keys
      && x.result.value.more && x.result.value.frame.cursor == f.cursor + 1
    ensures x.Stop? && x.result.Err? ==>
      || (&& x.result.error.MemberNullness?
          && x.result.error.expected.Null? != x.result.error.actual.Null?)
      || x.result.error == MemberTypes || x.result.error == ItemCounts
  {
    var k := f.cursor;
    var mem := f.members[k];
    var v := ReadMember(h, f.expected, f.actual, k);
    var g := f.(cursor := k + 1, expectedValue := v.0, actualValue := v.1);
    if Ignored(ignore, mem) then Skip(g)
    else if v.0.Null? || v.1.Null? then
      if v.0.Null? != v.1.Null? then Stop(Err(MemberNullness(v.0, v.1)))
      else Stop(Ok(Moved(g, keys, true)))
    else if h[v.0.ref].typ != h[v.1.ref].typ then Stop(Err(MemberTypes))
    else if IsPrimitiveType(h[v.0.ref].typ) then Stop(Ok(Moved(g, keys, true)))
    else
      var key := Key(v.0.ref, v.1.ref, mem.name);
      if key in keys then Skip(g)
      else if !h[v.0.ref].typ.isEnumerable then Stop(Ok(Moved(g, keys + {key}, true)))
      else
        var xs, ys := h[v.0.ref].items, h[v.1.ref].items;
        assert ObjWellFormed(h, h[v.0.ref]) && ObjWellFormed(h, h[v.1.ref]);
        if |xs| != |ys| then Stop(Err(ItemCounts))
        else if |xs| > 0 then Stop(Ok(Moved(g.(index := 0, arrays := Some(Items(xs, ys))), keys + {key}, true)))
        else Stop(Ok(Moved(g.(expectedValue := Null, actualValue := Null), keys + {key}, true)))
  }

  /**
   * What one round of the member loop establishes: a member passed over is settled, a
   * member stopped at is positioned, and a failure is a clash of a member not ignored.
   */
  lemma ExamineWalks(h: Heap, ignore: Member -> bool, f: Frame, keys: set<Key>)
    requires WellFormed(h) && FrameOk(h, f) && f.arrays.None? && f.cursor < |f.members|
    ensures var x := Examine(h, ignore, f, keys);
      x.Skip? ==> MemberSettled(h, ignore, keys, f.expected, f.actual, f.cursor)
    ensures var x := Examine(h, ignore, f, keys);
      x.Stop? && x.result.Ok? ==> Positioned(h, ignore, keys, x.result.value)
    ensures var x := Examine(h, ignore, f, keys);
      x.Stop? && x.result.Err? ==>
        && !Ignored(ignore, f.members[f.cursor])
        && var v := ReadMember(h, f.expected, f.actual, f.cursor); MemberClashes(h, v.0, v.1)
  {
  }

  /** The member loop of `MoveNext`, from member `f.cursor` on. */
  function NextMember(h: Heap, ignore: Member -> bool, f: Frame, keys: set<Key>): (r: Result<Moved, Mismatch>)
    requires WellFormed(h) && FrameOk(h, f) && f.arrays.None?
    ensures r.Ok? ==> FrameOk(h, r.value.frame) && Follows(f, r.value.frame) && keys <= r.value.keys
    ensures r.Ok? && !r.value.more ==>
      r.value.frame.cursor == |f.members| && r.value.frame.arrays.None? && r.value.keys == keys
    ensures r.Ok? && r.value.more ==> r.value.frame.cursor > f.cursor
    ensures r.Err? ==> r.error.MemberNullness? || r.error == MemberTypes || r.error == ItemCounts
    ensures r.Err? && r.error.MemberNullness? ==> r.error.expected.Null? != r.error.actual.Null?
    decreases |f.members| - f.cursor
  {
    if f.cursor == |f.members| then Ok(Moved(f, keys, false))
    else
      match Examine(h, ignore, f, keys)
      case Skip(g) => NextMember(h, ignore, g, keys)
      case Stop(r) => r
  }

  /**
   * Where the member loop stops: on a positioned member, with every member it passed
   * over settled (all the rest when it reports no current member); and it fails only
   * on a member that clashes.
   */
  lemma {:induction false} NextMemberWalks(h: Heap, ignore: Member -> bool, f: Frame, keys: set<Key>)
    requires WellFormed(h) && FrameOk(h, f) && f.arrays.None?
    ensures var r := NextMember(h, ignore, f, keys);
      r.Ok? && r.value.more ==> Positioned(h, ignore, keys, r.value)
    ensures var r := NextMember(h, ignore, f, keys);
      r.Ok? ==> SettledRange(h, ignore, r.value.keys, f, f.cursor, if r.value.more then r.value.frame.cursor - 1 else |f.members|)
    ensures NoClashFrom(h, ignore, f, f.cursor) ==> NextMember(h, ignore, f, keys).Ok?
    decreases |f.members| - f.cursor
  {
    if f.cursor < |f.members| {
      ExamineWalks(h, ignore, f, keys);
      match Examine(h, ignore, f, keys)
      case Skip(g) =>
        NextMemberWalks(h, ignore, g, keys);
        var r := NextMember(h, ignore, g, keys);
        if r.Ok? {
          SettledRangeExtend(h, ignore, keys, r.value.keys, f, f.cursor,
                             if r.value.more then r.value.frame.cursor - 1 else |f.members|);
        }
      case Stop(r) =>
    }
  }

  /** Members `from` up to `to` of the frame's objects are settled. */
  predicate SettledRange(h: Heap, ignore: Member -> bool, keys: set<Key>, f: Frame, from: nat, to: nat)
    requires WellFormed(h) && f.expected in h && f.actual in h && h[f.expected].typ == h[f.actual].typ
    requires f.members == Members(h[f.expected].typ) && to <= |f.members|
  {
    forall k :: from <= k < to ==> MemberSettled(h, ignore, keys, f.expected, f.actual, k)
  }

  lemma SettledRangeExtend(h: Heap, ignore: Member -> bool, keys: set<Key>, more: set<Key>, f: Frame, from: nat, to: nat)
    requires WellFormed(h) && f.expected in h && f.actual in h && h[f.expected].typ == h[f.actual].typ
    requires f.members == Members(h[f.expected].typ) && from < to <= |f.members| && keys <= more
    requires MemberSettled(h, ignore, keys, f.expected, f.actual, from)
    requires SettledRange(h, ignore, more, f, from + 1, to)
    ensures SettledRange(h, ignore, more, f, from, to)
  {
    SettledGrows(h, ignore, keys, more, f.expected, f.actual, from);
  }

  /** A settled member stays settled when more keys are recorded. */
  lemma SettledGrows(h: Heap, ignore: Member -> bool, keys: set<Key>, more: set<Key>, e: Ref, a: Ref, k: nat)
    requires WellFormed(h) && e in h && a in h && h[e].typ == h[a].typ && k < |Members(h[e].typ)| && keys <= more
    ensures MemberSettled(h, ignore, keys, e, a, k) ==> MemberSettled(h, ignore, more, e, a, k)
  {
  }

  /**
   * `MoveNext`: within element arrays, the next element; otherwise the next member that
   * is not ignored, failing on differing nullness, differing types or differing element
   * counts, and passing over a composite member whose key was already recorded.
   */
  function MoveNext(h: Heap, ignore: Member -> bool, f: Frame, keys: set<Key>): (r: Result<Moved, Mismatch>)
    requires WellFormed(h) && FrameOk(h, f)
    ensures f.arrays.Some? && f.index + 1 < |f.arrays.value.expected| ==>
      r == Ok(Moved(f.(index := f.index + 1), keys, true))
    ensures r.Ok? ==> FrameOk(h, r.value.frame) && Follows(f, r.value.frame) && keys <= r.value.keys
    ensures r.Ok? && !r.value.more ==>
      r.value.frame.cursor == |f.members| && r.value.frame.arrays.None? && r.value.keys == keys
    ensures r.Ok? && r.value.more ==> r.value.frame.cursor >= 1
    ensures r.Err? ==> r.error.MemberNullness? || r.error == MemberTypes || r.error == ItemCounts
    ensures r.Err? && r.error.MemberNullness? ==> r.error.expected.Null? != r.error.actual.Null?
  {
    if f.arrays.Some? && f.index + 1 < |f.arrays.value.expected| then Ok(Moved(f.(index := f.index + 1), keys, true))
    else NextMember(h, ignore, f.(index := -1, arrays := None), keys)
  }

  /**
   * Where `MoveNext` leaves the walk: past the last element, it moves to a later member
   * and positions it; the members it passed over, or all the rest when it reports no
   * current member, are settled.
   */
  lemma MoveNextWalks(h: Heap, ignore: Member -> bool, f: Frame, keys: set<Key>)
    requires WellFormed(h) && FrameOk(h, f)
    ensures var r := MoveNext(h, ignore, f, keys);
      !(f.arrays.Some? && f.index + 1 < |f.arrays.value.expected|) && r.Ok? && r.value.more ==>
        r.value.frame.cursor > f.cursor && Positioned(h, ignore, keys, r.value)
    ensures var r := MoveNext(h, ignore, f, keys);
      r.Ok? ==> SettledRange(h, ignore, r.value.keys, f, f.cursor, if r.value.more then r.value.frame.cursor - 1 else |f.members|)
  {
    if !(f.arrays.Some? && f.index + 1 < |f.arrays.value.expected|) {
      NextMemberWalks(h, ignore, f.(index := -1, arrays := None), keys);
    }
  }

  /** `MoveNext` fails only on a member that clashes. */
  lemma MoveNextFailsOnClash(h: Heap, ignore: Member -> bool, f: Frame, keys: set<Key>)
    requires WellFormed(h) && FrameOk(h, f)
    ensures NoClashFrom(h, ignore, f, f.cursor) ==> MoveNext(h, ignore, f, keys).Ok?
  {
    if !(f.arrays.Some? && f.index + 1 < |f.arrays.value.expected|) {
      NextMemberWalks(h, ignore, f.(index := -1, arrays := None), keys);
    }
  }

  /** `GetCurrentData`: the current element when there are element arrays, otherwise the current member's values. */
  function GetCurrentData(h: Heap, f: Frame): (d: Data)
    requires WellFormed(h) && FrameOk(h, f) && f.cursor >= 1
    ensures ValueIn(h, d.expected) && ValueIn(h, d.actual)
    ensures d.expectedParent == f.expected && d.actualParent == f.actual && d.member == f.members[f.cursor - 1]
    ensures f.arrays.Some? ==> (d.expected, d.actual) == (f.arrays.value.expected[f.index], f.arrays.value.actual[f.index])
    ensures f.arrays.None? ==> (d.expected, d.actual) == (f.expectedValue, f.actualValue)
  {
    if f.index >= 0 then
      Data(f.expected, f.actual, f.members[f.cursor - 1], f.arrays.value.expected[f.index], f.arrays.value.actual[f.index])
    else Data(f.expected, f.actual, f.members[f.cursor - 1], f.expectedValue, f.actualValue)
  }
}

=== FILE: validator_hooks.dfy ===
/**
 * The calls the validator makes to the hooks its caller passes in: they come in
 * starting/completed pairs, the failure callback is called before a failure that
 * reports is raised, and the starting hook never sees an ignored member.
 */
module ValidatorHooks {
  import opened ObjectGraph
  import opened ValidationFrame
  import opened ValidatorStep
  import opened ValidatorInvariant

  /**
   * The hook calls stay balanced over a round, and a failing round leaves them
   * balanced with the failure callback called exactly when the failure is one that
   * reports.
   */
  lemma StepKeepsHooksBalanced(h: Heap, ignore: Member -> bool, s: State)
    requires WellFormed(h) && StackOk(h, s.stack) && s.stack != [] && HooksBalanced(s.trace, false)
    ensures var o := Step(h, ignore, s);
      if o.Next? then HooksBalanced(o.state.trace, false) else HooksBalanced(o.trace, Reported(o.mismatch))
  {
    var top := s.stack[|s.stack| - 1];
    var mv := MoveNext(h, ignore, top, s.keys);
    if mv.Err? {
      FailBalanced(s.trace, mv.error);
    } else if mv.value.more {
      CheckKeepsHooksBalanced(h, s, s.stack[..|s.stack| - 1], mv.value.frame, mv.value.keys);
    }
  }

  /** A failure of `MoveNext` leaves the hook calls balanced, with the failure callback called for differing nullness. */
  lemma FailBalanced(t: seq<Event>, m: Mismatch)
    requires HooksBalanced(t, false)
    requires m.MemberNullness? || m == MemberTypes || m == ItemCounts
    ensures HooksBalanced(t + if m.MemberNullness? then [Failed(m.expected, m.actual)] else [], Reported(m))
  {
    if m.MemberNullness? {
      BalancedAppend(t, [Failed(m.expected, m.actual)], true);
    } else {
      assert t + [] == t;
    }
  }

  /** The checks of one member keep the hook calls balanced, with the failure callback called for the failures that report. */
  lemma CheckKeepsHooksBalanced(h: Heap, s: State, below: seq<Frame>, f: Frame, keys: set<Key>)
    requires WellFormed(h) && FrameOk(h, f) && f.cursor >= 1 && HooksBalanced(s.trace, false)
    ensures var o := CheckCurrent(h, s, below, f, keys);
      o.Next? ==> HooksBalanced(o.state.trace, false)
    ensures var o := CheckCurrent(h, s, below, f, keys);
      o.Fail? ==> HooksBalanced(o.trace, Reported(o.mismatch))
  {
    var d := GetCurrentData(h, f);
    assert HooksBalanced(Checked(d), false) by {
      assert Checked(d)[2..] == [];
    }
    BalancedAppend(s.trace, Checked(d), false);
    var failed := [Starting(d), Failed(d.expected, d.actual), Completed(d)];
    assert HooksBalanced(failed, true);
    BalancedAppend(s.trace, failed, true);
  }

  /** A round calls the starting hook only for a member that is not ignored. */
  lemma StepStartsNotIgnored(h: Heap, ignore: Member -> bool, root: (Ref, Ref), s: State)
    requires WellFormed(h) && StackOk(h, s.stack) && s.stack != [] && Sound(h, ignore, root, s)
    requires StartsNotIgnored(ignore, s.trace)
    ensures var o := Step(h, ignore, s); StartsNotIgnored(ignore, if o.Next? then o.state.trace else o.trace)
  {
    var top, below := s.stack[|s.stack| - 1], s.stack[..|s.stack| - 1];
    SplitLast(s.stack);
    OnMembersNotIgnored(h, ignore, root, s, below, top);
    var m := MoveNext(h, ignore, top, s.keys);
    if m.Err? {
      FailStarts(ignore, s.trace, m.error);
    } else if m.value.more {
      MovedNotIgnored(h, ignore, top, s.keys);
      StartsOfMember(ignore, s.trace, GetCurrentData(h, m.value.frame));
    }
  }

  /** A failure of `MoveNext` calls no starting hook. */
  lemma FailStarts(ignore: Member -> bool, t: seq<Event>, m: Mismatch)
    requires StartsNotIgnored(ignore, t)
    ensures StartsNotIgnored(ignore, t + if m.MemberNullness? then [Failed(m.expected, m.actual)] else [])
  {
    if m.MemberNullness? {
      StartsAppend(ignore, t, [Failed(m.expected, m.actual)]);
    } else {
      assert t + [] == t;
    }
  }

  /** `MoveNext` stops only on a member that is not ignored, when the frame was on one already or moves to a new one. */
  lemma MovedNotIgnored(h: Heap, ignore: Member -> bool, top: Frame, keys: set<Key>)
    requires WellFormed(h) && FrameOk(h, top)
    requires top.arrays.Some? ==> !Ignored(ignore, top.members[top.cursor - 1])
    ensures var m := MoveNext(h, ignore, top, keys);
      m.Ok? && m.value.more ==> !Ignored(ignore, GetCurrentData(h, m.value.frame).member)
  {
    MoveNextWalks(h, ignore, top, keys);
  }
}

=== FILE: validator_invariant.dfy ===
/**
 * What holds of the validator's state between two rounds of its main loop, and why a
 * round keeps it: the members the walk went past have passed their checks, every
 * recorded key and every recorded pair is either finished or still being worked on by
 * a frame on the stack, and, under any relation that makes the roots equal, the stack
 * only ever holds related pairs.
 */
module ValidatorInvariant {
  import opened Base
  import opened ObjectGraph
  import opened ValidationFrame
  import opened ValidatorStep

  function PairOf(f: Frame): (Ref, Ref) {
    (f.expected, f.actual)
  }

  function StackPairs(stack: seq<Frame>): set<(Ref, Ref)> {
    set i | 0 <= i < |stack| :: PairOf(stack[i])
  }

  /** The pairs that are compared: those recorded before a push, and the roots. */
  function Related(s: State, root: (Ref, Ref)): set<(Ref, Ref)> {
    s.compared + {root}
  }

  /** Every member of the pair `p` is settled. */
  predicate FullySettled(h: Heap, ignore: Member -> bool, keys: set<Key>, p: (Ref, Ref))
    requires WellFormed(h)
  {
    && p.0 in h && p.1 in h && h[p.0].typ == h[p.1].typ
    && forall k :: 0 <= k < |Members(h[p.0].typ)| ==> MemberSettled(h, ignore, keys, p.0, p.1, k)
  }

  /** Every frame on the stack has settled the members it went past. */
  predicate FramesSettled(h: Heap, ignore: Member -> bool, keys: set<Key>, stack: seq<Frame>)
    requires WellFormed(h) && StackOk(h, stack)
  {
    forall i :: 0 <= i < |stack| ==> SettledRange(h, ignore, keys, stack[i], 0, stack[i].cursor)
  }

  predicate KeysIn(h: Heap, keys: set<Key>) {
    forall key :: key in keys ==> key.expectedId in h && key.actualId in h
  }

  /** The key of the enumerable member whose elements a frame is handing out. */
  function ActiveKey(f: Frame): Key
    requires Active(f)
  {
    Key(f.expectedValue.ref, f.actualValue.ref, f.members[f.cursor - 1].name)
  }

  /** A frame handing out the elements of a member with two non-null values. */
  predicate Active(f: Frame) {
    f.arrays.Some? && f.expectedValue.Ptr? && f.actualValue.Ptr? && 1 <= f.cursor <= |f.members|
  }

  function ActiveKeys(stack: seq<Frame>): set<Key> {
    set i | 0 <= i < |stack| && Active(stack[i]) :: ActiveKey(stack[i])
  }

  /** Every recorded key's values agree, or a frame on the stack is still handing out their elements. */
  predicate KeysCovered(h: Heap, P: set<(Ref, Ref)>, keys: set<Key>, stack: seq<Frame>)
    requires WellFormed(h) && StackOk(h, stack) && KeysIn(h, keys)
  {
    forall key :: key in keys ==> CompositeAgrees(h, P, key.expectedId, key.actualId) || key in ActiveKeys(stack)
  }

  /** The elements a frame has handed out so far agree. */
  predicate ElementsSoFar(h: Heap, P: set<(Ref, Ref)>, f: Frame)
    requires WellFormed(h) && FrameOk(h, f) && f.arrays.Some?
  {
    forall j :: 0 <= j <= f.index ==> ElementAgrees(h, P, f.arrays.value.expected[j], f.arrays.value.actual[j])
  }

  /** A frame handing out elements is on a member that is not ignored, and its elements so far agree. */
  predicate ArraysProgress(h: Heap, ignore: Member -> bool, P: set<(Ref, Ref)>, stack: seq<Frame>)
    requires WellFormed(h) && StackOk(h, stack)
  {
    forall i :: 0 <= i < |stack| && stack[i].arrays.Some? ==>
      !Ignored(ignore, stack[i].members[stack[i].cursor - 1]) && ElementsSoFar(h, P, stack[i])
  }

  /** Every compared pair is settled, or a frame on the stack is still walking it. */
  predicate PairsCovered(h: Heap, ignore: Member -> bool, keys: set<Key>, P: set<(Ref, Ref)>, stack: seq<Frame>)
    requires WellFormed(h)
  {
    forall p :: p in P ==> FullySettled(h, ignore, keys, p) || p in StackPairs(stack)
  }

  /** The invariant behind the soundness of a passing validation. */
  predicate Sound(h: Heap, ignore: Member -> bool, root: (Ref, Ref), s: State)
    requires WellFormed(h) && StackOk(h, s.stack)
  {
    var P := Related(s, root);
    && KeysIn(h, s.keys)
    && FramesSettled(h, ignore, s.keys, s.stack)
    && PairsCovered(h, ignore, s.keys, P, s.stack)
    && KeysCovered(h, P, s.keys, s.stack)
    && ArraysProgress(h, ignore, P, s.stack)
  }

  // ---------------------------------------------------------------------------------
  // Stacks that grow or shrink at the top

  lemma StackPairsSnoc(stack: seq<Frame>, f: Frame)
    ensures StackPairs(stack + [f]) == StackPairs(stack) + {PairOf(f)}
  {
    var t := stack + [f];
    forall p | p in StackPairs(t) ensures p in StackPairs(stack) + {PairOf(f)} {
      var i :| 0 <= i < |t| && p == PairOf(t[i]);
      if i < |stack| {
        assert t[i] == stack[i];
      }
    }
    forall p | p in StackPairs(stack) + {PairOf(f)} ensures p in StackPairs(t) {
      if p == PairOf(f) {
        assert t[|stack|] == f;
      } else {
        var i :| 0 <= i < |stack| && p == PairOf(stack[i]);
        assert t[i] == stack[i];
      }
    }
  }

  lemma ActiveKeysSnoc(stack: seq<Frame>, f: Frame)
    ensures ActiveKeys(stack + [f]) == ActiveKeys(stack) + if Active(f) then {ActiveKey(f)} else {}
  {
    var t := stack + [f];
    assert forall i :: 0 <= i < |stack| ==> t[i] == stack[i];
    assert t[|stack|] == f;
    var extra: set<Key> := if Active(f) then {ActiveKey(f)} else {};
    forall key | key in ActiveKeys(t) ensures key in ActiveKeys(stack) + extra {
      var i :| 0 <= i < |t| && Active(t[i]) && key == ActiveKey(t[i]);
      if i < |stack| {
        assert key == ActiveKey(stack[i]);
      }
    }
    forall key | key in ActiveKeys(stack) + extra ensures key in ActiveKeys(t) {
      if key !in extra {
        var i :| 0 <= i < |stack| && Active(stack[i]) && key == ActiveKey(stack[i]);
        assert t[i] == stack[i];
      }
    }
  }

  lemma StackOkSnoc(h: Heap, stack: seq<Frame>, f: Frame)
    requires WellFormed(h) && StackOk(h, stack) && FrameOk(h, f)
    ensures StackOk(h, stack + [f])
  {
    var t := stack + [f];
    assert forall i :: 0 <= i < |stack| ==> t[i] == stack[i];
    assert t[|stack|] == f;
  }

  /** A frame on element arrays is active, on the key of its current member. */
  lemma ArraysActive(h: Heap, f: Frame)
    requires WellFormed(h) && FrameOk(h, f) && f.arrays.Some?
    ensures Active(f) && ActiveKey(f).expectedId in h && ActiveKey(f).actualId in h
    ensures var v := Current(h, f); ActiveKey(f) == Key(v.0.ref, v.1.ref, f.members[f.cursor - 1].name)
  {
    assert ArraysOfCurrent(h, f);
  }

  lemma SettledRangeGrows(h: Heap, ignore: Member -> bool, keys: set<Key>, more: set<Key>, f: Frame, from: nat, to: nat)
    requires WellFormed(h) && f.expected in h && f.actual in h && h[f.expected].typ == h[f.actual].typ
    requires f.members == Members(h[f.expected].typ) && to <= |f.members| && keys <= more
    requires SettledRange(h, ignore, keys, f, from, to)
    ensures SettledRange(h, ignore, more, f, from, to)
  {
    forall k | from <= k < to ensures MemberSettled(h, ignore, more, f.expected, f.actual, k) {
      SettledGrows(h, ignore, keys, more, f.expected, f.actual, k);
    }
  }

  lemma ElementAgreesGrows(h: Heap, P: set<(Ref, Ref)>, Q: set<(Ref, Ref)>, x: Value, y: Value)
    requires ValueIn(h, x) && ValueIn(h, y) && P <= Q
    ensures ElementAgrees(h, P, x, y) ==> ElementAgrees(h, Q, x, y)
  {
  }

  lemma CompositeAgreesGrows(h: Heap, P: set<(Ref, Ref)>, Q: set<(Ref, Ref)>, x: Ref, y: Ref)
    requires WellFormed(h) && x in h && y in h && P <= Q
    ensures CompositeAgrees(h, P, x, y) ==> CompositeAgrees(h, Q, x, y)
  {
    assert ObjWellFormed(h, h[x]) && ObjWellFormed(h, h[y]);
    if h[x].typ.isEnumerable && CompositeAgrees(h, P, x, y) {
      forall i | 0 <= i < |h[x].items|
        ensures ElementAgrees(h, Q, h[x].items[i], h[y].items[i])
      {
        ElementAgreesGrows(h, P, Q, h[x].items[i], h[y].items[i]);
      }
    }
  }

  lemma ElementsSoFarGrows(h: Heap, P: set<(Ref, Ref)>, Q: set<(Ref, Ref)>, f: Frame)
    requires WellFormed(h) && FrameOk(h, f) && f.arrays.Some? && P <= Q
    ensures ElementsSoFar(h, P, f) ==> ElementsSoFar(h, Q, f)
  {
    if ElementsSoFar(h, P, f) {
      forall j | 0 <= j <= f.index
        ensures ElementAgrees(h, Q, f.arrays.value.expected[j], f.arrays.value.actual[j])
      {
        ElementAgreesGrows(h, P, Q, f.arrays.value.expected[j], f.arrays.value.actual[j]);
      }
    }
  }

  lemma FullySettledGrows(h: Heap, ignore: Member -> bool, keys: set<Key>, more: set<Key>, p: (Ref, Ref))
    requires WellFormed(h) && keys <= more && FullySettled(h, ignore, keys, p)
    ensures FullySettled(h, ignore, more, p)
  {
    forall k | 0 <= k < |Members(h[p.0].typ)| ensures MemberSettled(h, ignore, more, p.0, p.1, k) {
      SettledGrows(h, ignore, keys, more, p.0, p.1, k);
    }
  }

  /** Once a frame has handed out its last element, the enumerable member's elements agree. */
  lemma FinishedKeyAgrees(h: Heap, P: set<(Ref, Ref)>, f: Frame)
    requires WellFormed(h) && FrameOk(h, f) && f.arrays.Some? && ElementsSoFar(h, P, f)
    requires f.index + 1 >= |f.arrays.value.expected|
    ensures CompositeAgrees(h, P, ActiveKey(f).expectedId, ActiveKey(f).actualId)
  {
    var v := Current(h, f);
    assert ArraysOfCurrent(h, f);
    assert ObjWellFormed(h, h[v.0.ref]) && ObjWellFormed(h, h[v.1.ref]);
  }

  // ---------------------------------------------------------------------------------
  // A round keeps the invariant

  /** A frame handing out elements is on a member that is not ignored, and its elements so far agree under `Q`. */
  predicate TopProgress(h: Heap, ignore: Member -> bool, Q: set<(Ref, Ref)>, f: Frame)
    requires WellFormed(h) && FrameOk(h, f)
  {
    f.arrays.Some? ==> !Ignored(ignore, f.members[f.cursor - 1]) && ElementsSoFar(h, Q, f)
  }

  /** Each key recorded on top of `keys` agrees under `Q`, or is the one `f` hands out elements for. */
  predicate NewKeysCovered(h: Heap, Q: set<(Ref, Ref)>, keys: set<Key>, more: set<Key>, f: Frame)
    requires WellFormed(h) && FrameOk(h, f)
  {
    forall key :: key in more && key !in keys ==>
      && key.expectedId in h && key.actualId in h
      && (CompositeAgrees(h, Q, key.expectedId, key.actualId) || (f.arrays.Some? && key == ActiveKey(f)))
  }

  /** The key `top` was handing out elements for agrees under `Q`, or `f` still hands them out. */
  predicate OldTopCovered(h: Heap, Q: set<(Ref, Ref)>, top: Frame, f: Frame)
    requires WellFormed(h) && FrameOk(h, top) && FrameOk(h, f)
  {
    top.arrays.Some? ==>
      || CompositeAgrees(h, Q, ActiveKey(top).expectedId, ActiveKey(top).actualId)
      || (f.arrays.Some? && ActiveKey(top) == ActiveKey(f))
  }

  /** Handing out the next element keeps the frame's progress, once that element's check passed. */
  lemma NextElementKeeps(h: Heap, P: set<(Ref, Ref)>, Q: set<(Ref, Ref)>, top: Frame, f: Frame)
    requires WellFormed(h) && FrameOk(h, top) && P <= Q && top.arrays.Some? && ElementsSoFar(h, P, top)
    requires top.index + 1 < |top.arrays.value.expected| && f == top.(index := top.index + 1)
    requires ElementAgrees(h, Q, f.arrays.value.expected[f.index], f.arrays.value.actual[f.index])
    ensures FrameOk(h, f) && ElementsSoFar(h, Q, f) && ActiveKey(f) == ActiveKey(top)
  {
    ElementsSoFarGrows(h, P, Q, top);
  }

  /** Moving to a new member keeps the walked members settled, that member included. */
  lemma NextMemberSettles(h: Heap, ignore: Member -> bool, Q: set<(Ref, Ref)>, keys: set<Key>, top: Frame, mv: Moved)
    requires WellFormed(h) && FrameOk(h, top) && FrameOk(h, mv.frame) && Follows(top, mv.frame)
    requires mv.frame.cursor > top.cursor && keys <= mv.keys
    requires SettledRange(h, ignore, keys, top, 0, top.cursor)
    requires SettledRange(h, ignore, mv.keys, top, top.cursor, mv.frame.cursor - 1)
    requires Positioned(h, ignore, keys, mv)
    requires var d := GetCurrentData(h, mv.frame); ElementAgrees(h, Q, d.expected, d.actual)
    ensures SettledRange(h, ignore, mv.keys, mv.frame, 0, mv.frame.cursor)
  {
    var f := mv.frame;
    var k := f.cursor - 1;
    SettledRangeGrows(h, ignore, keys, mv.keys, top, 0, top.cursor);
    assert MemberSettled(h, ignore, mv.keys, f.expected, f.actual, k);
    forall j | 0 <= j < f.cursor ensures MemberSettled(h, ignore, mv.keys, f.expected, f.actual, j) {
      if j < top.cursor {
        assert SettledRange(h, ignore, mv.keys, top, 0, top.cursor);
      } else if j < k {
        assert SettledRange(h, ignore, mv.keys, top, top.cursor, k);
      }
    }
  }

  /**
   * Moving to a new member: the key it records agrees already, or the frame now hands
   * out its elements, starting from a first element whose check passed.
   */
  lemma NextMemberKeys(h: Heap, ignore: Member -> bool, Q: set<(Ref, Ref)>, keys: set<Key>, mv: Moved)
    requires WellFormed(h) && FrameOk(h, mv.frame) && mv.frame.cursor >= 1
    requires Positioned(h, ignore, keys, mv)
    requires var d := GetCurrentData(h, mv.frame); ElementAgrees(h, Q, d.expected, d.actual)
    ensures TopProgress(h, ignore, Q, mv.frame)
    ensures NewKeysCovered(h, Q, keys, mv.keys, mv.frame)
  {
    var v := Current(h, mv.frame);
    if v.0.Ptr? && v.1.Ptr? && !IsPrimitiveType(h[v.0.ref].typ) {
      assert ObjWellFormed(h, h[v.0.ref]) && ObjWellFormed(h, h[v.1.ref]);
    }
  }

  /**
   * What moving the top frame to a new current member or element does to the
   * invariant, once the check of the values found there has passed (`d` agrees under
   * `Q`): the frame's walked members stay settled, its element arrays keep their
   * progress, and every key it records, or was handing out elements for, agrees or is
   * still being handed out.
   */
  lemma AdvanceTopFrame(h: Heap, ignore: Member -> bool, P: set<(Ref, Ref)>, Q: set<(Ref, Ref)>,
                        keys: set<Key>, top: Frame, mv: Moved)
    requires WellFormed(h) && FrameOk(h, top) && P <= Q
    requires SettledRange(h, ignore, keys, top, 0, top.cursor)
    requires top.arrays.Some? ==> !Ignored(ignore, top.members[top.cursor - 1]) && ElementsSoFar(h, P, top)
    requires MoveNext(h, ignore, top, keys) == Ok(mv) && mv.more
    requires var d := GetCurrentData(h, mv.frame); ElementAgrees(h, Q, d.expected, d.actual)
    ensures SettledRange(h, ignore, mv.keys, mv.frame, 0, mv.frame.cursor)
    ensures TopProgress(h, ignore, Q, mv.frame)
    ensures NewKeysCovered(h, Q, keys, mv.keys, mv.frame)
    ensures OldTopCovered(h, Q, top, mv.frame)
  {
    var f := mv.frame;
    MoveNextWalks(h, ignore, top, keys);
    if top.arrays.Some? && top.index + 1 < |top.arrays.value.expected| {
      NextElementKeeps(h, P, Q, top, f);
    } else {
      NextMemberSettles(h, ignore, Q, keys, top, mv);
      NextMemberKeys(h, ignore, Q, keys, mv);
      if top.arrays.Some? {
        FinishedKeyAgrees(h, P, top);
        CompositeAgreesGrows(h, P, Q, ActiveKey(top).expectedId, ActiveKey(top).actualId);
      }
    }
  }

  /** The frames below the top keep their settled members; the new top ones have walked nothing yet. */
  lemma FramesSettledAfter(h: Heap, ignore: Member -> bool, keys: set<Key>, more: set<Key>,
                           below: seq<Frame>, f: Frame, rest: seq<Frame>)
    requires WellFormed(h) && StackOk(h, below + [f] + rest) && keys <= more
    requires forall i :: 0 <= i < |rest| ==> rest[i].cursor == 0
    requires StackOk(h, below) && FramesSettled(h, ignore, keys, below)
    requires FrameOk(h, f) && SettledRange(h, ignore, more, f, 0, f.cursor)
    ensures FramesSettled(h, ignore, more, below + [f] + rest)
  {
    var stack := below + [f] + rest;
    forall i | 0 <= i < |stack| ensures SettledRange(h, ignore, more, stack[i], 0, stack[i].cursor) {
      if i < |below| {
        SettledRangeGrows(h, ignore, keys, more, below[i], 0, below[i].cursor);
      }
    }
  }

  /** Pairs stay covered when the stack keeps its pairs and every new pair is on it. */
  lemma PairsCoveredAfter(h: Heap, ignore: Member -> bool, keys: set<Key>, more: set<Key>,
                          P: set<(Ref, Ref)>, Q: set<(Ref, Ref)>, stack: seq<Frame>, next: seq<Frame>)
    requires WellFormed(h) && keys <= more && PairsCovered(h, ignore, keys, P, stack)
    requires StackPairs(stack) <= StackPairs(next) && Q <= P + StackPairs(next)
    ensures PairsCovered(h, ignore, more, Q, next)
  {
    forall p | p in Q ensures FullySettled(h, ignore, more, p) || p in StackPairs(next) {
      if p !in StackPairs(next) {
        FullySettledGrows(h, ignore, keys, more, p);
      }
    }
  }

  /** Keys stay covered when each one the old stack was handing out, and each new one, agrees or is still handed out. */
  lemma KeysCoveredAfter(h: Heap, P: set<(Ref, Ref)>, Q: set<(Ref, Ref)>, keys: set<Key>, more: set<Key>,
                         stack: seq<Frame>, next: seq<Frame>)
    requires WellFormed(h) && StackOk(h, stack) && StackOk(h, next) && P <= Q && keys <= more
    requires KeysIn(h, keys) && KeysCovered(h, P, keys, stack)
    requires forall key :: key in more && key !in keys ==>
      key.expectedId in h && key.actualId in h &&
      (CompositeAgrees(h, Q, key.expectedId, key.actualId) || key in ActiveKeys(next))
    requires forall key :: key in ActiveKeys(stack) && key in keys ==>
      CompositeAgrees(h, Q, key.expectedId, key.actualId) || key in ActiveKeys(next)
    ensures KeysIn(h, more) && KeysCovered(h, Q, more, next)
  {
    forall key | key in keys ensures CompositeAgrees(h, Q, key.expectedId, key.actualId) || key in ActiveKeys(next) {
      if key !in ActiveKeys(stack) {
        CompositeAgreesGrows(h, P, Q, key.expectedId, key.actualId);
      }
    }
  }

  /** Element progress is kept by the frames below the top and stated for the new top ones. */
  lemma ArraysProgressAfter(h: Heap, ignore: Member -> bool, P: set<(Ref, Ref)>, Q: set<(Ref, Ref)>,
                            below: seq<Frame>, f: Frame, rest: seq<Frame>)
    requires WellFormed(h) && StackOk(h, below + [f] + rest) && P <= Q
    requires forall i :: 0 <= i < |rest| ==> rest[i].arrays.None?
    requires StackOk(h, below) && ArraysProgress(h, ignore, P, below)
    requires FrameOk(h, f) && f.arrays.Some? ==> !Ignored(ignore, f.members[f.cursor - 1]) && ElementsSoFar(h, Q, f)
    ensures ArraysProgress(h, ignore, Q, below + [f] + rest)
  {
    var stack := below + [f] + rest;
    forall i | 0 <= i < |stack| && stack[i].arrays.Some?
      ensures !Ignored(ignore, stack[i].members[stack[i].cursor - 1]) && ElementsSoFar(h, Q, stack[i])
    {
      if i < |below| {
        ElementsSoFarGrows(h, P, Q, below[i]);
      }
    }
  }

  /** Moving to a new member or element whose check passes keeps the invariant. */
  lemma AdvanceKeepsSound(h: Heap, ignore: Member -> bool, root: (Ref, Ref), s: State, below: seq<Frame>, top: Frame,
                          mv: Moved, t: State)
    requires WellFormed(h) && StackOk(h, s.stack) && s.stack == below + [top] && FrameOk(h, top)
    requires Sound(h, ignore, root, s)
    requires MoveNext(h, ignore, top, s.keys) == Ok(mv) && mv.more
    requires CheckCurrent(h, s, below, mv.frame, mv.keys) == Next(t)
    ensures StackOk(h, t.stack) && Sound(h, ignore, root, t)
  {
    var f := mv.frame;
    CheckShape(h, s, below, f, mv.keys);
    if Kept(s, below, f, t) {
      assert t.stack == below + [f] + [] && StackPairs([]) == {};
      AdvanceSound(h, ignore, root, s, t, below, top, mv, []);
    } else {
      var g := t.stack[|below| + 1];
      assert StackPairs([g]) == {PairOf(g)} by {
        assert [g][0] == g;
      }
      AdvanceSound(h, ignore, root, s, t, below, top, mv, [g]);
    }
  }

  /** The round of `AdvanceKeepsSound`, with the outcome of the check spelled out. */
  lemma AdvanceSound(h: Heap, ignore: Member -> bool, root: (Ref, Ref), s: State, t: State,
                     below: seq<Frame>, top: Frame, mv: Moved, rest: seq<Frame>)
    requires WellFormed(h) && StackOk(h, s.stack) && s.stack == below + [top] && FrameOk(h, top)
    requires Sound(h, ignore, root, s)
    requires MoveNext(h, ignore, top, s.keys) == Ok(mv) && mv.more
    requires t.keys == mv.keys && t.stack == below + [mv.frame] + rest
    requires |rest| <= 1 && t.compared == s.compared + StackPairs(rest)
    requires forall i :: 0 <= i < |rest| ==> FrameOk(h, rest[i]) && rest[i].cursor == 0 && rest[i].arrays.None?
    requires var d := GetCurrentData(h, mv.frame); ElementAgrees(h, t.compared, d.expected, d.actual)
    ensures StackOk(h, t.stack) && Sound(h, ignore, root, t)
  {
    var f := mv.frame;
    var P, Q := Related(s, root), Related(t, root);
    var d := GetCurrentData(h, f);
    BelowKeeps(h, ignore, P, s.keys, below, top);
    ElementAgreesGrows(h, t.compared, Q, d.expected, d.actual);
    AdvanceTopFrame(h, ignore, P, Q, s.keys, top, mv);
    StackAfter(h, ignore, root, s, t, below, top, f, rest, mv.keys);
  }

  /** The invariant after a round that moved the top frame from `top` to `f` and maybe pushed a fresh frame. */
  lemma StackAfter(h: Heap, ignore: Member -> bool, root: (Ref, Ref), s: State, t: State,
                   below: seq<Frame>, top: Frame, f: Frame, rest: seq<Frame>, more: set<Key>)
    requires WellFormed(h) && StackOk(h, s.stack) && Sound(h, ignore, root, s)
    requires s.stack == below + [top] && FrameOk(h, top) && FrameOk(h, f) && PairOf(f) == PairOf(top)
    requires s.keys <= more && t.keys == more && s.compared <= t.compared
    requires t.stack == below + [f] + rest
    requires |rest| <= 1 && t.compared == s.compared + StackPairs(rest)
    requires forall i :: 0 <= i < |rest| ==> FrameOk(h, rest[i]) && rest[i].cursor == 0 && rest[i].arrays.None?
    requires SettledRange(h, ignore, more, f, 0, f.cursor)
    requires TopProgress(h, ignore, Related(t, root), f)
    requires NewKeysCovered(h, Related(t, root), s.keys, more, f)
    requires OldTopCovered(h, Related(t, root), top, f)
    ensures StackOk(h, t.stack) && Sound(h, ignore, root, t)
  {
    var P, Q := Related(s, root), Related(t, root);
    BelowKeeps(h, ignore, P, s.keys, below, top);
    StackShapeAfter(h, below, top, f, rest);
    FramesSettledAfter(h, ignore, s.keys, more, below, f, rest);
    PairsCoveredAfter(h, ignore, s.keys, more, P, Q, s.stack, t.stack);
    KeysCoveredAfter(h, P, Q, s.keys, more, s.stack, t.stack);
    ArraysProgressAfter(h, ignore, P, Q, below, f, rest);
  }

  /** The frames below the top of a sound stack are a sound stack, and the top has settled what it walked. */
  lemma BelowKeeps(h: Heap, ignore: Member -> bool, P: set<(Ref, Ref)>, keys: set<Key>, below: seq<Frame>, top: Frame)
    requires WellFormed(h) && StackOk(h, below + [top])
    requires FramesSettled(h, ignore, keys, below + [top]) && ArraysProgress(h, ignore, P, below + [top])
    ensures StackOk(h, below) && FrameOk(h, top)
    ensures FramesSettled(h, ignore, keys, below) && ArraysProgress(h, ignore, P, below)
    ensures SettledRange(h, ignore, keys, top, 0, top.cursor)
    ensures top.arrays.Some? ==> !Ignored(ignore, top.members[top.cursor - 1]) && ElementsSoFar(h, P, top)
  {
    var stack := below + [top];
    assert forall i :: 0 <= i < |below| ==> stack[i] == below[i];
    assert stack[|below|] == top;
  }

  /**
   * Replacing the top frame by one for the same pair, and pushing `rest` on it, keeps
   * the stack's pairs and the keys it hands out elements for, except the old top's.
   */
  lemma StackShapeAfter(h: Heap, below: seq<Frame>, top: Frame, f: Frame, rest: seq<Frame>)
    requires WellFormed(h) && StackOk(h, below) && FrameOk(h, top) && FrameOk(h, f) && PairOf(f) == PairOf(top)
    requires |rest| <= 1 && forall i :: 0 <= i < |rest| ==> FrameOk(h, rest[i])
    ensures StackOk(h, below + [top]) && StackOk(h, below + [f] + rest)
    ensures StackPairs(below + [top]) <= StackPairs(below + [f] + rest)
    ensures StackPairs(rest) <= StackPairs(below + [f] + rest)
    ensures forall key :: key in ActiveKeys(below + [top]) ==>
      key in ActiveKeys(below + [f] + rest) || (top.arrays.Some? && key == ActiveKey(top))
    ensures f.arrays.Some? ==> ActiveKey(f) in ActiveKeys(below + [f] + rest)
  {
    PairsShapeAfter(below, top, f, rest);
    ActiveShapeAfter(below, top, f, rest);
    StackOkSnoc(h, below, top);
    StackOkSnoc(h, below, f);
    if rest == [] {
      assert below + [f] + rest == below + [f];
    } else {
      StackOkSnoc(h, below + [f], rest[0]);
      assert rest == [rest[0]];
    }
  }

  lemma ActiveShapeAfter(below: seq<Frame>, top: Frame, f: Frame, rest: seq<Frame>)
    requires |rest| <= 1
    ensures forall key :: key in ActiveKeys(below + [top]) ==>
      key in ActiveKeys(below + [f] + rest) || (Active(top) && key == ActiveKey(top))
    ensures Active(f) ==> ActiveKey(f) in ActiveKeys(below + [f] + rest)
  {
    ActiveKeysSnoc(below, f);
    ActiveKeysSnoc(below, top);
    if rest == [] {
      assert below + [f] + rest == below + [f];
    } else {
      ActiveKeysSnoc(below + [f], rest[0]);
      assert rest == [rest[0]];
    }
  }

  lemma PairsShapeAfter(below: seq<Frame>, top: Frame, f: Frame, rest: seq<Frame>)
    requires PairOf(f) == PairOf(top) && |rest| <= 1
    ensures StackPairs(below + [top]) <= StackPairs(below + [f] + rest)
    ensures StackPairs(rest) <= StackPairs(below + [f] + rest)
  {
    StackPairsSnoc(below, f);
    StackPairsSnoc(below, top);
    if rest == [] {
      assert below + [f] + rest == below + [f];
    } else {
      StackPairsSnoc(below + [f], rest[0]);
      assert rest == [rest[0]];
    }
  }

  /** Popping a frame whose members are all walked keeps the invariant. */
  lemma PopKeepsSound(h: Heap, ignore: Member -> bool, root: (Ref, Ref), s: State, below: seq<Frame>, top: Frame, mv: Moved)
    requires WellFormed(h) && StackOk(h, s.stack) && s.stack == below + [top] && FrameOk(h, top)
    requires Sound(h, ignore, root, s)
    requires MoveNext(h, ignore, top, s.keys) == Ok(mv) && !mv.more
    ensures StackOk(h, below) && Sound(h, ignore, root, s.(stack := below, keys := mv.keys))
  {
    var P := Related(s, root);
    MoveNextWalks(h, ignore, top, s.keys);
    BelowKeeps(h, ignore, P, s.keys, below, top);
    TopFinished(h, ignore, P, s.keys, top);
    PopCovered(h, ignore, P, s.keys, below, top);
  }

  /** A frame that has walked all its members leaves its pair settled and its last enumerable member agreeing. */
  lemma TopFinished(h: Heap, ignore: Member -> bool, P: set<(Ref, Ref)>, keys: set<Key>, top: Frame)
    requires WellFormed(h) && FrameOk(h, top)
    requires SettledRange(h, ignore, keys, top, 0, top.cursor)
    requires SettledRange(h, ignore, keys, top, top.cursor, |top.members|)
    requires top.arrays.Some? ==> ElementsSoFar(h, P, top) && top.index + 1 >= |top.arrays.value.expected|
    ensures FullySettled(h, ignore, keys, PairOf(top))
    ensures top.arrays.Some? ==> CompositeAgrees(h, P, ActiveKey(top).expectedId, ActiveKey(top).actualId)
  {
    if top.arrays.Some? {
      FinishedKeyAgrees(h, P, top);
    }
  }

  /** The pairs and keys a sound stack covers stay covered once its finished top frame is popped. */
  lemma PopCovered(h: Heap, ignore: Member -> bool, P: set<(Ref, Ref)>, keys: set<Key>, below: seq<Frame>, top: Frame)
    requires WellFormed(h) && StackOk(h, below) && FrameOk(h, top) && KeysIn(h, keys)
    requires StackOk(h, below + [top])
    requires PairsCovered(h, ignore, keys, P, below + [top]) && KeysCovered(h, P, keys, below + [top])
    requires FullySettled(h, ignore, keys, PairOf(top))
    requires top.arrays.Some? ==> CompositeAgrees(h, P, ActiveKey(top).expectedId, ActiveKey(top).actualId)
    ensures PairsCovered(h, ignore, keys, P, below) && KeysCovered(h, P, keys, below)
  {
    StackPairsSnoc(below, top);
    ActiveKeysSnoc(below, top);
  }

  /** Every round that does not fail keeps the invariant. */
  lemma StepKeepsSound(h: Heap, ignore: Member -> bool, root: (Ref, Ref), s: State)
    requires WellFormed(h) && StackOk(h, s.stack) && s.stack != [] && Sound(h, ignore, root, s)
    requires Step(h, ignore, s).Next?
    ensures var t := Step(h, ignore, s).state; StackOk(h, t.stack) && Sound(h, ignore, root, t)
  {
    var top, below := s.stack[|s.stack| - 1], s.stack[..|s.stack| - 1];
    SplitLast(s.stack);
    var mv := MoveNext(h, ignore, top, s.keys).value;
    if mv.more {
      AdvanceKeepsSound(h, ignore, root, s, below, top, mv, Step(h, ignore, s).state);
    } else {
      PopKeepsSound(h, ignore, root, s, below, top, mv);
    }
  }

  // ---------------------------------------------------------------------------------
  // Under a relation that makes the roots equal, no round fails

  /** Under `R`, the values a frame moves to agree, when the frame's pair is in `R`. */
  lemma CurrentAgreesUnder(h: Heap, ignore: Member -> bool, R: set<(Ref, Ref)>, keys: set<Key>, top: Frame, mv: Moved)
    requires WellFormed(h) && FrameOk(h, top) && PairAgrees(h, ignore, R, top.expected, top.actual)
    requires top.arrays.Some? ==> !Ignored(ignore, top.members[top.cursor - 1])
    requires MoveNext(h, ignore, top, keys) == Ok(mv) && mv.more
    ensures var d := GetCurrentData(h, mv.frame); ElementAgrees(h, R, d.expected, d.actual)
  {
    var f := mv.frame;
    MoveNextWalks(h, ignore, top, keys);
    if top.arrays.Some? && top.index + 1 < |top.arrays.value.expected| {
      var v := Current(h, top);
      assert MemberAgrees(h, R, v.0, v.1);
      assert ArraysOfCurrent(h, top);
      assert ObjWellFormed(h, h[v.0.ref]) && ObjWellFormed(h, h[v.1.ref]);
      assert ItemsAgree(h, R, h[v.0.ref].items, h[v.1.ref].items);
    } else {
      assert Positioned(h, ignore, keys, mv);
      var v := Current(h, f);
      assert MemberAgrees(h, R, v.0, v.1);
      if v.0.Ptr? && v.1.Ptr? && !IsPrimitiveType(h[v.0.ref].typ) {
        assert ObjWellFormed(h, h[v.0.ref]) && ObjWellFormed(h, h[v.1.ref]);
      }
    }
  }

  /** Under a relation `R` in which the current values agree, the check passes and pushes only a pair of `R`. */
  lemma CheckUnder(h: Heap, ignore: Member -> bool, R: set<(Ref, Ref)>, s: State, below: seq<Frame>, f: Frame, keys: set<Key>)
    requires WellFormed(h) && FrameOk(h, f) && f.cursor >= 1 && Simulation(h, ignore, R)
    requires var d := GetCurrentData(h, f); ElementAgrees(h, R, d.expected, d.actual)
    ensures CheckCurrent(h, s, below, f, keys).Next?
    ensures var t := CheckCurrent(h, s, below, f, keys).state;
      Pushed(h, s, below, f, t) ==> PairOf(t.stack[|below| + 1]) in R
  {
    var d := GetCurrentData(h, f);
    if d.expected.Ptr? && d.actual.Ptr? && d.expected != d.actual && !IsPrimitiveType(h[d.expected.ref].typ) {
      assert PairAgrees(h, ignore, R, d.expected.ref, d.actual.ref);
    }
  }

  /** The invariant's promise that frames on elements are on members that are not ignored. */
  lemma OnMembersNotIgnored(h: Heap, ignore: Member -> bool, root: (Ref, Ref), s: State, below: seq<Frame>, top: Frame)
    requires WellFormed(h) && StackOk(h, s.stack) && s.stack == below + [top] && Sound(h, ignore, root, s)
    ensures FrameOk(h, top) && (top.arrays.Some? ==> !Ignored(ignore, top.members[top.cursor - 1]))
  {
    assert s.stack[|below|] == top;
  }

  /** The members of a pair that agrees under `R` do not clash. */
  lemma NoClashUnder(h: Heap, ignore: Member -> bool, R: set<(Ref, Ref)>, f: Frame)
    requires WellFormed(h) && FrameOk(h, f) && PairAgrees(h, ignore, R, f.expected, f.actual)
    ensures NoClashFrom(h, ignore, f, f.cursor)
  {
    forall k | f.cursor <= k < |f.members| && !Ignored(ignore, f.members[k])
      ensures var v := ReadMember(h, f.expected, f.actual, k); !MemberClashes(h, v.0, v.1)
    {
      var v := ReadMember(h, f.expected, f.actual, k);
      ClashDisagrees(h, R, v.0, v.1);
    }
  }

  /**
   * Completeness of a round: when some simulation relates every pair on the stack, the
   * round does not fail, and the stack it leaves holds related pairs only.
   */
  lemma StepUnderSimulation(h: Heap, ignore: Member -> bool, root: (Ref, Ref), s: State, R: set<(Ref, Ref)>)
    requires WellFormed(h) && StackOk(h, s.stack) && s.stack != [] && Sound(h, ignore, root, s)
    requires Simulation(h, ignore, R) && StackPairs(s.stack) <= R
    ensures var o := Step(h, ignore, s); o.Next? && StackPairs(o.state.stack) <= R
  {
    var top, below := s.stack[|s.stack| - 1], s.stack[..|s.stack| - 1];
    SplitLast(s.stack);
    OnMembersNotIgnored(h, ignore, root, s, below, top);
    StackPairsSnoc(below, top);
    assert PairAgrees(h, ignore, R, top.expected, top.actual);
    NoClashUnder(h, ignore, R, top);
    MoveNextFailsOnClash(h, ignore, top, s.keys);
    var mv := MoveNext(h, ignore, top, s.keys).value;
    if mv.more {
      var f := mv.frame;
      CurrentAgreesUnder(h, ignore, R, s.keys, top, mv);
      CheckUnder(h, ignore, R, s, below, f, mv.keys);
      CheckShape(h, s, below, f, mv.keys);
      var t := CheckCurrent(h, s, below, f, mv.keys).state;
      StackPairsSnoc(below, f);
      if Pushed(h, s, below, f, t) {
        StackPairsSnoc(below + [f], t.stack[|below| + 1]);
      }
    }
  }

  /**
   * Completeness of a round, for every relation at once: under a simulation that
   * relates every pair on the stack, the round does not fail and keeps the stack related.
   */
  lemma StepComplete(h: Heap, ignore: Member -> bool, root: (Ref, Ref), s: State, R: set<(Ref, Ref)>)
    requires WellFormed(h) && StackOk(h, s.stack) && s.stack != [] && Sound(h, ignore, root, s)
    ensures Simulation(h, ignore, R) && StackPairs(s.stack) <= R ==>
      var o := Step(h, ignore, s); o.Next? && StackPairs(o.state.stack) <= R
  {
    if Simulation(h, ignore, R) && StackPairs(s.stack) <= R {
      StepUnderSimulation(h, ignore, root, s, R);
    }
  }

  // ---------------------------------------------------------------------------------
  // Start and end of the walk

  /** The state the loop starts from: the roots' frame alone, nothing recorded, no hook called. */
  function Initial(h: Heap, ignore: Member -> bool, e: Ref, a: Ref): (s: State)
    requires WellFormed(h) && e in h && a in h && h[e].typ == h[a].typ
    ensures StackOk(h, s.stack) && StackPairs(s.stack) == {(e, a)}
    ensures Sound(h, ignore, (e, a), s) && s.trace == [] && s.pushes == [] && s.compared == {}
  {
    var f := NewFrame(h, e, a).value;
    assert StackPairs([f]) == {(e, a)} by {
      assert [f][0] == f;
    }
    State([f], {}, {}, [], [])
  }

  /**
   * Soundness of a passing walk: once the stack is empty, every compared pair, the
   * roots included, agrees member by member with composite members again compared:
   * the compared pairs form a simulation.
   */
  lemma EmptyStackSimulates(h: Heap, ignore: Member -> bool, root: (Ref, Ref), s: State)
    requires WellFormed(h) && s.stack == [] && Sound(h, ignore, root, s)
    ensures Simulation(h, ignore, Related(s, root))
  {
    var P := Related(s, root);
    assert StackPairs([]) == {};
    forall p | p in P ensures PairAgrees(h, ignore, P, p.0, p.1) {
      assert FullySettled(h, ignore, s.keys, p);
      forall k | 0 <= k < |Members(h[p.0].typ)| && !Ignored(ignore, Members(h[p.0].typ)[k])
        ensures var v := ReadMember(h, p.0, p.1, k); MemberAgrees(h, P, v.0, v.1)
      {
        assert MemberSettled(h, ignore, s.keys, p.0, p.1, k);
      }
    }
  }
}

=== FILE: validator_measure.dfy ===
/**
 * Why the main loop of the equality validator stops, and what it records on the way:
 * each round either records a new pair of objects, of which a heap has finitely many,
 * or leaves the pairs as they are and shrinks the work left on the stack. Each pair is
 * pushed at most once, so the stack never holds more frames than there are pairs.
 */
module ValidatorMeasure {
  import opened ObjectGraph
  import opened ValidationFrame
  import opened ValidatorStep

  /** Every pair of objects of the heap. */
  ghost function AllPairs(h: Heap): set<(Ref, Ref)> {
    set e, a | e in h && a in h :: (e, a)
  }

  /** A bound above the element count of every object in the heap. */
  ghost function ItemsBound(h: Heap): (b: nat)
    ensures forall r :: r in h ==> |h[r].items| < b
    decreases |h|
  {
    if h == map[] then 0
    else
      var r :| r in h;
      var rest := h - {r};
      assert rest.Keys == h.Keys - {r};
      var b := ItemsBound(rest);
      assert forall r' :: r' in h && r' != r ==> r' in rest && rest[r'] == h[r'];
      if |h[r].items| < b then b else |h[r].items| + 1
  }

  /** The members of a frame not yet reached. */
  function MembersLeft(f: Frame): nat {
    if f.cursor <= |f.members| then |f.members| - f.cursor else 0
  }

  /** The elements of a frame not yet handed out. */
  function ElementsLeft(f: Frame): nat {
    if f.arrays.Some? && 0 <= f.index < |f.arrays.value.expected| then |f.arrays.value.expected| - 1 - f.index else 0
  }

  /** The work left in a frame: `b` per member not yet reached, plus the elements not yet handed out. */
  function FrameWork(f: Frame, b: nat): nat {
    MembersLeft(f) * b + ElementsLeft(f)
  }

  /** The work left on a stack: one for popping each frame, plus each frame's own work. */
  function Work(stack: seq<Frame>, b: nat): nat
    decreases |stack|
  {
    if stack == [] then 0
    else Work(stack[..|stack| - 1], b) + 1 + FrameWork(stack[|stack| - 1], b)
  }

  lemma WorkSnoc(stack: seq<Frame>, f: Frame, b: nat)
    ensures Work(stack + [f], b) == Work(stack, b) + 1 + FrameWork(f, b)
  {
    assert (stack + [f])[..|stack|] == stack;
  }

  /** Fewer members left outweighs any element count below `b`. */
  lemma {:induction false} WeightedLess(mg: nat, mf: nat, eg: nat, ef: nat, b: nat)
    requires mg < mf && eg < b
    ensures mg * b + eg < mf * b + ef
    decreases mf
  {
    if mf > mg + 1 {
      WeightedLess(mg, mf - 1, eg, ef, b);
    }
    assert mf * b == (mf - 1) * b + b;
  }

  /** `MoveNext` to a current member or element leaves the frame with less work, as long as `b` bounds every element count. */
  lemma MoveNextShrinks(h: Heap, ignore: Member -> bool, f: Frame, keys: set<Key>)
    requires WellFormed(h) && FrameOk(h, f)
    requires MoveNext(h, ignore, f, keys).Ok? && MoveNext(h, ignore, f, keys).value.more
    ensures FrameWork(MoveNext(h, ignore, f, keys).value.frame, ItemsBound(h)) < FrameWork(f, ItemsBound(h))
  {
    var b := ItemsBound(h);
    var g := MoveNext(h, ignore, f, keys).value.frame;
    MoveNextWalks(h, ignore, f, keys);
    if !(f.arrays.Some? && f.index + 1 < |f.arrays.value.expected|) {
      assert MembersLeft(g) < MembersLeft(f);
      if g.arrays.Some? {
        var v := Current(h, g);
        assert ArraysOfCurrent(h, g);
        assert |g.arrays.value.expected| == |h[v.0.ref].items| < b;
      }
      assert ElementsLeft(g) < b;
      WeightedLess(MembersLeft(g), MembersLeft(f), ElementsLeft(g), ElementsLeft(f), b);
    } else {
      assert MembersLeft(g) == MembersLeft(f) && ElementsLeft(g) < ElementsLeft(f);
    }
  }

  /** The pairs recorded so far are pairs of the heap, and the first measure stays a natural number. */
  ghost predicate InHeap(h: Heap, s: State) {
    s.compared <= AllPairs(h)
  }

  /**
   * Every round that does not fail either records a new pair of the heap or keeps the
   * recorded pairs and shrinks the work on the stack.
   */
  lemma StepDecreases(h: Heap, ignore: Member -> bool, s: State)
    requires WellFormed(h) && StackOk(h, s.stack) && s.stack != [] && InHeap(h, s)
    requires Step(h, ignore, s).Next?
    ensures var t := Step(h, ignore, s).state;
      && InHeap(h, t)
      && (|| |AllPairs(h) - t.compared| < |AllPairs(h) - s.compared|
          || (t.compared == s.compared && Work(t.stack, ItemsBound(h)) < Work(s.stack, ItemsBound(h))))
  {
    var top, below := s.stack[|s.stack| - 1], s.stack[..|s.stack| - 1];
    SplitLast(s.stack);
    var mv := MoveNext(h, ignore, top, s.keys).value;
    if mv.more {
      MoveNextShrinks(h, ignore, top, s.keys);
      CheckShape(h, s, below, mv.frame, mv.keys);
      AdvanceDecreases(h, s, below, top, mv.frame, Step(h, ignore, s).state);
    } else {
      WorkSnoc(below, top, ItemsBound(h));
    }
  }

  /** A round that replaces the top frame by one with less work, and maybe pushes a frame for a new pair. */
  lemma AdvanceDecreases(h: Heap, s: State, below: seq<Frame>, top: Frame, f: Frame, t: State)
    requires WellFormed(h) && FrameOk(h, f) && f.cursor >= 1 && InHeap(h, s) && s.stack == below + [top]
    requires FrameWork(f, ItemsBound(h)) < FrameWork(top, ItemsBound(h))
    requires Kept(s, below, f, t) || Pushed(h, s, below, f, t)
    ensures InHeap(h, t)
    ensures || |AllPairs(h) - t.compared| < |AllPairs(h) - s.compared|
            || (t.compared == s.compared && Work(t.stack, ItemsBound(h)) < Work(s.stack, ItemsBound(h)))
  {
    if Kept(s, below, f, t) {
      KeptShrinks(below, top, f, ItemsBound(h));
    } else {
      PushedShrinks(h, s, below, f, t);
    }
  }

  /** A round that pushes a frame records a pair of the heap not recorded before. */
  lemma PushedShrinks(h: Heap, s: State, below: seq<Frame>, f: Frame, t: State)
    requires WellFormed(h) && FrameOk(h, f) && f.cursor >= 1 && InHeap(h, s)
    requires Pushed(h, s, below, f, t)
    ensures InHeap(h, t) && |AllPairs(h) - t.compared| < |AllPairs(h) - s.compared|
  {
    var g := t.stack[|below| + 1];
    NewPairShrinks(AllPairs(h), s.compared, (g.expected, g.actual));
  }

  /** Replacing the top frame by one with less work leaves less work on the stack. */
  lemma KeptShrinks(below: seq<Frame>, top: Frame, f: Frame, b: nat)
    requires FrameWork(f, b) < FrameWork(top, b)
    ensures Work(below + [f], b) < Work(below + [top], b)
  {
    WorkSnoc(below, top, b);
    WorkSnoc(below, f, b);
  }

  /** Recording a pair of `all` that was not recorded before leaves fewer pairs unrecorded. */
  lemma NewPairShrinks<T>(all: set<T>, done: set<T>, p: T)
    requires p in all && p !in done
    ensures |all - (done + {p})| < |all - done|
  {
    assert all - done == (all - (done + {p})) + {p};
  }

  predicate Distinct<T(==)>(xs: seq<T>) {
    forall i, j :: 0 <= i < j < |xs| ==> xs[i] != xs[j]
  }

  /**
   * The pushes are the recorded pairs, each once, and every frame but the root's was
   * pushed for one of them.
   */
  predicate Bookkept(s: State) {
    && Distinct(s.pushes)
    && (forall i :: 0 <= i < |s.pushes| ==> s.pushes[i] in s.compared)
    && (forall p :: p in s.compared ==> p in s.pushes)
    && |s.compared| == |s.pushes|
    && |s.stack| <= |s.pushes| + 1
  }

  /** A round pushes a pair only when it was not pushed before. */
  lemma StepKeepsBookkept(h: Heap, ignore: Member -> bool, s: State)
    requires WellFormed(h) && StackOk(h, s.stack) && s.stack != [] && Bookkept(s)
    requires Step(h, ignore, s).Next?
    ensures var t := Step(h, ignore, s).state; Bookkept(t)
  {
    var top, below := s.stack[|s.stack| - 1], s.stack[..|s.stack| - 1];
    var mv := MoveNext(h, ignore, top, s.keys).value;
    if mv.more {
      CheckShape(h, s, below, mv.frame, mv.keys);
      CheckKeepsBookkept(h, s, below, mv.frame, CheckCurrent(h, s, below, mv.frame, mv.keys).state);
    }
  }

  /** The checks of one member push a pair only when it was not pushed before. */
  lemma CheckKeepsBookkept(h: Heap, s: State, below: seq<Frame>, f: Frame, t: State)
    requires WellFormed(h) && FrameOk(h, f) && f.cursor >= 1 && Bookkept(s) && |s.stack| == |below| + 1
    requires Kept(s, below, f, t) || Pushed(h, s, below, f, t)
    ensures Bookkept(t)
  {
    if Pushed(h, s, below, f, t) {
      var p := t.pushes[|s.pushes|];
      assert t.pushes == s.pushes + [p] && p !in s.compared;
      assert forall i :: 0 <= i < |s.pushes| ==> t.pushes[i] == s.pushes[i];
    }
  }
}

=== FILE: validator_step.dfy ===
/**
 * One round of the main loop of `ValidateObjectsAreEqualAsync`: the frame on top of the
 * stack moves to its next member or element, and the values found there are checked,
 * compared with `Equals`, or pushed as a new frame. The hooks the caller passes in are
 * recorded as a trace of the calls they receive.
 */
module ValidatorStep {
  import opened Base
  import opened ObjectGraph
  import opened ValidationFrame

  /** A call of a hook: member validation starting, member validation completed, or the failure callback. */
  datatype Event = Starting(data: Data) | Completed(data: Data) | Failed(expected: Value, actual: Value)

  /**
   * The state of a validation: the frame stack (top last), the compared-member keys, the
   * expected/actual pairs recorded before a frame is pushed, those pairs in the order
   * they were pushed, and the hook calls so far.
   */
  datatype State = State(stack: seq<Frame>, keys: set<Key>, compared: set<(Ref, Ref)>,
                         pushes: seq<(Ref, Ref)>, trace: seq<Event>)

  /** The outcome of one round: the next state, or the failure with the hook calls made up to it. */
  datatype Stepped = Next(state: State) | Fail(mismatch: Mismatch, trace: seq<Event>)

  predicate StackOk(h: Heap, stack: seq<Frame>)
    requires WellFormed(h)
  {
    forall i :: 0 <= i < |stack| ==> FrameOk(h, stack[i])
  }

  /**
   * The hook calls come in starting/completed pairs for the same data; when the failure
   * callback was called (`reported`), it is the last call, or the one between the last
   * member's starting and completed hooks.
   */
  predicate HooksBalanced(t: seq<Event>, reported: bool)
    decreases |t|
  {
    if t == [] then !reported
    else if |t| == 1 then reported && t[0].Failed?
    else if t[0].Starting? && t[1] == Completed(t[0].data) then HooksBalanced(t[2..], reported)
    else reported && |t| == 3 && t[0].Starting? && t[1].Failed? && t[2] == Completed(t[0].data)
  }

  /** The failures that call the failure callback before they are raised. */
  predicate Reported(m: Mismatch) {
    m.RootNullness? || m.MemberNullness? || m.ValuesDiffer?
  }

  /** The hook calls for a member whose checks passed. */
  function Checked(d: Data): seq<Event> {
    [Starting(d), Completed(d)]
  }

  /**
   * The checks of the values the top frame `f` is on, between the starting and the
   * completed hook: differing nullness fails; two nulls or one object pass;
   * primitive-classified values must be `Equals`; a composite pair is pushed as a new
   * frame unless it was pushed before. The completed hook is called on every path,
   * and the failure callback, when a failure reports, before it.
   */
  function CheckCurrent(h: Heap, s: State, below: seq<Frame>, f: Frame, keys: set<Key>): (o: Stepped)
    requires WellFormed(h) && FrameOk(h, f) && f.cursor >= 1
    ensures var d := GetCurrentData(h, f);
      o.Next? ==> o.state.trace == s.trace + Checked(d)
    ensures var d := GetCurrentData(h, f);
      o.Fail? ==> if Reported(o.mismatch) then o.trace == s.trace + [Starting(d), Failed(d.expected, d.actual), Completed(d)]
                  else o.trace == s.trace + Checked(d)
    ensures o.Next? ==> o.state.keys == keys
    ensures o.Fail? ==> o.mismatch.ItemNullness? || o.mismatch.ValuesDiffer? || o.mismatch.ParentTypes?
  {
    var d := GetCurrentData(h, f);
    var x, y := d.expected, d.actual;
    var stack := below + [f];
    if x.Null? != y.Null? then Fail(ItemNullness, s.trace + Checked(d))
    else if x.Null? || x == y then Next(State(stack, keys, s.compared, s.pushes, s.trace + Checked(d)))
    else if IsPrimitiveType(h[x.ref].typ) then
      if ValueEquals(h, x.ref, y.ref) then Next(State(stack, keys, s.compared, s.pushes, s.trace + Checked(d)))
      else Fail(ValuesDiffer(Display(h[x.ref]), Display(h[y.ref])), s.trace + [Starting(d), Failed(x, y), Completed(d)])
    else if (x.ref, y.ref) in s.compared then Next(State(stack, keys, s.compared, s.pushes, s.trace + Checked(d)))
    else
      match NewFrame(h, x.ref, y.ref)
      case Err(m) => Fail(m, s.trace + Checked(d))
      case Ok(g) =>
        Next(State(stack + [g], keys, s.compared + {(x.ref, y.ref)}, s.pushes + [(x.ref, y.ref)], s.trace + Checked(d)))
  }

  /**
   * A check that passes accepts the current values under the pairs it leaves recorded,
   * and either keeps the frame on top or pushes a fresh frame for a new pair.
   */
  lemma CheckShape(h: Heap, s: State, below: seq<Frame>, f: Frame, keys: set<Key>)
    requires WellFormed(h) && FrameOk(h, f) && f.cursor >= 1
    ensures var o := CheckCurrent(h, s, below, f, keys);
      o.Next? ==> var d := GetCurrentData(h, f); ElementAgrees(h, o.state.compared, d.expected, d.actual)
    ensures var o := CheckCurrent(h, s, below, f, keys);
      o.Next? ==> Kept(s, below, f, o.state) || Pushed(h, s, below, f, o.state)
  {
  }

  /** A passing check that pushes nothing leaves the frame on top and the pairs as they were. */
  predicate Kept(s: State, below: seq<Frame>, f: Frame, t: State) {
    t.stack == below + [f] && t.compared == s.compared && t.pushes == s.pushes
  }

  /**
   * A passing check that pushes: the current values are two distinct composite objects
   * not compared before, and a fresh frame for them goes on top of `f`.
   */
  predicate Pushed(h: Heap, s: State, below: seq<Frame>, f: Frame, t: State)
    requires WellFormed(h) && FrameOk(h, f) && f.cursor >= 1
  {
    var d := GetCurrentData(h, f);
    && d.expected.Ptr? && d.actual.Ptr? && d.expected != d.actual
    && !IsPrimitiveType(h[d.expected.ref].typ)
    && var p := (d.expected.ref, d.actual.ref);
    && p !in s.compared
    && |t.stack| == |below| + 2 && t.stack == below + [f] + [t.stack[|below| + 1]]
    && FrameOk(h, t.stack[|below| + 1]) && (t.stack[|below| + 1].expected, t.stack[|below| + 1].actual) == p
    && t.stack[|below| + 1].cursor == 0 && t.stack[|below| + 1].arrays.None?
    && t.compared == s.compared + {p} && t.pushes == s.pushes + [p]
  }

  /**
   * One round of the loop: `MoveNext` on the top frame; a frame with no member left is
   * popped, a failure of `MoveNext` is raised before any hook of the member is called.
   */
  function Step(h: Heap, ignore: Member -> bool, s: State): (o: Stepped)
    requires WellFormed(h) && StackOk(h, s.stack) && s.stack != []
  {
    var top := s.stack[|s.stack| - 1];
    var below := s.stack[..|s.stack| - 1];
    match MoveNext(h, ignore, top, s.keys)
    case Err(m) =>
      Fail(m, s.trace + if m.MemberNullness? then [Failed(m.expected, m.actual)] else [])
    case Ok(moved) =>
      if !moved.more then Next(s.(stack := below, keys := moved.keys))
      else CheckCurrent(h, s, below, moved.frame, moved.keys)
  }

  /** The failures raised inside the main loop, as opposed to those of the root checks and the stack limit. */
  predicate RoundFailure(m: Mismatch) {
    !(m.RootNullness? || m.RootTypes? || m.StackTooDeep?)
  }

  /** A round fails only with a failure of `MoveNext` or of a member check. */
  lemma StepFailure(h: Heap, ignore: Member -> bool, s: State)
    requires WellFormed(h) && StackOk(h, s.stack) && s.stack != []
    ensures var o := Step(h, ignore, s); o.Fail? ==> RoundFailure(o.mismatch)
  {
  }

  /** A non-empty stack is the frames below its top, and its top. */
  lemma SplitLast<T>(xs: seq<T>)
    requires xs != []
    ensures xs == xs[..|xs| - 1] + [xs[|xs| - 1]]
  {
  }

  /** A balanced run of hook calls followed by another keeps them balanced. */
  lemma {:induction false} BalancedAppend(t: seq<Event>, u: seq<Event>, reported: bool)
    requires HooksBalanced(t, false) && HooksBalanced(u, reported)
    ensures HooksBalanced(t + u, reported)
    decreases |t|
  {
    if t == [] {
      assert t + u == u;
    } else {
      assert |t| >= 2 && t[0].Starting? && t[1] == Completed(t[0].data);
      BalancedAppend(t[2..], u, reported);
      assert (t + u)[2..] == t[2..] + u;
      assert (t + u)[0] == t[0] && (t + u)[1] == t[1];
    }
  }

  /** Every starting hook is for a member that is not ignored. */
  predicate StartsNotIgnored(ignore: Member -> bool, t: seq<Event>) {
    forall i :: 0 <= i < |t| && t[i].Starting? ==> !Ignored(ignore, t[i].data.member)
  }

  lemma StartsAppend(ignore: Member -> bool, t: seq<Event>, u: seq<Event>)
    requires StartsNotIgnored(ignore, t) && StartsNotIgnored(ignore, u)
    ensures StartsNotIgnored(ignore, t + u)
  {
    forall i | 0 <= i < |t + u| && (t + u)[i].Starting? ensures !Ignored(ignore, (t + u)[i].data.member) {
      if i >= |t| {
        assert (t + u)[i] == u[i - |t|];
      }
    }
  }

  lemma StartsOfMember(ignore: Member -> bool, t: seq<Event>, d: Data)
    requires StartsNotIgnored(ignore, t) && !Ignored(ignore, d.member)
    ensures StartsNotIgnored(ignore, t + Checked(d))
    ensures StartsNotIgnored(ignore, t + [Starting(d), Failed(d.expected, d.actual), Completed(d)])
  {
    StartsAppend(ignore, t, Checked(d));
    StartsAppend(ignore, t, [Starting(d), Failed(d.expected, d.actual), Completed(d)]);
  }
}

=== FILE: values_list.dfy ===
/**
 * The text form of a recorded list of random numbers: the `Values` attribute written by
 * `string.Join(",", numbers)` and read back with `Split(',')` and `int.TryParse` on
 * every piece.
 */
module ValuesList {
  import opened Base

  predicate IsDigit(c: char) {
    '0' <= c <= '9'
  }

  predicate AllDigits(s: string) {
    forall i :: 0 <= i < |s| ==> IsDigit(s[i])
  }

  function DigitChar(d: nat): (c: char)
    requires d < 10
    ensures IsDigit(c) && c as int - '0' as int == d
  {
    (d + '0' as int) as char
  }

  /** The decimal digits of n, without leading zeros. */
  function NatText(n: nat): (s: string)
    ensures s != [] && AllDigits(s)
  {
    if n < 10 then [DigitChar(n)] else NatText(n / 10) + [DigitChar(n % 10)]
  }

  /** The value of a string of decimal digits. */
  function DigitsValue(s: string): nat
    requires AllDigits(s)
  {
    if s == [] then 0 else 10 * DigitsValue(s[..|s| - 1]) + (s[|s| - 1] as int - '0' as int)
  }

  lemma {:induction false} DigitsValueOfNatText(n: nat)
    ensures DigitsValue(NatText(n)) == n
  {
    if n >= 10 {
      var s := NatText(n);
      assert s[..|s| - 1] == NatText(n / 10);
      DigitsValueOfNatText(n / 10);
    }
  }

  /** `Int32.ToString()`: a minus sign for negative numbers, then the digits of the magnitude. */
  function Int32Text(n: int): (s: string)
    ensures s != [] && (s[0] == '-' <==> n < 0)
    ensures n < 0 ==> AllDigits(s[1..]) && s[1..] != []
    ensures n >= 0 ==> AllDigits(s)
  {
    if n < 0 then "-" + NatText(-n) else NatText(n)
  }

  /** The white space `int.TryParse` allows around a number: U+0009 to U+000D and the space. */
  predicate IsNumberWhite(c: char) {
    c == ' ' || '\U{0009}' <= c <= '\U{000D}'
  }

  predicate AllNumberWhite(s: string) {
    forall i :: 0 <= i < |s| ==> IsNumberWhite(s[i])
  }

  /** An optional sign followed by at least one decimal digit, and the number it denotes. */
  ghost predicate SignedDigits(t: string, v: int) {
    exists sign, digits :: t == sign + digits && (sign == "" || sign == "-" || sign == "+") &&
      digits != [] && AllDigits(digits) && v == (if sign == "-" then -(DigitsValue(digits) as int) else DigitsValue(digits) as int)
  }

  /** The texts of the integer number style and the numbers they denote: a signed number with white space around it. */
  ghost predicate IsNumberText(text: string, v: int) {
    exists lead, body, trail :: text == lead + body + trail && AllNumberWhite(lead) && AllNumberWhite(trail) && SignedDigits(body, v)
  }

  function SkipLeadingWhite(s: string): (r: string)
    ensures |r| <= |s| && r == s[|s| - |r|..]
    ensures AllNumberWhite(s[..|s| - |r|])
    ensures r == [] || !IsNumberWhite(r[0])
  {
    if s != [] && IsNumberWhite(s[0]) then
      var r := SkipLeadingWhite(s[1..]);
      assert AllNumberWhite(s[..|s| - |r|]) by {
        forall i | 0 < i < |s| - |r| ensures IsNumberWhite(s[i]) {
          assert s[1..][..|s| - 1 - |r|][i - 1] == s[i];
        }
      }
      r
    else s
  }

  function SkipTrailingWhite(s: string): (r: string)
    ensures |r| <= |s| && r == s[..|r|]
    ensures AllNumberWhite(s[|r|..])
    ensures r == [] || !IsNumberWhite(r[|r| - 1])
  {
    if s != [] && IsNumberWhite(s[|s| - 1]) then
      var r := SkipTrailingWhite(s[..|s| - 1]);
      assert AllNumberWhite(s[|r|..]) by {
        forall i | |r| <= i < |s| - 1 ensures IsNumberWhite(s[i]) {
          assert s[..|s| - 1][|r|..][i - |r|] == s[i];
        }
      }
      r
    else s
  }

  /**
   * `int.TryParse` with the integer number style: optional surrounding white space,
   * an optional leading sign, then at least one decimal digit; the value must fit
   * in 32 bits. `None` is a failed parse.
   */
  function ParseInt32(text: string): (r: Option<int>)
    ensures r.Some? ==> IsInt32(r.value)
  {
    ParseSigned(SkipTrailingWhite(SkipLeadingWhite(text)))
  }

  /**
   * A text parses to v exactly when it is a signed number with white space around it
   * that denotes v, and v fits in 32 bits.
   */
  lemma ParseInt32Iff(text: string, v: int)
    ensures ParseInt32(text) == Some(v) <==> IsInt32(v) && IsNumberText(text, v)
  {
    ParseInt32Sound(text);
    if IsInt32(v) && IsNumberText(text, v) {
      ParseInt32Complete(text, v);
    }
  }

  /** A sign, if any, followed by the digits; the value must fit in 32 bits. */
  function ParseSigned(t: string): (r: Option<int>)
    ensures r.Some? ==> IsInt32(r.value)
  {
    var digits := if t != [] && (t[0] == '-' || t[0] == '+') then t[1..] else t;
    if digits == [] || !AllDigits(digits) then None
    else
      var magnitude: int := DigitsValue(digits);
      var v := if t[0] == '-' then -magnitude else magnitude;
      if IsInt32(v) then Some(v) else None
  }

  lemma ParseInt32Sound(text: string)
    ensures var r := ParseSigned(SkipTrailingWhite(SkipLeadingWhite(text)));
      r.Some? ==> IsNumberText(text, r.value)
  {
    var front := SkipLeadingWhite(text);
    var t := SkipTrailingWhite(front);
    var r := ParseSigned(t);
    if r.Some? {
      ParseSignedSound(t);
      SoundOfParts(text, front, t, r.value);
    }
  }

  lemma SoundOfParts(text: string, front: string, t: string, v: int)
    requires |front| <= |text| && front == text[|text| - |front|..] && AllNumberWhite(text[..|text| - |front|])
    requires |t| <= |front| && t == front[..|t|] && AllNumberWhite(front[|t|..])
    requires SignedDigits(t, v)
    ensures IsNumberText(text, v)
  {
    SkippedParts(text, front, t);
    NumberTextOfParts(text, text[..|text| - |front|], t, front[|t|..], v);
  }

  /** A text is what precedes its suffix `front`, then the prefix `t` of `front`, then the rest of `front`. */
  lemma SkippedParts(text: string, front: string, t: string)
    requires |front| <= |text| && front == text[|text| - |front|..] && |t| <= |front| && t == front[..|t|]
    ensures text == text[..|text| - |front|] + t + front[|t|..]
  {
    SplitAt(text, |text| - |front|);
    SplitAt(front, |t|);
  }

  lemma NumberTextOfParts(text: string, lead: string, body: string, trail: string, v: int)
    requires text == lead + body + trail && AllNumberWhite(lead) && AllNumberWhite(trail) && SignedDigits(body, v)
    ensures IsNumberText(text, v)
  {
  }

  lemma SplitAt(s: string, k: nat)
    requires k <= |s|
    ensures s == s[..k] + s[k..]
  {
  }

  lemma ParseSignedSound(t: string)
    ensures ParseSigned(t).Some? ==> SignedDigits(t, ParseSigned(t).value)
  {
    if ParseSigned(t).Some? {
      var sign := if t[0] == '-' || t[0] == '+' then t[..1] else "";
      var digits := t[|sign|..];
      assert t == sign + digits;
    }
  }

  lemma ParseInt32Complete(text: string, v: int)
    requires IsInt32(v) && IsNumberText(text, v)
    ensures ParseSigned(SkipTrailingWhite(SkipLeadingWhite(text))) == Some(v)
  {
    var lead, body, trail :| text == lead + body + trail && AllNumberWhite(lead) && AllNumberWhite(trail) && SignedDigits(body, v);
    ParseSignedComplete(body, v);
    var rest := body + trail;
    assert rest[0] == body[0];
    assert text == lead + rest;
    SkipLeadingWhiteOf(lead, rest);
    SkipTrailingWhiteOf(body, trail);
  }

  lemma ParseSignedComplete(body: string, v: int)
    requires IsInt32(v) && SignedDigits(body, v)
    ensures body != [] && !IsNumberWhite(body[0]) && !IsNumberWhite(body[|body| - 1])
    ensures ParseSigned(body) == Some(v)
  {
    var sign, digits :| body == sign + digits && (sign == "" || sign == "-" || sign == "+") &&
      digits != [] && AllDigits(digits) && v == (if sign == "-" then -(DigitsValue(digits) as int) else DigitsValue(digits) as int);
    assert body[|body| - 1] == digits[|digits| - 1];
    if sign == "" {
      assert body == digits;
    } else {
      assert body[0] == sign[0];
      assert body[1..] == digits;
    }
  }

  lemma {:induction false} SkipLeadingWhiteOf(lead: string, rest: string)
    requires AllNumberWhite(lead) && rest != [] && !IsNumberWhite(rest[0])
    ensures SkipLeadingWhite(lead + rest) == rest
    decreases |lead|
  {
    if lead == [] {
      assert lead + rest == rest;
    } else {
      assert (lead + rest)[1..] == lead[1..] + rest;
      SkipLeadingWhiteOf(lead[1..], rest);
    }
  }

  lemma {:induction false} SkipTrailingWhiteOf(rest: string, trail: string)
    requires AllNumberWhite(trail) && rest != [] && !IsNumberWhite(rest[|rest| - 1])
    ensures SkipTrailingWhite(rest + trail) == rest
    decreases |trail|
  {
    if trail == [] {
      assert rest + trail == rest;
    } else {
      assert (rest + trail)[..|rest + trail| - 1] == rest + trail[..|trail| - 1];
      SkipTrailingWhiteOf(rest, trail[..|trail| - 1]);
    }
  }

  /** Parsing the text of a 32-bit number gives the number back. */
  lemma ParseOfInt32Text(n: int)
    requires IsInt32(n)
    ensures ParseInt32(Int32Text(n)) == Some(n)
  {
    var s := Int32Text(n);
    assert !IsNumberWhite(s[0]);
    assert SkipLeadingWhite(s) == s;
    assert !IsNumberWhite(s[|s| - 1]);
    assert SkipTrailingWhite(s) == s;
    ParseSignedOfInt32Text(n);
  }

  lemma ParseSignedOfInt32Text(n: int)
    requires IsInt32(n)
    ensures ParseSigned(Int32Text(n)) == Some(n)
  {
    var s := Int32Text(n);
    if n < 0 {
      var d := NatText(-n);
      assert s[1..] == d;
      DigitsValueOfNatText(-n);
      assert DigitsValue(d) == -n;
    } else {
      DigitsValueOfNatText(n);
    }
  }

  /** `string.Join(",", pieces)`. */
  function JoinTexts(pieces: seq<string>): string {
    if |pieces| == 0 then ""
    else if |pieces| == 1 then pieces[0]
    else pieces[0] + "," + JoinTexts(pieces[1..])
  }

  /** `string.Split(',')`: the maximal comma-free pieces, always at least one. */
  function Split(s: string): (pieces: seq<string>)
    ensures |pieces| >= 1
    ensures forall i :: 0 <= i < |pieces| ==> ',' !in pieces[i]
  {
    if s == [] then [""]
    else
      var rest := Split(s[1..]);
      if s[0] == ',' then [""] + rest
      else [[s[0]] + rest[0]] + rest[1..]
  }

  /** Splitting a comma-free text followed by more text extends the first piece. */
  lemma {:induction false} SplitOfCommaFreePrefix(p: string, t: string)
    requires ',' !in p
    ensures Split(p + t) == [p + Split(t)[0]] + Split(t)[1..]
  {
    if p != [] {
      assert (p + t)[1..] == p[1..] + t;
      SplitOfCommaFreePrefix(p[1..], t);
      assert [p[0]] + (p[1..] + Split(t)[0]) == p + Split(t)[0];
    } else {
      assert p + t == t;
      assert p + Split(t)[0] == Split(t)[0];
      assert Split(t) == [Split(t)[0]] + Split(t)[1..];
    }
  }

  /** Splitting a join of comma-free pieces gives the pieces back. */
  lemma {:induction false} SplitOfJoin(pieces: seq<string>)
    requires |pieces| >= 1
    requires forall i :: 0 <= i < |pieces| ==> ',' !in pieces[i]
    ensures Split(JoinTexts(pieces)) == pieces
  {
    if |pieces| == 1 {
      SplitOfCommaFreePrefix(pieces[0], "");
      assert pieces[0] + "" == pieces[0];
    } else {
      var rest := JoinTexts(pieces[1..]);
      SplitOfJoin(pieces[1..]);
      assert pieces[0] + "," + rest == pieces[0] + ("," + rest);
      SplitOfCommaFreePrefix(pieces[0], "," + rest);
      assert ("," + rest)[1..] == rest;
      assert Split("," + rest) == [""] + pieces[1..];
      assert pieces[0] + "" == pieces[0];
      assert pieces == [pieces[0]] + pieces[1..];
    }
  }

  /** The `Values` text of a list of numbers. */
  function Join(numbers: seq<int>): string {
    JoinTexts(seq(|numbers|, i requires 0 <= i < |numbers| => Int32Text(numbers[i])))
  }

  /**
   * Parses every piece in order with `parse`; the first piece that does not parse is
   * the error.
   */
  function ParsePieces(parse: string -> Option<int>, pieces: seq<string>): (r: Result<seq<int>, string>)
    ensures r.Ok? ==> |r.value| == |pieces|
    ensures r.Err? ==> r.error in pieces && parse(r.error).None?
  {
    if pieces == [] then Ok([])
    else
      var head := parse(pieces[0]);
      if head.None? then Err(pieces[0])
      else
        var tail := ParsePieces(parse, pieces[1..]);
        if tail.Err? then Err(tail.error)
        else Ok([head.value] + tail.value)
  }

  /** Each number of a successful parse is what its own piece parses to. */
  lemma {:induction false} ParsePiecesElementwise(parse: string -> Option<int>, pieces: seq<string>)
    ensures var r := ParsePieces(parse, pieces);
      r.Ok? ==> forall i :: 0 <= i < |pieces| ==> parse(pieces[i]) == Some(r.value[i])
  {
    if pieces != [] {
      var tail := ParsePieces(parse, pieces[1..]);
      ParsePiecesElementwise(parse, pieces[1..]);
      var r := ParsePieces(parse, pieces);
      if r.Ok? {
        forall i | 1 <= i < |pieces|
          ensures parse(pieces[i]) == Some(r.value[i])
        {
          assert pieces[i] == pieces[1..][i - 1] && r.value[i] == tail.value[i - 1];
        }
      }
    }
  }

  /** Pieces that each parse to their number parse, together, to the list of numbers. */
  lemma {:induction false} ParsePiecesOfTexts(parse: string -> Option<int>, texts: seq<string>, numbers: seq<int>)
    requires |texts| == |numbers|
    requires forall i :: 0 <= i < |texts| ==> parse(texts[i]) == Some(numbers[i])
    ensures ParsePieces(parse, texts) == Ok(numbers)
  {
    if texts != [] {
      assert parse(texts[0]) == Some(numbers[0]);
      forall i | 0 <= i < |texts| - 1
        ensures parse(texts[1..][i]) == Some(numbers[1..][i])
      {
        assert texts[1..][i] == texts[i + 1] && numbers[1..][i] == numbers[i + 1];
      }
      ParsePiecesOfTexts(parse, texts[1..], numbers[1..]);
      assert numbers == [numbers[0]] + numbers[1..];
    }
  }

  /** Reads a `Values` text back into the list of numbers. */
  function Parse(values: string): (r: Result<seq<int>, string>)
    ensures r.Ok? ==> |r.value| == |Split(values)|
    ensures r.Ok? ==> forall i :: 0 <= i < |r.value| ==> IsInt32(r.value[i])
  {
    var r := ParsePieces(ParseInt32, Split(values));
    ParsePiecesElementwise(ParseInt32, Split(values));
    r
  }

  /**
   * A `Values` text reads as one 32-bit number per comma-separated piece, each the
   * number its piece denotes; a failure names a piece that denotes no 32-bit number.
   */
  lemma ParseReadsPieces(values: string)
    ensures var r := Parse(values);
      r.Ok? ==> forall i :: 0 <= i < |r.value| ==> IsNumberText(Split(values)[i], r.value[i])
    ensures var r := Parse(values);
      r.Err? ==> r.error in Split(values) && forall v :: IsInt32(v) ==> !IsNumberText(r.error, v)
  {
    var r := Parse(values);
    var pieces := Split(values);
    ParsePiecesElementwise(ParseInt32, pieces);
    if r.Ok? {
      forall i | 0 <= i < |r.value|
        ensures IsNumberText(pieces[i], r.value[i])
      {
        ParseInt32Iff(pieces[i], r.value[i]);
      }
    } else {
      forall v | IsInt32(v)
        ensures !IsNumberText(r.error, v)
      {
        ParseInt32Iff(r.error, v);
      }
    }
  }

  /** Reading back the text of a non-empty list of 32-bit numbers gives the list. */
  lemma ParseOfJoin(numbers: seq<int>)
    requires numbers != []
    requires forall i :: 0 <= i < |numbers| ==> IsInt32(numbers[i])
    ensures Parse(Join(numbers)) == Ok(numbers)
  {
    var texts := seq(|numbers|, i requires 0 <= i < |numbers| => Int32Text(numbers[i]));
    forall i | 0 <= i < |texts|
      ensures ',' !in texts[i]
    {
      var s := texts[i];
      if numbers[i] < 0 {
        assert forall j :: 1 <= j < |s| ==> s[j] == s[1..][j - 1];
      }
    }
    SplitOfJoin(texts);
    forall i | 0 <= i < |texts|
      ensures ParseInt32(texts[i]) == Some(numbers[i])
    {
      ParseOfInt32Text(numbers[i]);
    }
    ParsePiecesOfTexts(ParseInt32, texts, numbers);
  }

  /** An empty list is written as an empty text, which does not read back. */
  lemma EmptyListDoesNotReadBack()
    ensures Join([]) == "" && Parse("") == Err("")
  {
  }
}
